=== FILE: README.md ===
# hexagon-template-v1 in Dafny

This project models the core of a Go web service built in the hexagonal
style. It covers:

- the user entity and its validation rules;
- the login use case, with its per-email failure counter and 15-minute
  jail;
- token refresh;
- Google sign-in, including provisioning of new accounts;
- JWT issuing and parsing;
- the Postgres and DynamoDB repositories behind these, as tables and maps;
- the contact and movie-search slices;
- the HTTP layer: the JSON envelope, the central error handler, the
  request validator, and the authentication and movie-search handlers.

Everything is pure functions over immutable datatypes. Collaborators the
core cannot see are parameters:

- the password hasher, the JWT signing codec and the OAuth exchange are
  functions;
- the random source is a `Draw`, either the bytes read or the read error;
- the clock is an `Instant` in nanoseconds;
- a store's failure is an optional fault.

"The service is not called" is stated as "the reply is the same for every
service".

Modules, one per file, follow the program's packages:

| module | models |
|---|---|
| `Base`, `Text` | results and options; Go's `strings.TrimSpace`, `strconv.Itoa`/`Atoi` and UTF-8 length |
| `Errs` | the `errs` package: application errors, wrapping, `ErrorCode`, `ErrorMessage`, `errors.Is` |
| `Random` | `base64.RawURLEncoding` of random bytes, with its decoder |
| `Users` | `user/user.go`: `User`, its constants and `Validate` |
| `Jwt` | `pkg/jwt/provider.go` |
| `GoogleOAuth` | `pkg/oauth/google/provider.go`: the lenient `verified_email` decoder and `NewProvider` |
| `PgUsers`, `PgAttempts` | `postgres/user.go`, `postgres/login_attempt.go` |
| `DynamoAttempts` | `dynamodb/login_attempt.go` |
| `Auth` | `auth/usecase.go` |
| `UserUsecase`, `Contacts`, `Movies` | the user, contact and movie use cases with their handlers and repositories |
| `HttpResponse`, `HttpServer`, `HttpValidator`, `HttpAuth` | `httpserver/response.go`, `server.go`, `validator.go`, `auth.go` |

In these places the code does something a reader might not expect from
its names and fields, and the model follows the code:

- **Lockout state.** The lockout lives in the separate `LoginAttempt`
  record (`failedCount`, `jailedUntil`). It does not live in the `User`
  fields `failed_login_attempts`, `lock_until` and `status`.
- **Lookup errors.** Any error from the user lookup during login is
  answered as invalid credentials and counted as a failure, not only
  "not found".
- **Password policies.** The HTTP validator's password rule and the
  entity's rule are different policies. `HttpValidator` proves where they
  part: 9 bytes, 73 bytes, inner spaces, and non-ASCII characters.
- **Echo errors with non-string messages.** The central error handler
  panics on an echo error whose message is not a string. The model
  excludes such errors with a precondition on `HttpServer.Classify`.
- **Expired tokens.** `jwt.Parse` already checks the time claims, so an
  expired token is reported as `invalid token`. The later `token expired`
  branch of `parseTokenClaims` cannot be reached, and `Jwt.ParseTokenClaims`
  keeps it only as dead code.

## Model

| member | source | states |
|---|---|---|
| Errs.ErrorCode | errs/error_test.go:52-131 | no error gives the empty code; an application error gives its own code; an error with no application error inside gives `internal` |
| Errs.ErrorMessage | errs/error_test.go:133-188 | no error gives the empty message; an application error gives its own message; an error with no application error inside gives `Internal error.` |
| Errs.CodeAndMessageSeeThroughWrapping | errs/error_test.go:117-120 | joining a single error, or wrapping it with context, changes neither its code nor its message |
| Errs.PlainChainsAreInternal | errs/error_test.go:112-115 | a join of any number of plain errors is coded `internal` |
| Users.ValidateName | user/user.go:183-191 | passes exactly when the name is non-empty and at most 100 UTF-8 bytes; otherwise it reports required or too long |
| Users.ValidateEmail | user/user.go:193-201 | passes exactly when the email is non-empty and the address parser accepts it; otherwise it reports required or invalid format |
| Users.ValidatePhone | user/user.go:228-236 | passes exactly when the phone is empty or exactly ten ASCII digits; otherwise it reports invalid format |
| Users.ValidatePassword | user/user.go:203-226 | passes exactly under the strong-password rule; the empty, too-short and too-long cases each get their own error; within the length bounds, a missing uppercase, lowercase, number and special character are reported in that order |
| Users.ValidateRoleAndStatus | user/user.go:106-114 | passes exactly when the role and the status are empty or known; a bad role is reported as `ErrInvalidRole`; with an empty or known role, a bad status is reported as `ErrInvalidStatus` |
| Users.ValidateCounters | user/user.go:116-121 | passes exactly when both counters are non-negative |
| Users.ValidateLockAndFailedLoginState | user/user.go:123-137 | passes exactly when the lock fields are consistent with the status and the clock and the failed-login fields with the counter and the clock; a broken lock clause is `ErrInvalidLockState`, and otherwise a broken failed-login clause is `ErrInvalidFailedLoginState` |
| Users.Trimmed | user/user.go:76-79 | trimming touches only the four text fields |
| Users.FirstFailure | user/user.go:82-103 | none exactly when every check passes; otherwise the first failing check's error |
| Users.Validate | user/user.go:75-104 | passes exactly when the trimmed user satisfies every rule |
| Users.ValidateReportsFirstFailure | user/user.go:82-103 | the error reported is the one from the first check, in source order, that fails |
| Users.FirstFailureIsFirst | user/user.go:82-103 | in any check list, the first failing check decides the outcome |
| Users.PhoneErrorMeansNameAndEmailPassed | user/user.go:82-91 | a phone error means that the trimmed name and email passed and that the trimmed phone is non-empty and not ten digits |
| Users.FreshAccountValidates | user/user.go:75-137 | an account with a good name, email and strong password, no phone, default role and status, and zero counters is valid |
| Users.LockedNeedsFutureExpiry | user/user.go:123-130 | a valid locked user has a lock expiry in the future |
| Random.DecodeEncode | pkg/jwt/provider.go:172-181 | decoding the unpadded URL-safe base64 encoding of any bytes gives the bytes back |
| Random.EncodeInjective | auth/usecase.go:301-310 | different random byte strings give different tokens |
| Random.EncodeUsesAlphabet | pkg/jwt/provider.go:180 | every character of an encoding is from the URL-safe alphabet |
| Random.RandomToken | auth/usecase.go:312-321 | a non-positive length fails with the guard's message; otherwise a failed read fails with its error and a good read succeeds; a success is the prefix followed by an encoding that decodes to the bytes read |
| Jwt.NewProvider | pkg/jwt/provider.go:22-30 | the provider keeps the secret and lifetimes and uses the default issuer and audience |
| Jwt.GenerateJti | pkg/jwt/provider.go:172-181 | a non-positive length fails; otherwise a failed read fails with its error and a good read succeeds; a success is a non-empty token that decodes to the bytes read |
| Jwt.TokenClaims | pkg/jwt/provider.go:32-78 | a token carries exactly the eleven registered and custom claims |
| Jwt.GenerateToken | pkg/jwt/provider.go:32-78 | a failed random read fails the token; otherwise the result is the codec's signature over the claims |
| Jwt.AccessAndRefreshClaimsDiffer | pkg/jwt/provider.go:32-78 | access and refresh claims agree except on `type` and `exp`; `iat` and `nbf` are the issue time and `sub` and `user_id` the user's id |
| Jwt.ParseTokenClaims | pkg/jwt/provider.go:105-124 | succeeds exactly for an HMAC-signed token whose time claims hold now; every failure is `invalid token` |
| Jwt.ValidateRefreshClaims | pkg/jwt/provider.go:126-140 | passes exactly when the type is `refresh`, the issuer and audience are the provider's and the token id is non-empty; a wrong type is reported as `invalid token type` |
| Jwt.UserIdFromClaims | pkg/jwt/provider.go:142-154 | the non-empty `sub`, else the non-empty `user_id`, else `invalid user id` |
| Jwt.EmailFromClaims | pkg/jwt/provider.go:156-162 | the non-empty `email`, else `invalid email` |
| Jwt.RoleFromClaims | pkg/jwt/provider.go:164-170 | the non-empty `role`, else `user` |
| Jwt.ParseRefreshToken | pkg/jwt/provider.go:80-103 | a success comes from a timely, well-signed refresh token and carries the id, email and role read from its claims; a parse or claim-check failure is returned as it is; claims that pass every check and carry an id and an email always parse |
| Jwt.FreshClaimsAreTimely | pkg/jwt/provider.go:36-46 | claims issued at `t` pass the time checks at any moment within their lifetime |
| Jwt.RefreshRoundTrip | pkg/jwt/provider.go:56-103 | a refresh token parsed within its lifetime gives back the user's id, email and role |
| Jwt.AccessTokenIsNotRefreshToken | pkg/jwt/provider.go:126-140 | an access token is always refused as a refresh token |
| Jwt.ExpiredTokenIsRefused | pkg/jwt/provider.go:111-121 | a token whose expiry has passed is refused as `invalid token` |
| GoogleOAuth.ParseBool | pkg/oauth/google/provider.go:44 | accepts exactly the spellings of Go's `strconv.ParseBool` and is true for the true ones |
| GoogleOAuth.ParseFormatBool | pkg/oauth/google/provider.go:44 | parsing a formatted boolean gives it back |
| GoogleOAuth.Unquote | pkg/oauth/google/provider.go:40 | a quoted string without escapes unquotes to its inside; a raw newline is refused |
| GoogleOAuth.UnquoteQuote | pkg/oauth/google/provider.go:39-43 | quoting text without quotes, backslashes or newlines and unquoting gives it back |
| GoogleOAuth.FlexibleBoolBlankOrNull | pkg/oauth/google/provider.go:26-30 | blank or `null` decodes to false |
| GoogleOAuth.FlexibleBoolLiteral | pkg/oauth/google/provider.go:31-38 | the JSON literals decode to their value |
| GoogleOAuth.FlexibleBoolLiteralAfterOtherSpace | pkg/oauth/google/provider.go:26-35 | a literal after a Unicode space that JSON does not allow passes the trim but is a JSON syntax error |
| GoogleOAuth.FlexibleBoolQuotedWord | pkg/oauth/google/provider.go:39-50 | a quoted word decodes exactly when its trimmed inside is a `ParseBool` spelling |
| GoogleOAuth.FlexibleBoolInteger | pkg/oauth/google/provider.go:52-57 | any 64-bit integer decodes to whether it is non-zero |
| GoogleOAuth.FlexibleBoolLeadingZero | pkg/oauth/google/provider.go:52-60 | digits after a leading zero are not JSON and are refused as an invalid bool value |
| GoogleOAuth.FlexibleBoolFraction | pkg/oauth/google/provider.go:52-60 | a number with a fraction is refused as an invalid bool value |
| GoogleOAuth.FlexibleBoolSound | pkg/oauth/google/provider.go:24-61 | a successful decode is blank or `null` (false), an unpadded JSON literal, quoted text whose trimmed inside is a `ParseBool` spelling, or a 64-bit JSON integer (true when non-zero), and nothing else |
| GoogleOAuth.DecideSound | pkg/oauth/google/provider.go:24-61 | the same four shapes, stated for the two trimmed views of the input |
| GoogleOAuth.FlexibleBoolExponent | pkg/oauth/google/provider.go:52-60 | a number with an exponent, such as `1e0`, is refused as an invalid bool value |
| GoogleOAuth.FlexibleBoolOutOfRange | pkg/oauth/google/provider.go:52-60 | an integer outside the 64-bit range, such as a 20-digit one, is refused as an invalid bool value |
| GoogleOAuth.NewProvider | pkg/oauth/google/provider.go:63-87 | fails exactly when a credential is blank; otherwise it keeps the trimmed credentials and the three scopes |
| GoogleOAuth.NewProviderIdempotent | pkg/oauth/google/provider.go:64-66 | a provider's own credentials pass again unchanged |
| PgUsers.DomainRoundTrip | postgres/user.go:171-203 | domain to row to domain keeps everything except the plaintext password and the timestamps |
| PgUsers.ModelRoundTrip | postgres/user.go:171-203 | row to domain to row keeps everything except the timestamps |
| PgUsers.ToModelUserInjective | postgres/user.go:189-203 | two users with the same row agree on every stored field |
| PgUsers.Lookup | postgres/user.go:42-69 | finds the first matching row, and finds none exactly when no row matches |
| PgUsers.NotFoundAsUserNotFound | postgres/user.go:47-52 | "record not found" becomes `ErrUserNotFound`; other errors pass through |
| PgUsers.GetByEmail | postgres/user.go:42-54 | with a working store, succeeds exactly when a row has the email and returns that row; otherwise `ErrUserNotFound` |
| PgUsers.GetById | postgres/user.go:57-69 | with a working store, succeeds exactly when a row has the id and returns that row; otherwise `ErrUserNotFound` |
| PgUsers.GetByEmailFindsTheRow | postgres/user.go:42-54 | in a table with unique emails, every row is found by its email |
| PgUsers.IsDuplicateEmailErrorExactly | postgres/user.go:205-211 | a duplicate email is a unique violation on the email constraint, found anywhere in the error chain |
| PgUsers.DuplicateConstraintsClassified | postgres/user.go:205-211 | a violation of the primary key is not a duplicate email |
| PgUsers.WithDefaults | postgres/user.go:77-86 | the insert fills a missing id, role, status and timestamps and changes nothing else |
| PgUsers.Insert | postgres/user.go:77-86 | with a working store, the insert succeeds exactly when the defaulted id and the email are new, and appends the defaulted row; a taken email is a unique violation on the email constraint; ids and emails stay unique |
| PgUsers.CreateUser | postgres/user.go:77-86 | a failed create leaves the table as it was; a success appends the defaulted row |
| PgUsers.CreateThenGetByEmail | postgres/user.go:77-86 | a created user is found by its email with its defaults |
| PgUsers.CreateUserTx | postgres/user.go:90-109 | a callback or commit failure rolls the insert back; a success appends one row, which is the user given to the callback |
| PgUsers.CallbackFailureRollsBack | postgres/user.go:98-102 | a callback that always fails leaves the table unchanged and reports an error |
| PgUsers.AllUsers | postgres/user.go:112-123 | every row, in order, as a domain user |
| PgUsers.AllUsersAfterCreate | postgres/user.go:77-123 | after a create, the listing ends with the created user |
| PgUsers.UpdateWhereId | postgres/user.go:126-169 | changes exactly the row with the id, and reports whether one was found |
| PgUsers.UpdateProfile | postgres/user.go:126-139 | an unknown id is `ErrUserNotFound` with no change; otherwise exactly the row with that id changes, and only in name, phone and `updated_at`; the result is that row read back by id |
| PgUsers.UpdatePasswordHash | postgres/user.go:142-154 | succeeds exactly for a known id; exactly the row with that id changes, and only in `password_hash` and `updated_at`; the user then reads back with the new hash |
| PgUsers.UpdateStatus | postgres/user.go:157-169 | succeeds exactly for a known id; exactly the row with that id changes, and only in `status` and `updated_at`; the user then reads back with the new status |
| PgUsers.UpdatedRowReadsBack | postgres/user.go:126-169 | the updated row is read back through `GetById` |
| PgAttempts.Truncate | postgres/login_attempt.go:57-71 | a stored time is the instant rounded down to whole microseconds |
| PgAttempts.RowRoundTrip | postgres/login_attempt.go:35-71 | saving and reading back a record gives it, with the jail time truncated |
| PgAttempts.WholeMicrosecondsSurvive | postgres/login_attempt.go:35-71 | a record whose jail time is in whole microseconds survives exactly |
| PgAttempts.Get | postgres/login_attempt.go:35-54 | a missing row reads as the zero record; other errors pass through |
| PgAttempts.SaveThenGet | postgres/login_attempt.go:35-71 | after a save, the email reads back as the stored record |
| PgAttempts.ResetThenGet | postgres/login_attempt.go:35-76 | after a reset, the email reads back as the zero record |
| PgAttempts.ImplementsAttemptStore | postgres/login_attempt.go:35-76 | the table behaves as the login use case's attempt store |
| DynamoAttempts.ValidateTable | dynamodb/dynamodb.go:56-61 | fails exactly when the table name is blank |
| DynamoAttempts.FailedCount | dynamodb/login_attempt.go:47-51 | a missing or unreadable count is zero; otherwise it is the parsed number |
| DynamoAttempts.Encode | dynamodb/login_attempt.go:69-78 | the item holds the email and count, and a jail time exactly when one is set |
| DynamoAttempts.DecodeEncode | dynamodb/login_attempt.go:42-78 | decoding an encoded record gives it back when the time format reads back |
| DynamoAttempts.BadCountReadsAsZero | dynamodb/login_attempt.go:47-51 | an unparsable count reads as zero rather than as an error |
| DynamoAttempts.Get | dynamodb/login_attempt.go:27-62 | a blank table fails; store errors are wrapped; a missing item is the zero record |
| DynamoAttempts.Save | dynamodb/login_attempt.go:64-89 | a blank table fails; store errors are wrapped; otherwise the item is replaced |
| DynamoAttempts.Reset | dynamodb/login_attempt.go:91-107 | a blank table fails; store errors are wrapped; otherwise the item is deleted |
| DynamoAttempts.BlankTableFailsEverything | dynamodb/login_attempt.go:28-30 | with a blank table name, every operation fails before the store is used |
| DynamoAttempts.SaveThenGet | dynamodb/login_attempt.go:27-107 | a saved record reads back; a reset one reads as zero |
| DynamoAttempts.OtherEmailsUntouched | dynamodb/login_attempt.go:64-107 | saving or resetting one email does not change what another reads |
| Auth.GetAttempt | auth/usecase.go:110-113 | fails exactly when the store read fails; otherwise the email's record |
| Auth.SaveAttempt | auth/usecase.go:298 | a failed save changes nothing; a successful one sets only that email's record |
| Auth.ResetAttempts | auth/usecase.go:142-144 | a failed reset changes nothing; a successful one clears only that email's record |
| Auth.NewUsecase | auth/usecase.go:88-107 | five tries, then a fifteen-minute jail |
| Auth.MintPair | auth/usecase.go:146-159 | a pair exactly when both tokens mint; otherwise the first minting error |
| Auth.RecordFailure | auth/usecase.go:292-299 | one more failure under the limit; at the limit the count restarts and a jail runs from now |
| Auth.Login | auth/usecase.go:109-160 | a read failure stops at once; a success means the password matched, the record is cleared, and the pair is the user's |
| Auth.JailRefusesAnyPassword | auth/usecase.go:115-118 | a running jail refuses any password without looking the user up, comparing or saving |
| Auth.ExpiredJailIsCleared | auth/usecase.go:119-124 | an expired jail is saved as the zero record first, then the login goes as from a clean record |
| Auth.RefusedCredentials | auth/usecase.go:126-140 | an unknown email, a failing lookup and a wrong password all record one more failure and answer invalid credentials |
| Auth.AcceptedCredentials | auth/usecase.go:135-159 | good credentials clear the record and return the minted pair |
| Auth.FailuresCountUp | auth/usecase.go:292-299 | from a clean record, refused logins under the limit count up by one each |
| Auth.FiveFailuresLockTheAccount | auth/usecase.go:101-102 | five refused logins jail the email, so a sixth within fifteen minutes is refused as locked even with the right password |
| Auth.Refresh | auth/usecase.go:162-182 | any unreadable token is `ErrInvalidRefreshToken`; otherwise a new pair for the identity it names |
| Auth.RefreshWithJwt | auth/usecase.go:162-182 | with the JWT provider, a refresh token yields a pair for its user and an access token is refused |
| Auth.GoogleAuthUrl | auth/usecase.go:184-192 | not configured, or a blank state, is an error; otherwise the provider's URL for the state |
| Auth.RandomPassword | auth/usecase.go:301-310 | a non-positive length fails; otherwise a failed read fails with its error and a good read succeeds; a success decodes to the bytes read |
| Auth.RandomName | auth/usecase.go:312-321 | a non-positive length fails; otherwise a failed read fails with its error and a good read succeeds; a success is `user_` followed by an encoding of the bytes read |
| Auth.GetOrCreateUserFromOAuth | auth/usecase.go:237-290 | an existing account is returned with the table unchanged; a created one is the single appended row, and its pair is minted for it; a failure leaves the table unchanged |
| Auth.LoginWithGoogle | auth/usecase.go:194-235 | in order: not configured, a blank code, the exchange's own error, a blank email, then an unverified email, each answered before the user store is touched; a failure creates nothing |
| Auth.ExistingAccountCreatesNothing | auth/usecase.go:238-240 | an email that has a user creates nothing and returns that user's pair |
| Auth.NewAccountIsProvisioned | auth/usecase.go:246-267 | a new account gets the email, role `user`, status `active`, a hashed random password, and the trimmed or random name |
| Auth.MintFailureCreatesNothing | auth/usecase.go:270-287 | if minting fails, the transaction stores nothing |
| Auth.LookupErrorIsReturned | auth/usecase.go:241-244 | a lookup error other than not found is returned and nothing is created |
| UserUsecase.AddUserAsWritten | user/usecase.go:32-41 | an invalid user is refused and a hash error is returned; as written, the user sent to the store carries the hash in the password field |
| UserUsecase.AsWrittenStoresNoHash | user/usecase.go:40 | as written, the stored user has an empty password hash |
| UserUsecase.AsWrittenUserCannotLogIn | user/usecase.go:40 | as written, the user cannot then log in with the password given |
| UserUsecase.Prepared | user/usecase.go:40 | the user sent on carries the hash in `PasswordHash`, no plain password, and the default role `user` and status `active` when none is given; every other field is the user given |
| UserUsecase.AddUser | user/usecase.go:32-41 | an invalid user is refused; a hash failure is returned; a valid user is sent with its name and email, the hash in `PasswordHash`, an empty `Password`, and the default role and status |
| UserUsecase.AddUserStoresHash | user/usecase.go:32-41 | the stored user carries the password's hash and the default role and status |
| UserUsecase.AddedUserCanLogIn | user/usecase.go:32-41 | a user added this way can log in with the password given |
| UserUsecase.AddThenList | user/usecase.go:32-46 | after an add, the listing is the earlier users followed by the new one, with its email and hash |
| Contacts.Validate | contact/contact.go:17-27 | passes exactly when the name and phone are non-empty; the name is checked first; both errors are `invalid` |
| Contacts.AddContact | contact/usecase.go:23-28 | an invalid contact is refused without calling the repository; a valid one is passed to it |
| Contacts.NoFormatRules | contact/contact.go:17-27 | any non-empty name and phone is accepted |
| Contacts.AddThenList | contact/usecase.go:23-32 | after an add, a valid contact is listed last and an invalid one is left out |
| HttpResponse.RespondSuccess | httpserver/response.go:32-38 | the status doubles as the envelope's code, which reads back as the status, and the message is `OK` |
| HttpResponse.RespondList | httpserver/response.go:40-44 | the data sits under the single key `data` |
| HttpResponse.AppCodeInjective | httpserver/response.go:17-22 | different error kinds get different application codes |
| HttpResponse.StatusCode | httpserver/response.go:95-98 | a three-digit status gives six digits reading `100000 + status`; status 0 gives `100500` |
| HttpResponse.ErrorCodeAsWritten | httpserver/response.go:77-99 | only an error that is itself an application error is coded by its kind |
| HttpResponse.WrappedInvalidLosesItsCode | httpserver/response.go:78 | as written, a wrapped invalid-input error answered with 400 is coded `100400`, not `100010` |
| HttpResponse.ResponseCode | httpserver/response.go:77-99 | the evidently intended coding: the application error is found inside wrapped and joined errors too |
| HttpResponse.ErrorCodeAgreesOnUnwrapped | httpserver/response.go:77-99 | both codings agree on unwrapped errors |
| HttpResponse.ErrorCodeSeesThroughWrapping | httpserver/response.go:77-99 | wrapping does not change the intended code |
| HttpResponse.RespondError | httpserver/response.go:60-75 | the message is never empty; an empty message is replaced by the status text, then `Error`; a 5xx status drops `info`; the code is `errorCode`'s as written |
| HttpResponse.RespondErrorLosesWrappedCode | httpserver/response.go:60-78 | so a reply for a wrapped invalid-input error with status 400 carries `100400` |
| HttpServer.ClientStatus | httpserver/server.go:98-113 | the five client-side kinds map to 400, 404, 409, 401 and 501, and nothing else does |
| HttpServer.Classify | httpserver/server.go:88-118 | an echo error is kept as it is; a client-side application error keeps its message; anything else is a 500 with a fixed message |
| HttpServer.HandleError | httpserver/server.go:120-126 | nothing is written once the response is committed |
| HttpServer.OnlyClientErrorsKeepTheirMessage | httpserver/server.go:96-117 | only echo and client-side errors reach the client with their own message |
| HttpServer.WrappingKeepsOnlyApplicationErrors | httpserver/server.go:93-98 | wrapping keeps an application error's status but hides an echo error |
| HttpServer.StatusAndApplicationCodeAgree | httpserver/server.go:98-117 | the status and the envelope code agree for every kind except invalid input |
| HttpServer.Default | httpserver/server.go:34-39 | the server listens on `:8080` and allows any origin |
| HttpServer.GlobalMiddlewares | httpserver/server.go:63-77 | the fixed stack comes first; CORS is installed exactly when origins are configured, with those origins, and nothing else follows |
| HttpServer.DefaultAllowsAnyOrigin | httpserver/server.go:34-76 | the default server installs CORS for `*` |
| HttpValidator.MatchesDigits | httpserver/validator.go:12 | matches exactly ten ASCII digits |
| HttpValidator.IsPhone | httpserver/validator.go:46-52 | a string field is a phone exactly when its trimmed value is ten digits |
| HttpValidator.IsStrongPassword | httpserver/validator.go:61-85 | true exactly for a string of at least 12 trimmed bytes with a lower, an upper, a digit and some other character |
| HttpValidator.ScanClasses | httpserver/validator.go:70-82 | each flag is set exactly when some character of its class occurs |
| HttpValidator.PoliciesAgreeOnPrintableAscii | httpserver/validator.go:61-85 | on trimmed printable ASCII of 12 to 72 bytes, the HTTP and the entity password policies agree |
| HttpValidator.NineBytesSplitThePolicies | httpserver/validator.go:66 | a 9-byte password passes the entity's policy but not the HTTP one |
| HttpValidator.LongPasswordSplitsThePolicies | httpserver/validator.go:66 | a 73-byte password passes the HTTP policy but not the entity's |
| HttpValidator.InnerSpaceSplitsThePolicies | httpserver/validator.go:79-80 | a space counts as special for the HTTP policy but not for the entity's |
| HttpValidator.NonAsciiSplitsThePolicies | httpserver/validator.go:70-83 | in a 12-to-72-byte password of ASCII letters and digits plus one non-ASCII rune, the rune is special for the HTTP policy whatever it is, and the entity's policy accepts exactly when the Unicode tables call it punctuation or a symbol |
| HttpValidator.DomainAcceptsWhenSpecial | user/user.go:203-226 | where one rune decides the entity's policy, `validatePassword` reports no error exactly when that rune is punctuation or a symbol |
| HttpValidator.WithoutPunctuationNotStrong | user/user.go:203-226 | letters, digits and spaces alone never pass the entity's policy |
| HttpValidator.PhoneRulesAgree | httpserver/validator.go:46-52 | the HTTP phone rule and the entity's agree on values that are not blank after trimming; a blank phone passes the entity's rule and fails the HTTP one |
| HttpValidator.TagName | httpserver/validator.go:20-29 | the JSON name before the first comma; `-` hides the field; an empty name falls back to the Go field name |
| HttpValidator.TagNameRoundTrip | httpserver/validator.go:20-29 | a plain JSON name with options after a comma comes back as the name |
| HttpValidator.FormatValidationError | httpserver/validator.go:87-100 | a failure that is not a list of field errors is `validation error`; field errors follow `validation error: `, and a single one reads `validation error: <field> failed on <tag>` |
| HttpValidator.MessageNamesEveryField | httpserver/validator.go:87-100 | every failing field appears in the message with its tag |
| HttpValidator.Validate | httpserver/validator.go:35-40 | a failure is an `invalid` application error carrying the formatted message |
| HttpValidator.ValidationFailureIs400 | httpserver/validator.go:35-40 | a validation failure reaches the client as 400 with its message |
| HttpAuth.TokenFields | httpserver/auth.go:58-61 | the body has exactly the two token fields |
| HttpAuth.HandleLogin | httpserver/auth.go:35-62 | an unbound body is 400; a locked account is 429; bad credentials are 401; any other failure is 500; a success returns the pair |
| HttpAuth.JailedLoginIs429 | httpserver/auth.go:49-51 | a jailed email gets 429 |
| HttpAuth.RefusedLoginIs401 | httpserver/auth.go:52-54 | refused credentials get 401 |
| HttpAuth.HandleRefresh | httpserver/auth.go:177-196 | an unbound body is 400; an invalid token is 401; other failures are 500; a success returns the pair |
| HttpAuth.RefusedRefreshTokenIs401 | httpserver/auth.go:186-188 | an unreadable refresh token gets 401 |
| HttpAuth.GenerateOAuthState | httpserver/auth.go:154-163 | a non-positive length fails; otherwise a failed read fails with its error and a good read succeeds; a success decodes to the bytes read |
| HttpAuth.HandleGoogleLogin | httpserver/auth.go:72-98 | a state failure is 500; not configured is 501; a success returns the URL and sets a lax, http-only, five-minute cookie holding the state |
| HttpAuth.GeneratedStateIsNotBlank | httpserver/auth.go:154-163 | a generated state is never blank |
| HttpAuth.ConfiguredGoogleLoginSucceeds | httpserver/auth.go:72-98 | with Google configured and randomness working, the cookie holds exactly the state the URL was built for |
| HttpAuth.HandleGoogleCallback | httpserver/auth.go:110-152 | a missing code or state is 400 and a state mismatch 401, both before the service is called; a success clears the cookie |
| HttpAuth.CallbackFailure | httpserver/auth.go:123-137 | in order: not configured is 501, a missing code or state is 400, an email, verification or OAuth-user error is 401 `invalid oauth user`, and every other error is 500 `internal error`; each case holds in both directions |
| HttpAuth.PreChecksDoNotCallTheService | httpserver/auth.go:111-120 | a refused callback answers the same whatever the service would do |
| HttpAuth.IssuedStatePassesTheCheck | httpserver/auth.go:72-122 | the state handed out by the login leg passes the callback's check |
| HttpAuth.BlankCodeIsRefusedByTheService | httpserver/auth.go:113-131 | a code of spaces passes the handler, is refused by the service, and is answered 400 |
| Movies.Clamp | postgres/movie.go:36-41 | the limit is between 1 and 100: in-range values are kept, non-positive ones become 20, larger ones 100 |
| Movies.ClampIdempotent | postgres/movie.go:36-41 | clamping twice is clamping once |
| Movies.RepositorySearch | postgres/movie.go:35-64 | a store error passes through; otherwise the first `min(limit, n)` ranked rows, in order, as movies |
| Movies.LargerLimitExtendsResults | postgres/movie.go:43-53 | a smaller limit gives a prefix of a larger one's results |
| Movies.DistinctIdsStayDistinct | postgres/movie.go:55-63 | distinct rows stay distinct movies |
| Movies.CopyRows | postgres/movie.go:55-63 | every row is copied field by field, in order |
| Movies.ParseSearch | httpserver/movie.go:29-45 | no service is 501; a blank or unparsable query is 400; a blank limit is 20; otherwise the limit is the parsed number |
| Movies.HandleSearch | httpserver/movie.go:28-53 | a parse failure or a service failure passes through; a success is a 200 list of the service's movies |
| Movies.HandlerErrorsAreClientErrors | httpserver/movie.go:29-45 | the handler's own errors reach the client as 400 and 501 with their messages |
| Movies.NonNumericLimitIsRefused | httpserver/movie.go:38-45 | a non-numeric limit is refused before the service is called |
| Movies.DecimalLimitIsParsed | httpserver/movie.go:38-45 | any 64-bit decimal limit is read as that number |
| Movies.MissingLimitGivesTwenty | httpserver/movie.go:38-41 | without a limit, the search returns the first 20 matches, or all of them when there are fewer |
| Movies.OutOfRangeLimitIsClamped | postgres/movie.go:36-41 | a non-positive limit returns up to 20 matches and a limit over 100 up to 100, or all of them when there are fewer |
| Movies.DatabaseErrorPassesThrough | httpserver/movie.go:47-50 | a database error reaches the handler unchanged |

## Left out

- Password hashing: bcrypt is a parameter `Hasher` with a hash and a
  compare function. The JWT HMAC signature is a parameter `Codec`, and
  the Google code exchange is a parameter `exchange`. The cryptography
  and the network are not modelled.
- Go's `strconv.Unquote` escape sequences: they are a parameter. Only
  quoted text without a backslash is decoded by the model itself.
- The wording of the JSON decoder's errors: the model keeps one
  `JsonSyntaxError` value.
- The quoting inside Go's `ParseBool` error text: it is simplified.
- `strings.ToLower`: it is modelled on ASCII letters only.
- PgUsers.CreateUser: `isDuplicateEmailError` recognises only lib/pq's
  `*pq.Error`, but the connection is opened through
  `gorm.io/driver/postgres`, whose default driver is pgx, which reports
  `*pgconn.PgError`. In the program as wired, a duplicate email most likely
  reaches the caller as the raw driver error rather than
  `ErrEmailAlreadyExists`. The model's `Insert` reports the violation as a
  `PqError`, so the mapping to `ErrEmailAlreadyExists` holds in the model
  and not necessarily in the program. The driver libraries are not part of
  this model.
- Stored times: Postgres keeps whole microseconds, which is modelled by
  `PgAttempts.Truncate`. Time zones are not modelled.
- DynamoDB's RFC 3339 time format: it is a parameter `TimeCodec`, and
  round trips assume that it reads back.
- `net/http`'s status texts: they are a parameter of
  `HttpResponse.RespondError`.
- The handlers' `writeError` and `writeSuccess` helpers: they are not part
  of this model. A reply records their arguments.
- The validation library's walk over struct fields: it is given as the
  list of failing fields and their tags.
- The contact repository: it is not part of this model. Adding a contact
  is modelled as an append to the listing.
- Concurrency, request contexts, and transactions' isolation from other
  callers: one fault per store operation stands for any failure.
- SQL full-text ranking in the movie search: the ranked rows are given,
  and the model states the limit, order and mapping.
- The behaviour of the middlewares (recover, secure headers, request id,
  gzip, Sentry, rate limiting, CORS, JWT): only the installed list and its
  order are modelled.
- The route table, Swagger, the health endpoint, and the server's start
  and shutdown.
- The clock: `time.Now` is a parameter `now`.
- Auth.JwtTokens: both tokens of a pair are stamped with the same instant
  `now`, where Go reads the clock once per token. Each token does draw its
  own random identifier.
- The random source: `rand.Read` is a `Draw` parameter.
- The Google provider's `Exchange` (HTTP calls to Google): it is a
  parameter.
- The user HTTP handlers, the DynamoDB user repository, the adapters and
  the `cmd` programs: they are not part of this model.
- Users.ValidateEmail: `net/mail.ParseAddress` is a parameter
  `isAddress`, so address syntax itself is not checked.
- Users.ValidatePassword: Unicode letter, digit, punctuation and symbol
  classes are a parameter `RuneClasses`, required to agree with ASCII on
  ASCII characters only.

## Findings

| source | as written | input that shows it | evidently intended | confidence | as-written member | corrected member |
|---|---|---|---|---|---|---|
| user/usecase.go:40 | the hash is written into `Password`, so the stored `PasswordHash` stays empty | any valid user with an empty `PasswordHash`, added with a working hasher | store the hash in `PasswordHash` | not executed | UserUsecase.AsWrittenStoresNoHash | UserUsecase.AddUserStoresHash |
| httpserver/response.go:78 | only an unwrapped `*errs.Error` is coded by its kind | `Wrapped("ctx", Errorf(invalid, m))` with status 400 is coded `100400` | `100010`, found through wrapping as `errs.ErrorCode` does | not executed | HttpResponse.WrappedInvalidLosesItsCode | HttpResponse.ErrorCodeSeesThroughWrapping |

=== FILE: auth.dfy ===
/**
 * The authentication use case: password login guarded by a per-email
 * attempt record, token refresh, and login through Google's OAuth 2.0
 * authorization-code grant (section 4.1 of RFC 6749).
 *
 * The collaborators are parameters. Password hashing, token minting and
 * the Google provider are functions in the `Usecase` record; the attempt
 * store is a map with one optional error per operation; the user store
 * is the `users` table of `PgUsers`, with optional errors for its
 * statements. The clock reading `now` and the random draws are arguments.
 * Every operation reports, besides its result and the stores after it,
 * the sequence of store and collaborator calls it made, so that "does
 * not look the user up" is a statement about that sequence.
 */
module Auth {
  import opened Base
  import opened Errs
  import opened Text
  import opened Users
  import PgUsers
  import Random
  import Jwt

  const ErrInvalidCredentials: Error := Plain("invalid credentials")
  const ErrAccountLocked: Error := Plain("account temporarily locked")
  const ErrInvalidRefreshToken: Error := Plain("invalid refresh token")
  const ErrInvalidOAuthUser: Error := Plain("invalid oauth user")
  const ErrMissingState: Error := Plain("missing oauth state")
  const ErrMissingCode: Error := Plain("missing oauth code")
  const ErrMissingEmail: Error := Plain("missing oauth email")
  const ErrUnverifiedEmail: Error := Plain("unverified oauth email")
  const ErrOAuthNotConfigured: Error := Plain("oauth provider not configured")

  /** Lengths, in random bytes, of a provisioned account's password and generated name. */
  const RandomPasswordBytes: int := 32
  const RandomNameBytes: int := 16
  const RandomNamePrefix: string := "user_"

  /** `LoginAttempt`: failures since the last success or jail, and the end of the current jail (zero if none). */
  datatype LoginAttempt = LoginAttempt(failedCount: int, jailedUntil: Instant)

  const ZeroAttempt: LoginAttempt := LoginAttempt(0, ZeroTime)

  /** The attempt store: a record per email, and the error each operation fails with, if any. */
  datatype AttemptStore = AttemptStore(
    records: map<string, LoginAttempt>,
    getFault: Option<Error>,
    saveFault: Option<Error>,
    resetFault: Option<Error>)

  /** The record an email has; an email never seen has the zero record. */
  function AttemptOf(s: AttemptStore, email: string): LoginAttempt {
    if email in s.records then s.records[email] else ZeroAttempt
  }

  predicate Quiet(s: AttemptStore) {
    s.getFault.None? && s.saveFault.None? && s.resetFault.None?
  }

  function GetAttempt(s: AttemptStore, email: string): (r: Result<LoginAttempt, Error>)
    ensures r.Failure? <==> s.getFault.Some?
    ensures r.Success? ==> r.value == AttemptOf(s, email)
  {
    if s.getFault.Some? then Failure(s.getFault.value) else Success(AttemptOf(s, email))
  }

  function SaveAttempt(s: AttemptStore, email: string, a: LoginAttempt): (r: (AttemptStore, Option<Error>))
    ensures r.1 == s.saveFault
    ensures r.1.Some? ==> r.0 == s
    ensures r.1.None? ==> AttemptOf(r.0, email) == a
    ensures forall other :: other != email ==> AttemptOf(r.0, other) == AttemptOf(s, other)
  {
    if s.saveFault.Some? then (s, s.saveFault)
    else (s.(records := s.records[email := a]), None)
  }

  function ResetAttempts(s: AttemptStore, email: string): (r: (AttemptStore, Option<Error>))
    ensures r.1 == s.resetFault
    ensures r.1.Some? ==> r.0 == s
    ensures r.1.None? ==> email !in r.0.records && AttemptOf(r.0, email) == ZeroAttempt
    ensures forall other :: other != email ==> AttemptOf(r.0, other) == AttemptOf(s, other)
  {
    if s.resetFault.Some? then (s, s.resetFault)
    else (s.(records := s.records - {email}), None)
  }

  /** The user table and the outcome each of its statements will have. */
  datatype UserDb = UserDb(
    table: PgUsers.Table,
    lookupFault: Option<Error>,
    insertFault: Option<Error>,
    commitFault: Option<Error>,
    freshId: string)

  datatype Hasher = Hasher(
    compare: (string, string) -> Option<Error>,
    hash: string -> Result<string, Error>)

  datatype TokenProvider = TokenProvider(
    access: User -> Result<string, Error>,
    refresh: User -> Result<string, Error>,
    parseRefresh: string -> Result<User, Error>)

  /** `OAuthUser`: what Google's userinfo endpoint says about the account. */
  datatype OAuthUser = OAuthUser(email: string, name: string, emailVerified: bool)

  datatype GoogleProvider = GoogleProvider(
    authCodeUrl: string -> string,
    exchange: string -> Result<OAuthUser, Error>)

  /** `Usecase`: the collaborators, the failures allowed before a jail, and the jail's length. */
  datatype Usecase = Usecase(
    hasher: Hasher,
    tokens: TokenProvider,
    google: Option<GoogleProvider>,
    maxRetries: int,
    jailDuration: Duration)

  /** `NewUsecase`: five failures earn a fifteen-minute jail. */
  function NewUsecase(hasher: Hasher, tokens: TokenProvider, google: Option<GoogleProvider>): (uc: Usecase)
    ensures uc.maxRetries == 5 && uc.jailDuration == 15 * Minute
    ensures uc.hasher == hasher && uc.tokens == tokens && uc.google == google
  {
    Usecase(hasher, tokens, google, 5, 15 * Minute)
  }

  datatype TokenPair = TokenPair(accessToken: string, refreshToken: string)

  const EmptyPair: TokenPair := TokenPair("", "")

  /** A call an operation makes on a store or a collaborator. */
  datatype Step =
    | ReadAttempt
    | WriteAttempt(attempt: LoginAttempt)
    | ClearAttempt
    | FindUser
    | CheckPassword
    | Exchange
    | HashPassword
    | InsertUser

  datatype LoginOutcome = LoginOutcome(attempts: AttemptStore, steps: seq<Step>, result: Result<TokenPair, Error>)

  datatype OAuthOutcome<T> = OAuthOutcome(table: PgUsers.Table, steps: seq<Step>, result: Result<T, Error>)

  /** An access token and then a refresh token for `u`; the first error stops it. */
  function MintPair(tokens: TokenProvider, u: User): (r: Result<TokenPair, Error>)
    ensures r.Success? <==> tokens.access(u).Success? && tokens.refresh(u).Success?
    ensures r.Success? ==> r.value == TokenPair(tokens.access(u).value, tokens.refresh(u).value)
    ensures tokens.access(u).Failure? ==> r == Failure(tokens.access(u).error)
    ensures tokens.access(u).Success? && tokens.refresh(u).Failure? ==> r == Failure(tokens.refresh(u).error)
  {
    var access :- tokens.access(u);
    var refresh :- tokens.refresh(u);
    Success(TokenPair(access, refresh))
  }

  /** The credentials are good: the email names a user and the password matches its hash. */
  predicate Accepts(uc: Usecase, db: UserDb, email: string, password: string) {
    var found := PgUsers.GetByEmail(db.table, email, db.lookupFault);
    found.Success? && uc.hasher.compare(found.value.passwordHash, password).None?
  }

  /** `recordFailure`'s new record: one more failure, or a jail from `now` once the limit is reached. */
  function RecordFailure(uc: Usecase, attempt: LoginAttempt, now: Instant): (next: LoginAttempt)
    ensures attempt.failedCount + 1 < uc.maxRetries ==> next == attempt.(failedCount := attempt.failedCount + 1)
    ensures attempt.failedCount + 1 >= uc.maxRetries ==> next == LoginAttempt(0, now + uc.jailDuration)
  {
    var bumped := attempt.(failedCount := attempt.failedCount + 1);
    if bumped.failedCount >= uc.maxRetries then bumped.(failedCount := 0, jailedUntil := now + uc.jailDuration)
    else bumped
  }

  /** A refused login: save the next record; the save's error, if any, replaces `ErrInvalidCredentials`. */
  function Refuse(uc: Usecase, store: AttemptStore, email: string, attempt: LoginAttempt, now: Instant, steps: seq<Step>): (o: LoginOutcome)
    ensures o.steps == steps + [WriteAttempt(RecordFailure(uc, attempt, now))]
    ensures o.result == Failure(if store.saveFault.Some? then store.saveFault.value else ErrInvalidCredentials)
    ensures o.attempts == SaveAttempt(store, email, RecordFailure(uc, attempt, now)).0
  {
    var next := RecordFailure(uc, attempt, now);
    var (store', err) := SaveAttempt(store, email, next);
    LoginOutcome(store', steps + [WriteAttempt(next)], Failure(if err.Some? then err.value else ErrInvalidCredentials))
  }

  /** The part of `Login` after the jail check: look up, compare, then reset and mint or refuse. */
  function Authenticate(uc: Usecase, store: AttemptStore, db: UserDb, email: string, password: string,
                        attempt: LoginAttempt, now: Instant, steps: seq<Step>): (o: LoginOutcome)
    ensures o.result.Success? ==> Accepts(uc, db, email, password)
  {
    match PgUsers.GetByEmail(db.table, email, db.lookupFault)
    case Failure(_) => Refuse(uc, store, email, attempt, now, steps + [FindUser])
    case Success(u) =>
      if uc.hasher.compare(u.passwordHash, password).Some? then
        Refuse(uc, store, email, attempt, now, steps + [FindUser, CheckPassword])
      else
        var (store', err) := ResetAttempts(store, email);
        var steps' := steps + [FindUser, CheckPassword, ClearAttempt];
        if err.Some? then LoginOutcome(store', steps', Failure(err.value))
        else LoginOutcome(store', steps', MintPair(uc.tokens, u))
  }

  /**
   * `Login`. A jail still running refuses at once; a jail that has run
   * out is cleared and saved first; then the credentials decide.
   */
  function Login(uc: Usecase, store: AttemptStore, db: UserDb, email: string, password: string, now: Instant): (o: LoginOutcome)
    ensures store.getFault.Some? ==> o == LoginOutcome(store, [ReadAttempt], Failure(store.getFault.value))
    ensures o.result.Success? ==>
      && Accepts(uc, db, email, password)
      && AttemptOf(o.attempts, email) == ZeroAttempt
      && o.result == MintPair(uc.tokens, PgUsers.GetByEmail(db.table, email, db.lookupFault).value)
    ensures |o.steps| >= 1 && o.steps[0] == ReadAttempt
  {
    match GetAttempt(store, email)
    case Failure(e) => LoginOutcome(store, [ReadAttempt], Failure(e))
    case Success(attempt) =>
      if !IsZero(attempt.jailedUntil) && After(attempt.jailedUntil, now) then
        LoginOutcome(store, [ReadAttempt], Failure(ErrAccountLocked))
      else if !IsZero(attempt.jailedUntil) then
        var (store', err) := SaveAttempt(store, email, ZeroAttempt);
        if err.Some? then LoginOutcome(store', [ReadAttempt, WriteAttempt(ZeroAttempt)], Failure(err.value))
        else Authenticate(uc, store', db, email, password, ZeroAttempt, now, [ReadAttempt, WriteAttempt(ZeroAttempt)])
      else Authenticate(uc, store, db, email, password, attempt, now, [ReadAttempt])
  }

  /** A running jail refuses every password, without looking the user up, comparing or saving. */
  lemma JailRefusesAnyPassword(uc: Usecase, store: AttemptStore, db: UserDb, email: string, password: string, now: Instant)
    requires store.getFault.None?
    requires !IsZero(AttemptOf(store, email).jailedUntil) && After(AttemptOf(store, email).jailedUntil, now)
    ensures Login(uc, store, db, email, password, now) == LoginOutcome(store, [ReadAttempt], Failure(ErrAccountLocked))
  {
  }

  /**
   * A jail that has run out is replaced by the zero record before the
   * credentials are looked at; from then on the call goes exactly as it
   * would have gone from the zero record.
   */
  lemma ExpiredJailIsCleared(uc: Usecase, store: AttemptStore, db: UserDb, email: string, password: string, now: Instant)
    requires store.getFault.None? && store.saveFault.None?
    requires !IsZero(AttemptOf(store, email).jailedUntil) && !After(AttemptOf(store, email).jailedUntil, now)
    ensures var o := Login(uc, store, db, email, password, now);
      var cleared := store.(records := store.records[email := ZeroAttempt]);
      var restart := Login(uc, cleared, db, email, password, now);
      && o.steps[..2] == [ReadAttempt, WriteAttempt(ZeroAttempt)]
      && o.attempts == restart.attempts
      && o.result == restart.result
  {
    var cleared := store.(records := store.records[email := ZeroAttempt]);
    assert AttemptOf(cleared, email) == ZeroAttempt;
  }

  /**
   * An unknown email, a failing lookup and a wrong password are treated
   * alike: one more failure is recorded and the answer is
   * `ErrInvalidCredentials`, unless saving the record fails.
   */
  lemma RefusedCredentials(uc: Usecase, store: AttemptStore, db: UserDb, email: string, password: string, now: Instant)
    requires store.getFault.None?
    requires IsZero(AttemptOf(store, email).jailedUntil)
    requires !Accepts(uc, db, email, password)
    ensures var o := Login(uc, store, db, email, password, now);
      var next := RecordFailure(uc, AttemptOf(store, email), now);
      && o.result == Failure(if store.saveFault.Some? then store.saveFault.value else ErrInvalidCredentials)
      && o.steps[|o.steps| - 1] == WriteAttempt(next)
      && (store.saveFault.None? ==> AttemptOf(o.attempts, email) == next)
  {
  }

  /** Good credentials with working stores clear the record and return the user's token pair. */
  lemma AcceptedCredentials(uc: Usecase, store: AttemptStore, db: UserDb, email: string, password: string, now: Instant)
    requires Quiet(store)
    requires !After(AttemptOf(store, email).jailedUntil, now) || IsZero(AttemptOf(store, email).jailedUntil)
    requires Accepts(uc, db, email, password)
    ensures var o := Login(uc, store, db, email, password, now);
      && o.result == MintPair(uc.tokens, PgUsers.GetByEmail(db.table, email, db.lookupFault).value)
      && email !in o.attempts.records
      && o.steps[|o.steps| - 1] == ClearAttempt
  {
  }

  /** The attempt store after a series of logins by one email, each a (password, time) pair. */
  function Replay(uc: Usecase, store: AttemptStore, db: UserDb, email: string, tries: seq<(string, Instant)>): (s: AttemptStore)
    decreases |tries|
  {
    if |tries| == 0 then store
    else
      var last := tries[|tries| - 1];
      Login(uc, Replay(uc, store, db, email, tries[..|tries| - 1]), db, email, last.0, last.1).attempts
  }

  /** Refused logins from a clean record count up, one per try, while under the limit. */
  lemma {:induction false} FailuresCountUp(uc: Usecase, store: AttemptStore, db: UserDb, email: string, tries: seq<(string, Instant)>)
    requires Quiet(store) && AttemptOf(store, email) == ZeroAttempt
    requires |tries| < uc.maxRetries
    requires forall i :: 0 <= i < |tries| ==> !Accepts(uc, db, email, tries[i].0)
    ensures Quiet(Replay(uc, store, db, email, tries))
    ensures AttemptOf(Replay(uc, store, db, email, tries), email) == LoginAttempt(|tries|, ZeroTime)
    decreases |tries|
  {
    if |tries| > 0 {
      var prefix := tries[..|tries| - 1];
      FailuresCountUp(uc, store, db, email, prefix);
      var last := tries[|tries| - 1];
      RefusedCredentials(uc, Replay(uc, store, db, email, prefix), db, email, last.0, last.1);
    }
  }

  /**
   * Five refused logins from a clean record jail the email: a sixth
   * attempt before fifteen minutes have passed since the fifth is refused
   * with `ErrAccountLocked`, even with the right password.
   */
  lemma FiveFailuresLockTheAccount(hasher: Hasher, tokens: TokenProvider, google: Option<GoogleProvider>,
                                   store: AttemptStore, db: UserDb, email: string,
                                   tries: seq<(string, Instant)>, password: string, now: Instant)
    requires Quiet(store) && AttemptOf(store, email) == ZeroAttempt
    requires |tries| == 5
    requires forall i :: 0 <= i < 5 ==> !Accepts(NewUsecase(hasher, tokens, google), db, email, tries[i].0)
    requires tries[4].1 + 15 * Minute != ZeroTime
    requires now < tries[4].1 + 15 * Minute
    ensures var uc := NewUsecase(hasher, tokens, google);
      Login(uc, Replay(uc, store, db, email, tries), db, email, password, now).result == Failure(ErrAccountLocked)
  {
    var uc := NewUsecase(hasher, tokens, google);
    var prefix := tries[..4];
    FailuresCountUp(uc, store, db, email, prefix);
    var before := Replay(uc, store, db, email, prefix);
    RefusedCredentials(uc, before, db, email, tries[4].0, tries[4].1);
    var after := Replay(uc, store, db, email, tries);
    assert AttemptOf(after, email) == LoginAttempt(0, tries[4].1 + 15 * Minute);
    JailRefusesAnyPassword(uc, after, db, email, password, now);
  }

  /** `Refresh`: any unreadable token is `ErrInvalidRefreshToken`; otherwise a new pair for the identity it names. */
  function Refresh(uc: Usecase, refreshToken: string): (r: Result<TokenPair, Error>)
    ensures uc.tokens.parseRefresh(refreshToken).Failure? ==> r == Failure(ErrInvalidRefreshToken)
    ensures uc.tokens.parseRefresh(refreshToken).Success? ==>
      r == MintPair(uc.tokens, uc.tokens.parseRefresh(refreshToken).value)
  {
    match uc.tokens.parseRefresh(refreshToken)
    case Failure(_) => Failure(ErrInvalidRefreshToken)
    case Success(u) => MintPair(uc.tokens, u)
  }

  /**
   * The token provider of `Jwt` during one request at `now`: tokens are
   * minted and read at `now`, and each kind of token draws its own random
   * identifier.
   */
  function JwtTokens(p: Jwt.Provider, codec: Jwt.Codec, now: Instant, accessDraw: Random.Draw, refreshDraw: Random.Draw): TokenProvider {
    TokenProvider(
      u => Jwt.GenerateAccessToken(p, codec, u, now, accessDraw),
      u => Jwt.GenerateRefreshToken(p, codec, u, now, refreshDraw),
      t => Jwt.ParseRefreshToken(p, codec, t, now))
  }

  /**
   * With the JWT provider, refreshing an unexpired refresh token gives a
   * pair for the identity it was issued to, while an access token is
   * refused as an invalid refresh token.
   */
  lemma RefreshWithJwt(uc: Usecase, p: Jwt.Provider, codec: Jwt.Codec, u: User, issued: Instant, now: Instant, draw: Random.Draw,
                       accessDraw: Random.Draw, refreshDraw: Random.Draw)
    requires uc.tokens == JwtTokens(p, codec, now, accessDraw, refreshDraw)
    requires draw.Read? && accessDraw.Read? && refreshDraw.Read?
    requires Jwt.ReadsBack(codec, p.secret, Jwt.TokenClaims(p, u, issued, Jwt.JtiOf(draw), Jwt.Refresh))
    requires Jwt.ReadsBack(codec, p.secret, Jwt.TokenClaims(p, u, issued, Jwt.JtiOf(draw), Jwt.Access))
    requires u.id != "" && u.email != ""
    requires issued <= now <= issued + p.refreshTtl
    ensures var identity := EmptyUser.(id := u.id, email := u.email, role := if u.role == "" then RoleUser else u.role);
      && Refresh(uc, Jwt.GenerateRefreshToken(p, codec, u, issued, draw).value) == MintPair(uc.tokens, identity)
      && MintPair(uc.tokens, identity).Success?
    ensures Refresh(uc, Jwt.GenerateAccessToken(p, codec, u, issued, draw).value) == Failure(ErrInvalidRefreshToken)
  {
    Jwt.RefreshRoundTrip(p, codec, u, issued, now, draw);
    Jwt.AccessTokenIsNotRefreshToken(p, codec, u, issued, now, draw);
    var identity := EmptyUser.(id := u.id, email := u.email, role := if u.role == "" then RoleUser else u.role);
    assert Jwt.GenerateAccessToken(p, codec, identity, now, accessDraw).Success?;
    assert Jwt.GenerateRefreshToken(p, codec, identity, now, refreshDraw).Success?;
  }

  /** `GoogleAuthURL`: the provider's consent URL for a non-blank state. */
  function GoogleAuthUrl(uc: Usecase, state: string): (r: Result<string, Error>)
    ensures uc.google.None? ==> r == Failure(ErrOAuthNotConfigured)
    ensures uc.google.Some? ==> (r.Success? <==> !All(state, IsSpace))
    ensures uc.google.Some? && All(state, IsSpace) ==> r == Failure(ErrMissingState)
    ensures r.Success? ==> r.value == uc.google.value.authCodeUrl(state)
  {
    if uc.google.None? then Failure(ErrOAuthNotConfigured)
    else if TrimSpace(state) == "" then Failure(ErrMissingState)
    else Success(uc.google.value.authCodeUrl(state))
  }

  /** `generateRandomPassword`: the URL-safe encoding of `length` random bytes. */
  function RandomPassword(length: int, draw: Random.Draw): (r: Result<string, Error>)
    ensures length <= 0 ==> r == Failure(Plain("invalid password length"))
    ensures length > 0 && draw.ReadFailed? ==> r == Failure(draw.err)
    ensures length > 0 && draw.Read? ==> r.Success?
    ensures r.Success? ==> draw.Read? && Random.Decode(r.value) == Some(Random.Bytes(draw.byteAt, length))
  {
    var r := Random.RandomToken("", length, draw, "invalid password length");
    assert r.Success? ==> r.value[|""|..] == r.value;
    r
  }

  /** `generateRandomName`: `user_` and the URL-safe encoding of `length` random bytes. */
  function RandomName(length: int, draw: Random.Draw): (r: Result<string, Error>)
    ensures length <= 0 ==> r == Failure(Plain("invalid name length"))
    ensures length > 0 && draw.ReadFailed? ==> r == Failure(draw.err)
    ensures length > 0 && draw.Read? ==> r.Success?
    ensures r.Success? ==>
      && draw.Read? && HasPrefix(r.value, RandomNamePrefix)
      && Random.Decode(r.value[|RandomNamePrefix|..]) == Some(Random.Bytes(draw.byteAt, length))
  {
    Random.RandomToken(RandomNamePrefix, length, draw, "invalid name length")
  }

  /** The user `getOrCreateUserFromOAuth` inserts for a new Google account. */
  function NewOAuthUser(ou: OAuthUser, name: string, passwordHash: string): User {
    EmptyUser.(name := name, email := ou.email, passwordHash := passwordHash, role := RoleUser, status := StatusActive)
  }

  /** The transaction callback: mint the created user's pair, failing with the minting error. */
  function MintCallback(tokens: TokenProvider): User -> Option<Error> {
    (c: User) => if MintPair(tokens, c).Failure? then Some(MintPair(tokens, c).error) else None
  }

  /** A found or created account, its tokens if they were minted with it, and whether it was created. */
  datatype Account = Account(user: User, tokens: TokenPair, created: bool)

  /**
   * `getOrCreateUserFromOAuth`. An existing account is returned as it is.
   * A missing one is created with a random password, the provider's
   * trimmed name (or a random one) and the default role and status; its
   * tokens are minted inside the creating transaction.
   */
  function GetOrCreateUserFromOAuth(uc: Usecase, db: UserDb, ou: OAuthUser, now: Instant,
                                    passwordDraw: Random.Draw, nameDraw: Random.Draw): (o: OAuthOutcome<Account>)
    ensures |o.steps| >= 1 && o.steps[0] == FindUser
    ensures InsertUser !in o.steps ==> o.table == db.table
    ensures o.result.Success? && !o.result.value.created ==>
      && o.table == db.table
      && Success(o.result.value.user) == PgUsers.GetByEmail(db.table, ou.email, db.lookupFault)
    ensures o.result.Success? && o.result.value.created ==>
      && |o.table| == |db.table| + 1 && o.table[..|db.table|] == db.table
      && o.result.value.user == PgUsers.ToDomainUser(o.table[|db.table|])
      && Success(o.result.value.tokens) == MintPair(uc.tokens, o.result.value.user)
    ensures o.result.Failure? ==> o.table == db.table
  {
    match PgUsers.GetByEmail(db.table, ou.email, db.lookupFault)
    case Success(u) => OAuthOutcome(db.table, [FindUser], Success(Account(u, EmptyPair, false)))
    case Failure(e) =>
      if !Is(e, ErrUserNotFound) then OAuthOutcome(db.table, [FindUser], Failure(e))
      else
        match RandomPassword(RandomPasswordBytes, passwordDraw)
        case Failure(e) => OAuthOutcome(db.table, [FindUser], Failure(e))
        case Success(password) =>
          match uc.hasher.hash(password)
          case Failure(e) => OAuthOutcome(db.table, [FindUser, HashPassword], Failure(e))
          case Success(hashed) =>
            var trimmed := TrimSpace(ou.name);
            match (if trimmed == "" then RandomName(RandomNameBytes, nameDraw) else Success(trimmed))
            case Failure(e) => OAuthOutcome(db.table, [FindUser, HashPassword], Failure(e))
            case Success(name) =>
              var tx := PgUsers.CreateUserTx(db.table, NewOAuthUser(ou, name, hashed), now, db.freshId,
                                             db.insertFault, Some(MintCallback(uc.tokens)), db.commitFault);
              var steps := [FindUser, HashPassword, InsertUser];
              if tx.err.Some? then OAuthOutcome(tx.table, steps, Failure(tx.err.value))
              else OAuthOutcome(tx.table, steps, Success(Account(tx.created, MintPair(uc.tokens, tx.created).value, true)))
  }

  /**
   * `LoginWithGoogle`. The provider, the code, the account's email and
   * its verification are checked in that order, all before the user
   * store is touched; then the account is found or created and a pair
   * returned for it.
   */
  function LoginWithGoogle(uc: Usecase, db: UserDb, code: string, now: Instant,
                           passwordDraw: Random.Draw, nameDraw: Random.Draw): (o: OAuthOutcome<TokenPair>)
    ensures uc.google.None? ==> o == OAuthOutcome(db.table, [], Failure(ErrOAuthNotConfigured))
    ensures uc.google.Some? && All(code, IsSpace) ==> o == OAuthOutcome(db.table, [], Failure(ErrMissingCode))
    ensures uc.google.Some? && !All(code, IsSpace) && uc.google.value.exchange(code).Failure? ==>
      o == OAuthOutcome(db.table, [Exchange], Failure(uc.google.value.exchange(code).error))
    ensures uc.google.Some? && !All(code, IsSpace) && uc.google.value.exchange(code).Success?
            && All(uc.google.value.exchange(code).value.email, IsSpace) ==>
      o == OAuthOutcome(db.table, [Exchange], Failure(ErrMissingEmail))
    ensures uc.google.Some? && !All(code, IsSpace) && uc.google.value.exchange(code).Success?
            && !All(uc.google.value.exchange(code).value.email, IsSpace)
            && !uc.google.value.exchange(code).value.emailVerified ==>
      o == OAuthOutcome(db.table, [Exchange], Failure(ErrUnverifiedEmail))
    ensures FindUser in o.steps ==>
      && uc.google.Some? && !All(code, IsSpace)
      && uc.google.value.exchange(code).Success?
      && !All(uc.google.value.exchange(code).value.email, IsSpace)
      && uc.google.value.exchange(code).value.emailVerified
    ensures InsertUser !in o.steps ==> o.table == db.table
    ensures o.result.Failure? ==> o.table == db.table
  {
    if uc.google.None? then OAuthOutcome(db.table, [], Failure(ErrOAuthNotConfigured))
    else if TrimSpace(code) == "" then OAuthOutcome(db.table, [], Failure(ErrMissingCode))
    else
      match uc.google.value.exchange(code)
      case Failure(e) => OAuthOutcome(db.table, [Exchange], Failure(e))
      case Success(ou) =>
        if TrimSpace(ou.email) == "" then OAuthOutcome(db.table, [Exchange], Failure(ErrMissingEmail))
        else if !ou.emailVerified then OAuthOutcome(db.table, [Exchange], Failure(ErrUnverifiedEmail))
        else
          var g := GetOrCreateUserFromOAuth(uc, db, ou, now, passwordDraw, nameDraw);
          var steps := [Exchange] + g.steps;
          match g.result
          case Failure(e) => OAuthOutcome(g.table, steps, Failure(e))
          case Success(account) =>
            if account.created then OAuthOutcome(g.table, steps, Success(account.tokens))
            else OAuthOutcome(g.table, steps, MintPair(uc.tokens, account.user))
  }

  /** A Google account whose email already has a user creates nothing and gets that user's pair. */
  lemma ExistingAccountCreatesNothing(uc: Usecase, db: UserDb, code: string, now: Instant,
                                      passwordDraw: Random.Draw, nameDraw: Random.Draw, i: nat)
    requires uc.google.Some? && !All(code, IsSpace)
    requires uc.google.value.exchange(code).Success?
    requires var ou := uc.google.value.exchange(code).value;
      !All(ou.email, IsSpace) && ou.emailVerified
    requires PgUsers.Consistent(db.table) && db.lookupFault.None?
    requires i < |db.table| && db.table[i].email == uc.google.value.exchange(code).value.email
    ensures var o := LoginWithGoogle(uc, db, code, now, passwordDraw, nameDraw);
      && o.table == db.table
      && o.result == MintPair(uc.tokens, PgUsers.ToDomainUser(db.table[i]))
  {
    PgUsers.GetByEmailFindsTheRow(db.table, i);
  }

  /**
   * A new Google account is stored with role `user`, status `active`, the
   * account's email, a hashed random password, and the provider's name
   * trimmed, or `user_` and a random suffix when that is blank; the pair
   * returned is the one minted for the stored user.
   */
  lemma NewAccountIsProvisioned(uc: Usecase, db: UserDb, ou: OAuthUser, now: Instant,
                                passwordDraw: Random.Draw, nameDraw: Random.Draw)
    requires GetOrCreateUserFromOAuth(uc, db, ou, now, passwordDraw, nameDraw).result.Success?
    requires GetOrCreateUserFromOAuth(uc, db, ou, now, passwordDraw, nameDraw).result.value.created
    ensures var o := GetOrCreateUserFromOAuth(uc, db, ou, now, passwordDraw, nameDraw);
      var u := o.result.value.user;
      && u.role == RoleUser && u.status == StatusActive && u.email == ou.email
      && u.password == ""
      && passwordDraw.Read?
      && RandomPassword(RandomPasswordBytes, passwordDraw).Success?
      && Success(u.passwordHash) == uc.hasher.hash(RandomPassword(RandomPasswordBytes, passwordDraw).value)
      && (!All(ou.name, IsSpace) ==> u.name == TrimSpace(ou.name))
      && (All(ou.name, IsSpace) ==> HasPrefix(u.name, RandomNamePrefix) && nameDraw.Read?)
  {
  }

  /** Minting is part of the creating transaction: if it fails for the new user, nothing is stored. */
  lemma MintFailureCreatesNothing(uc: Usecase, db: UserDb, ou: OAuthUser, now: Instant,
                                  passwordDraw: Random.Draw, nameDraw: Random.Draw)
    requires forall u :: MintPair(uc.tokens, u).Failure?
    ensures var o := GetOrCreateUserFromOAuth(uc, db, ou, now, passwordDraw, nameDraw);
      o.table == db.table && (o.result.Success? ==> !o.result.value.created)
  {
  }

  /** A failing lookup other than "not found" is returned as it is, and nothing is created. */
  lemma LookupErrorIsReturned(uc: Usecase, db: UserDb, ou: OAuthUser, now: Instant,
                              passwordDraw: Random.Draw, nameDraw: Random.Draw, fault: Error)
    requires db.lookupFault == Some(fault) && !Is(fault, PgUsers.ErrRecordNotFound) && !Is(fault, ErrUserNotFound)
    ensures GetOrCreateUserFromOAuth(uc, db, ou, now, passwordDraw, nameDraw) == OAuthOutcome(db.table, [FindUser], Failure(fault))
  {
  }
}

=== FILE: base.dfy ===
/**
 * Shared vocabulary of the model: optional values, results that carry an
 * error, and wall-clock instants.
 */
module Base {

  /** A value that may be absent: Go's nil pointer, a missing map entry. */
  datatype Option<+T> = None | Some(value: T)

  /** The `(value, error)` pair of a Go call, exactly one side meaningful. */
  datatype Result<+T, +E> = Success(value: T) | Failure(error: E) {

    predicate IsFailure() {
      Failure?
    }

    function PropagateFailure<U>(): Result<U, E>
      requires Failure?
    {
      Failure(error)
    }

    function Extract(): T
      requires Success?
    {
      value
    }
  }

  /**
   * An instant is a count of nanoseconds since Go's zero time
   * (January 1, year 1, 00:00:00 UTC), so `time.Time{}` is the instant 0
   * and `IsZero` holds exactly of it. Locations and the monotonic clock
   * reading are not modelled: every instant is in UTC.
   */
  type Instant = int

  /** A `time.Duration`: a signed count of nanoseconds. */
  type Duration = int

  const ZeroTime: Instant := 0
  const Microsecond: Duration := 1_000
  const Second: Duration := 1_000_000_000
  const Minute: Duration := 60 * Second

  /** Seconds from Go's zero time to the Unix epoch (1970-01-01T00:00:00Z). */
  const UnixEpochSeconds: int := 62_135_596_800

  predicate IsZero(t: Instant) {
    t == ZeroTime
  }

  /** `t.After(u)`: t is strictly later than u. */
  predicate After(t: Instant, u: Instant) {
    t > u
  }

  /** `t.Unix()`: whole seconds since the Unix epoch, rounded down. */
  function UnixSeconds(t: Instant): int {
    t / Second - UnixEpochSeconds
  }

  lemma UnixSecondsMonotone(t: Instant, u: Instant)
    requires t <= u
    ensures UnixSeconds(t) <= UnixSeconds(u)
  {
  }

  lemma UnixSecondsOfLater(t: Instant, d: Duration)
    requires 0 <= d
    ensures UnixSeconds(t + d) >= UnixSeconds(t) + d / Second
  {
  }

  /** A Go `int` or `int64` value. */
  predicate IsInt64(n: int) {
    -0x8000_0000_0000_0000 <= n < 0x8000_0000_0000_0000
  }
}

=== FILE: contacts.dfy ===
/**
 * Contacts: a name and a phone, both required, with no other format
 * rule, and the use case that validates a contact before storing it.
 *
 * The repository is given by what `CreateContact` does with a contact
 * (an optional error) and what `AllContacts` returns.
 */
module Contacts {
  import opened Base
  import opened Errs

  const ErrInvalidName: Error := Errorf(EInvalid, "invalid name")
  const ErrInvalidPhone: Error := Errorf(EInvalid, "invalid phone")

  datatype Contact = Contact(name: string, phone: string)

  /** `Contact.Validate`: the name is checked first, then the phone; neither is trimmed. */
  function Validate(c: Contact): (r: Option<Error>)
    ensures r.None? <==> c.name != "" && c.phone != ""
    ensures c.name == "" ==> r == Some(ErrInvalidName)
    ensures c.name != "" && c.phone == "" ==> r == Some(ErrInvalidPhone)
    ensures r.Some? ==> ErrorCode(r) == EInvalid
  {
    if c.name == "" then Some(ErrInvalidName)
    else if c.phone == "" then Some(ErrInvalidPhone)
    else None
  }

  /** What `AddContact` did: the contact it passed to `CreateContact`, if any, and its error. */
  datatype AddOutcome = AddOutcome(sent: Option<Contact>, err: Option<Error>)

  /** `AddContact`: an invalid contact is refused without a repository call; a valid one is stored as it is. */
  function AddContact(create: Contact -> Option<Error>, c: Contact): (o: AddOutcome)
    ensures Validate(c).Some? ==> o == AddOutcome(None, Validate(c))
    ensures Validate(c).None? ==> o == AddOutcome(Some(c), create(c))
    ensures o.sent.Some? <==> c.name != "" && c.phone != ""
  {
    match Validate(c)
    case Some(e) => AddOutcome(None, Some(e))
    case None => AddOutcome(Some(c), create(c))
  }

  /** Any name and phone, however they look, are accepted once both are non-empty. */
  lemma NoFormatRules(name: string, phone: string, create: Contact -> Option<Error>)
    requires name != "" && phone != ""
    ensures AddContact(create, Contact(name, phone)) == AddOutcome(Some(Contact(name, phone)), create(Contact(name, phone)))
  {
  }

  /** A contact with both fields empty is reported for its name. */
  lemma NameIsCheckedFirst()
    ensures Validate(Contact("", "")) == Some(ErrInvalidName)
  {
  }

  /** `ListContacts`: the repository's list, unchanged. */
  function ListContacts(all: Result<seq<Contact>, Error>): (r: Result<seq<Contact>, Error>)
    ensures r == all
  {
    all
  }

  /**
   * With a repository that appends what it stores, `AddContact` followed
   * by `ListContacts` lists a valid contact last and leaves an invalid
   * one out.
   */
  lemma AddThenList(stored: seq<Contact>, c: Contact)
    ensures var o := AddContact(_ => None, c);
      var after := if o.sent.Some? then stored + [o.sent.value] else stored;
      && (Validate(c).None? ==> ListContacts(Success(after)) == Success(stored + [c]))
      && (Validate(c).Some? ==> ListContacts(Success(after)) == Success(stored))
  {
  }
}

=== FILE: dynamoattempts.dfy ===
/**
 * The DynamoDB login-attempt repository: one item per email, holding
 * `failed_count` as a decimal number attribute and, when there is a jail,
 * `jailed_until` as an RFC 3339 timestamp with nanoseconds (section 5.6
 * of RFC 3339).
 *
 * Time formatting and parsing are parameters (`TimeCodec`); the round
 * trip needs only that parsing what was formatted gives the instant back.
 * Each remote call either fails with the SDK error given as `fault`, which
 * the repository wraps with its own context, or takes effect.
 */
module DynamoAttempts {
  import opened Base
  import opened Errs
  import opened Text
  import Auth

  /** An attribute value as the SDK hands it over: string, number (as text), or any other kind. */
  datatype AttributeValue = S(s: string) | N(n: string) | OtherAttribute

  type Item = map<string, AttributeValue>

  /** The items of the table, by their `email` key. */
  type Items = map<string, Item>

  datatype TimeCodec = TimeCodec(format: Instant -> string, parse: string -> Result<Instant, Error>)

  /** What `time.RFC3339Nano` promises for one instant: it is written non-empty and read back as written. */
  predicate ReadsBack(codec: TimeCodec, t: Instant) {
    codec.format(t) != "" && codec.parse(codec.format(t)) == Success(t)
  }

  /** `LoginAttemptRepository`: the table name. */
  datatype Repository = Repository(table: string)

  const ErrTableRequired: Error := Plain("dynamodb: table name is required")

  /** `validateTable`. */
  function ValidateTable(table: string): (r: Option<Error>)
    ensures r.Some? <==> All(table, IsSpace)
    ensures r.Some? ==> r.value == ErrTableRequired
  {
    if TrimSpace(table) == "" then Some(ErrTableRequired) else None
  }

  /** `failed_count`: a number attribute that `strconv.Atoi` reads; anything else counts as zero. */
  function FailedCount(item: Item): (n: int)
    ensures "failed_count" !in item ==> n == 0
    ensures "failed_count" in item && item["failed_count"].N? && Atoi(item["failed_count"].n).Some? ==>
      n == Atoi(item["failed_count"].n).value
    ensures n != 0 ==> "failed_count" in item && item["failed_count"].N? && Atoi(item["failed_count"].n) == Some(n)
  {
    if "failed_count" in item && item["failed_count"].N? then
      match Atoi(item["failed_count"].n)
      case Some(v) => v
      case None => 0
    else 0
  }

  /** `jailed_until`: absent, not a string, or empty means no jail; otherwise it must parse. */
  function JailedUntil(item: Item, codec: TimeCodec): (r: Result<Instant, Error>)
    ensures !("jailed_until" in item && item["jailed_until"].S? && item["jailed_until"].s != "") ==> r == Success(ZeroTime)
    ensures "jailed_until" in item && item["jailed_until"].S? && item["jailed_until"].s != "" ==>
      match codec.parse(item["jailed_until"].s)
      case Success(t) => r == Success(t)
      case Failure(e) => r == Failure(Wrapped("dynamodb: parse jailed_until", e))
  {
    if "jailed_until" in item && item["jailed_until"].S? && item["jailed_until"].s != "" then
      match codec.parse(item["jailed_until"].s)
      case Success(t) => Success(t)
      case Failure(e) => Failure(Wrapped("dynamodb: parse jailed_until", e))
    else Success(ZeroTime)
  }

  /** The item `Save` writes for a record. */
  function Encode(email: string, a: Auth.LoginAttempt, codec: TimeCodec): (item: Item)
    ensures "email" in item && "failed_count" in item
    ensures item["email"] == S(email) && item["failed_count"] == N(Itoa(a.failedCount))
    ensures "jailed_until" in item <==> !IsZero(a.jailedUntil)
    ensures "jailed_until" in item ==> item["jailed_until"] == S(codec.format(a.jailedUntil))
  {
    var base := map["email" := S(email), "failed_count" := N(Itoa(a.failedCount))];
    if IsZero(a.jailedUntil) then base else base["jailed_until" := S(codec.format(a.jailedUntil))]
  }

  /** The record `Get` reads from an item; an empty item is the zero record. */
  function Decode(item: Item, codec: TimeCodec): (r: Result<Auth.LoginAttempt, Error>)
    ensures |item| == 0 ==> r == Success(Auth.ZeroAttempt)
    ensures r.Success? && |item| > 0 ==> r.value.failedCount == FailedCount(item)
    ensures r.Failure? <==> |item| > 0 && JailedUntil(item, codec).Failure?
  {
    if |item| == 0 then Success(Auth.ZeroAttempt)
    else
      var jailedUntil :- JailedUntil(item, codec);
      Success(Auth.LoginAttempt(FailedCount(item), jailedUntil))
  }

  /** Decoding an encoded record gives it back, for a 64-bit count and a jail end the codec reads back. */
  lemma DecodeEncode(email: string, a: Auth.LoginAttempt, codec: TimeCodec)
    requires IsInt64(a.failedCount)
    requires !IsZero(a.jailedUntil) ==> ReadsBack(codec, a.jailedUntil)
    ensures Decode(Encode(email, a, codec), codec) == Success(a)
  {
    AtoiItoa(a.failedCount);
    var item := Encode(email, a, codec);
    assert "email" in item;
  }

  /** `Get`: the table check, then `GetItem`; a missing item is the zero record. */
  function Get(r: Repository, items: Items, email: string, fault: Option<Error>, codec: TimeCodec): (res: Result<Auth.LoginAttempt, Error>)
    ensures All(r.table, IsSpace) ==> res == Failure(ErrTableRequired)
    ensures !All(r.table, IsSpace) && fault.Some? ==> res == Failure(Wrapped("dynamodb: get login attempt", fault.value))
    ensures !All(r.table, IsSpace) && fault.None? && email !in items ==> res == Success(Auth.ZeroAttempt)
    ensures !All(r.table, IsSpace) && fault.None? && email in items ==> res == Decode(items[email], codec)
  {
    if ValidateTable(r.table).Some? then Failure(ValidateTable(r.table).value)
    else if fault.Some? then Failure(Wrapped("dynamodb: get login attempt", fault.value))
    else Decode(if email in items then items[email] else map[], codec)
  }

  /** `Save`: the table check, then `PutItem` of the encoded record. */
  function Save(r: Repository, items: Items, email: string, a: Auth.LoginAttempt, fault: Option<Error>, codec: TimeCodec): (res: (Items, Option<Error>))
    ensures All(r.table, IsSpace) ==> res == (items, Some(ErrTableRequired))
    ensures !All(r.table, IsSpace) && fault.Some? ==> res == (items, Some(Wrapped("dynamodb: put login attempt", fault.value)))
    ensures !All(r.table, IsSpace) && fault.None? ==> res == (items[email := Encode(email, a, codec)], None)
  {
    if ValidateTable(r.table).Some? then (items, ValidateTable(r.table))
    else if fault.Some? then (items, Some(Wrapped("dynamodb: put login attempt", fault.value)))
    else (items[email := Encode(email, a, codec)], None)
  }

  /** `Reset`: the table check, then `DeleteItem`. */
  function Reset(r: Repository, items: Items, email: string, fault: Option<Error>): (res: (Items, Option<Error>))
    ensures All(r.table, IsSpace) ==> res == (items, Some(ErrTableRequired))
    ensures !All(r.table, IsSpace) && fault.Some? ==> res == (items, Some(Wrapped("dynamodb: delete login attempt", fault.value)))
    ensures !All(r.table, IsSpace) && fault.None? ==> res == (items - {email}, None)
  {
    if ValidateTable(r.table).Some? then (items, ValidateTable(r.table))
    else if fault.Some? then (items, Some(Wrapped("dynamodb: delete login attempt", fault.value)))
    else (items - {email}, None)
  }

  /** A blank table name fails all three operations before any remote call, whatever that call would do. */
  lemma BlankTableFailsEverything(r: Repository, items: Items, email: string, a: Auth.LoginAttempt,
                                  fault: Option<Error>, codec: TimeCodec)
    requires All(r.table, IsSpace)
    ensures Get(r, items, email, fault, codec) == Failure(ErrTableRequired)
    ensures Save(r, items, email, a, fault, codec) == (items, Some(ErrTableRequired))
    ensures Reset(r, items, email, fault) == (items, Some(ErrTableRequired))
  {
  }

  /** A count that does not parse is read as zero, not reported. */
  lemma BadCountReadsAsZero(item: Item, codec: TimeCodec, text: string)
    requires |item| > 0 && "failed_count" in item && item["failed_count"] == N(text) && Atoi(text).None?
    requires JailedUntil(item, codec).Success?
    ensures Decode(item, codec).Success? && Decode(item, codec).value.failedCount == 0
  {
  }

  /** Save then Get gives the record back; Reset then Get gives the zero record. */
  lemma SaveThenGet(r: Repository, items: Items, email: string, a: Auth.LoginAttempt, codec: TimeCodec)
    requires !All(r.table, IsSpace)
    requires IsInt64(a.failedCount)
    requires !IsZero(a.jailedUntil) ==> ReadsBack(codec, a.jailedUntil)
    ensures Get(r, Save(r, items, email, a, None, codec).0, email, None, codec) == Success(a)
    ensures Get(r, Reset(r, items, email, None).0, email, None, codec) == Success(Auth.ZeroAttempt)
  {
    DecodeEncode(email, a, codec);
  }

  /** Saving or resetting one email leaves every other email's reading unchanged. */
  lemma OtherEmailsUntouched(r: Repository, items: Items, email: string, other: string, a: Auth.LoginAttempt,
                             codec: TimeCodec)
    requires other != email
    ensures Get(r, Save(r, items, email, a, None, codec).0, other, None, codec) == Get(r, items, other, None, codec)
    ensures Get(r, Reset(r, items, email, None).0, other, None, codec) == Get(r, items, other, None, codec)
  {
  }
}

=== FILE: errs.dfy ===
/**
 * Go error values as the modelled code produces and inspects them.
 *
 * The application's own error type `errs.Error{Code, Message}` is
 * `AppError`. The other constructors stand for the other error values
 * the core meets: sentinels made by `errors.New` and opaque driver or
 * network errors (`Plain`), `fmt.Errorf("…: %w", e)` (`Wrapped`),
 * `errors.Join` (`Joined`), PostgreSQL driver errors (`PqError`) and
 * echo's `*HTTPError` (`HttpError`).
 *
 * Go compares sentinel errors by pointer identity; here two errors are
 * the same when they are equal values, so a driver error that happened
 * to carry a sentinel's text would be taken for that sentinel.
 */
module Errs {
  import opened Base

  const EConflict: string := "conflict"
  const EInternal: string := "internal"
  const EInvalid: string := "invalid"
  const ENotFound: string := "not_found"
  const ENotImplemented: string := "not_implemented"
  const EUnauthorized: string := "unauthorized"

  /** The message `ErrorMessage` reports for errors that are not application errors. */
  const InternalMessage: string := "Internal error."

  /** The dynamic value an echo `*HTTPError` holds in its `Message interface{}` field. */
  datatype Payload = Text(text: string) | NonText

  datatype Error =
    | AppError(code: string, message: string)
    | Plain(text: string)
    | Wrapped(context: string, inner: Error)
    | Joined(errors: seq<Error>)
    | PqError(pqCode: string, constraint: string)
    | HttpError(status: int, payload: Payload)

  /** `errs.Errorf(code, "%s", message)`. */
  function Errorf(code: string, message: string): Error {
    AppError(code, message)
  }

  /**
   * `errors.As(err, &target)` with `target *errs.Error`: the first
   * application error met in a depth-first, left-to-right walk of the
   * error tree (the error itself, then what it wraps).
   */
  function FindApp(e: Error): (r: Option<Error>)
    ensures r.Some? ==> r.value.AppError?
    ensures e.AppError? ==> r == Some(e)
    decreases e
  {
    match e
    case AppError(_, _) => Some(e)
    case Wrapped(_, inner) => FindApp(inner)
    case Joined(es) => FindAppIn(es)
    case _ => None
  }

  function FindAppIn(es: seq<Error>): (r: Option<Error>)
    ensures r.Some? ==> r.value.AppError?
    decreases es
  {
    if |es| == 0 then None
    else
      match FindApp(es[0])
      case Some(a) => Some(a)
      case None => FindAppIn(es[1..])
  }

  /** `errors.As(err, &target)` with `target *pq.Error`. */
  function FindPq(e: Error): (r: Option<Error>)
    ensures r.Some? ==> r.value.PqError?
    decreases e
  {
    match e
    case PqError(_, _) => Some(e)
    case Wrapped(_, inner) => FindPq(inner)
    case Joined(es) => FindPqIn(es)
    case _ => None
  }

  function FindPqIn(es: seq<Error>): (r: Option<Error>)
    ensures r.Some? ==> r.value.PqError?
    decreases es
  {
    if |es| == 0 then None
    else
      match FindPq(es[0])
      case Some(p) => Some(p)
      case None => FindPqIn(es[1..])
  }

  /** `errors.Is(err, target)`: `target` is the error itself or occurs in what it wraps. */
  predicate Is(e: Error, target: Error)
    decreases e
  {
    e == target
    || match e
       case Wrapped(_, inner) => Is(inner, target)
       case Joined(es) => IsIn(es, target)
       case _ => false
  }

  predicate IsIn(es: seq<Error>, target: Error)
    decreases es
  {
    |es| > 0 && (Is(es[0], target) || IsIn(es[1..], target))
  }

  /**
   * `errs.ErrorCode`: "" for nil, the code of the first application error
   * found by unwrapping, and `internal` when there is none.
   */
  function ErrorCode(err: Option<Error>): (code: string)
    ensures err.None? ==> code == ""
    ensures err.Some? && err.value.AppError? ==> code == err.value.code
    ensures err.Some? && FindApp(err.value).None? ==> code == EInternal
  {
    match err
    case None => ""
    case Some(e) =>
      match FindApp(e)
      case Some(a) => a.code
      case None => EInternal
  }

  /**
   * `errs.ErrorMessage`: "" for nil, the message of the first application
   * error found by unwrapping, and "Internal error." when there is none.
   */
  function ErrorMessage(err: Option<Error>): (message: string)
    ensures err.None? ==> message == ""
    ensures err.Some? && err.value.AppError? ==> message == err.value.message
    ensures err.Some? && FindApp(err.value).None? ==> message == InternalMessage
  {
    match err
    case None => ""
    case Some(e) =>
      match FindApp(e)
      case Some(a) => a.message
      case None => InternalMessage
  }

  /** Joining or wrapping a single error does not change its code or message. */
  lemma CodeAndMessageSeeThroughWrapping(e: Error, context: string)
    ensures ErrorCode(Some(Joined([e]))) == ErrorCode(Some(e))
    ensures ErrorMessage(Some(Joined([e]))) == ErrorMessage(Some(e))
    ensures ErrorCode(Some(Wrapped(context, e))) == ErrorCode(Some(e))
    ensures ErrorMessage(Some(Wrapped(context, e))) == ErrorMessage(Some(e))
  {
    assert FindAppIn([e]) == FindApp(e) by {
      assert [e][1..] == [];
    }
  }

  /** An error tree with no application error inside reports code `internal`. */
  lemma {:induction false} PlainChainsAreInternal(texts: seq<string>)
    ensures ErrorCode(Some(Joined(seq(|texts|, i requires 0 <= i < |texts| => Plain(texts[i]))))) == EInternal
  {
    var es := seq(|texts|, i requires 0 <= i < |texts| => Plain(texts[i]));
    NoAppInPlains(es);
  }

  lemma {:induction false} NoAppInPlains(es: seq<Error>)
    requires forall i :: 0 <= i < |es| ==> es[i].Plain?
    ensures FindAppIn(es).None?
    decreases |es|
  {
    if |es| > 0 {
      NoAppInPlains(es[1..]);
    }
  }
}

=== FILE: google.dfy ===
/**
 * The Google OAuth adapter's local logic: the lenient boolean decoder used
 * for the userinfo `verified_email` field, and the credential check of
 * `NewProvider`. The code exchange and the userinfo request are network
 * calls and are not modelled.
 *
 * `strconv.Unquote`'s escape processing is a parameter (`unescape`): it is
 * consulted only for quoted text that contains a backslash.
 */
module GoogleOAuth {
  import opened Base
  import opened Errs
  import opened Text

  /** The spellings `strconv.ParseBool` reads as true and as false. */
  const TrueWords: set<string> := {"1", "t", "T", "TRUE", "true", "True"}
  const FalseWords: set<string> := {"0", "f", "F", "FALSE", "false", "False"}

  /** `strconv.ErrSyntax`, returned by a failed `strconv.Unquote`. */
  const SyntaxError: Error := Plain("invalid syntax")

  /** The error `json.Unmarshal` reports for input that is not a single JSON value (its wording is not modelled). */
  const JsonSyntaxError: Error := Plain("json: invalid input")

  const InvalidBoolPrefix: string := "invalid bool value: "

  /** The `*strconv.NumError` a failed `ParseBool` returns (Go quotes `str` with escapes; here it is inserted as it is). */
  function ParseBoolError(str: string): Error {
    Plain("strconv.ParseBool: parsing \"" + str + "\": invalid syntax")
  }

  /** `strconv.ParseBool`. */
  function ParseBool(str: string): (r: Result<bool, Error>)
    ensures r.Success? <==> str in TrueWords || str in FalseWords
    ensures r.Success? ==> (r.value <==> str in TrueWords)
    ensures r.Failure? ==> r.error == ParseBoolError(str)
  {
    match str
    case "1" => Success(true)
    case "t" => Success(true)
    case "T" => Success(true)
    case "true" => Success(true)
    case "TRUE" => Success(true)
    case "True" => Success(true)
    case "0" => Success(false)
    case "f" => Success(false)
    case "F" => Success(false)
    case "false" => Success(false)
    case "FALSE" => Success(false)
    case "False" => Success(false)
    case _ => Failure(ParseBoolError(str))
  }

  /** `strconv.FormatBool`, which is also the JSON spelling of a boolean. */
  function FormatBool(b: bool): string {
    if b then "true" else "false"
  }

  lemma ParseFormatBool(b: bool)
    ensures ParseBool(FormatBool(b)) == Success(b)
  {
  }

  /** `s` is delimited by double quotes at both ends. */
  predicate IsQuoted(s: string) {
    |s| >= 2 && s[0] == '"' && s[|s| - 1] == '"'
  }

  /**
   * `strconv.Unquote` on double-quoted text: a newline inside is refused;
   * text with a backslash goes through escape processing; otherwise a
   * further double quote is refused and the inside is the result.
   */
  function Unquote(s: string, unescape: string -> Option<string>): (r: Option<string>)
    requires IsQuoted(s)
    ensures '\\' !in s[1..|s| - 1] ==>
      (r.Some? <==> '"' !in s[1..|s| - 1] && '\n' !in s[1..|s| - 1])
    ensures r.Some? && '\\' !in s[1..|s| - 1] ==> "\"" + r.value + "\"" == s
    ensures '\n' in s[1..|s| - 1] ==> r.None?
  {
    var inner := s[1..|s| - 1];
    if '\n' in inner then None
    else if '\\' in inner then unescape(inner)
    else if '"' in inner then None
    else
      assert "\"" + inner + "\"" == s;
      Some(inner)
  }

  /** Quoting text with no backslash, quote or newline and unquoting it again gives the text back. */
  lemma UnquoteQuote(t: string, unescape: string -> Option<string>)
    requires '\\' !in t && '"' !in t && '\n' !in t
    ensures IsQuoted("\"" + t + "\"")
    ensures Unquote("\"" + t + "\"", unescape) == Some(t)
  {
    assert ("\"" + t + "\"")[1..|t| + 1] == t;
  }

  /**
   * JSON's number syntax restricted to integers (section 6 of RFC 8259
   * with neither fraction nor exponent): an optional minus sign, then
   * either `0` or digits not starting with `0`.
   */
  predicate IsJsonInteger(t: string) {
    var digits := if |t| > 0 && t[0] == '-' then t[1..] else t;
    |digits| > 0 && AllAsciiDigits(digits) && (digits[0] != '0' || |digits| == 1)
  }

  /**
   * `json.Unmarshal(data, &num)` into a `json.Number` followed by
   * `num.Int64()`, given `data` without its surrounding JSON white space:
   * both succeed only for an integer literal whose value fits in 64 bits.
   * A fraction or exponent passes the first step and fails the second.
   */
  function JsonInt64(t: string): (r: Option<int>)
    ensures r.Some? ==> IsInt64(r.value) && IsJsonInteger(t)
  {
    if IsJsonInteger(t) then Atoi(t) else None
  }

  /**
   * `flexibleBool.UnmarshalJSON`: blank input and `null` are false; the
   * JSON literals `true` and `false` are read by `encoding/json`; quoted
   * text is unquoted, trimmed and read by `ParseBool`; a 64-bit integer
   * literal is true when non-zero; anything else is refused with
   * "invalid bool value: " and the trimmed input.
   */
  function FlexibleBool(data: string, unescape: string -> Option<string>): (r: Result<bool, Error>)
  {
    Decide(TrimSpace(data), TrimJsonSpace(data), unescape)
  }

  /**
   * The decision of `FlexibleBool` on two views of its input: `s` without
   * any surrounding white space, which the code inspects, and `json`
   * without surrounding JSON white space, which `encoding/json` reads.
   */
  function Decide(s: string, json: string, unescape: string -> Option<string>): (r: Result<bool, Error>)
  {
    if s == "" || s == "null" then Success(false)
    else if s == "true" || s == "false" then
      if json == s then Success(s == "true") else Failure(JsonSyntaxError)
    else if IsQuoted(s) then
      match Unquote(s, unescape)
      case None => Failure(SyntaxError)
      case Some(u) => ParseBool(TrimSpace(u))
    else
      match JsonInt64(json)
      case Some(i) => Success(i != 0)
      case None => Failure(Plain(InvalidBoolPrefix + s))
  }

  /** Blank input and `null`, with any surrounding white space, decode to false. */
  lemma FlexibleBoolBlankOrNull(data: string, unescape: string -> Option<string>)
    requires TrimSpace(data) == "" || TrimSpace(data) == "null"
    ensures FlexibleBool(data, unescape) == Success(false)
  {
  }

  /** The JSON literals, padded with JSON white space, decode to the boolean they spell. */
  lemma FlexibleBoolLiteral(data: string, b: bool, unescape: string -> Option<string>)
    requires TrimJsonSpace(data) == FormatBool(b)
    ensures FlexibleBool(data, unescape) == Success(b)
  {
    TrimSpaceOfJsonPadded(data);
  }

  /**
   * `strings.TrimSpace` also removes white space that JSON does not allow
   * (a no-break space, say), and then `encoding/json` refuses the literal:
   * the input is an error, not the boolean.
   */
  lemma FlexibleBoolLiteralAfterOtherSpace(c: char, b: bool, unescape: string -> Option<string>)
    requires IsSpace(c) && !IsJsonSpace(c)
    ensures FlexibleBool([c] + FormatBool(b), unescape) == Failure(JsonSyntaxError)
  {
    var w := FormatBool(b);
    var data := [c] + w;
    TrimSpaceLeadingSpace(c, w);
    TrimSpaceNoop(w);
    TrimJsonSpaceNoop(data);
  }

  /** Quoted text is decided by `ParseBool` on its trimmed inside. */
  lemma FlexibleBoolQuoted(t: string, unescape: string -> Option<string>)
    requires '\\' !in t && '"' !in t && '\n' !in t
    ensures FlexibleBool("\"" + t + "\"", unescape) == ParseBool(TrimSpace(t))
  {
    var s := "\"" + t + "\"";
    TrimSpaceNoop(s);
    UnquoteQuote(t, unescape);
    assert s != "" && s != "null" && s != "true" && s != "false" by {
      assert s[0] == '"';
    }
  }

  /**
   * So quoted text succeeds exactly when its trimmed inside is one of
   * `ParseBool`'s spellings, and then it is true exactly for the true ones.
   */
  lemma FlexibleBoolQuotedWord(t: string, unescape: string -> Option<string>)
    requires '\\' !in t && '"' !in t && '\n' !in t
    ensures var r := FlexibleBool("\"" + t + "\"", unescape);
      && (r.Success? <==> TrimSpace(t) in TrueWords || TrimSpace(t) in FalseWords)
      && (r.Success? ==> (r.value <==> TrimSpace(t) in TrueWords))
  {
    FlexibleBoolQuoted(t, unescape);
  }

  /** The decimal spelling of any 64-bit integer decodes to whether it is non-zero. */
  lemma FlexibleBoolInteger(n: int, unescape: string -> Option<string>)
    requires IsInt64(n)
    ensures FlexibleBool(Itoa(n), unescape) == Success(n != 0)
  {
    var s := Itoa(n);
    var digits := NatToDecimal(if n < 0 then -n else n);
    assert s == if n < 0 then "-" + digits else digits;
    assert IsAsciiDigit(digits[|digits| - 1]);
    assert s[|s| - 1] == digits[|digits| - 1];
    assert IsAsciiDigit(s[0]) || s[0] == '-';
    TrimSpaceNoop(s);
    TrimJsonSpaceNoop(s);
    assert s != "null" && s != "true" && s != "false" && !IsQuoted(s);
    assert IsJsonInteger(s) by {
      if n < 0 {
        assert s[1..] == digits;
      }
      if n == 0 {
        assert digits == [DigitChar(0)];
      }
    }
    AtoiItoa(n);
  }

  /** A leading zero is not JSON, so "01" and the like are refused, although `strconv.Atoi` would read them. */
  lemma FlexibleBoolLeadingZero(digits: string, unescape: string -> Option<string>)
    requires |digits| > 0 && AllAsciiDigits(digits)
    ensures FlexibleBool("0" + digits, unescape) == Failure(Plain(InvalidBoolPrefix + "0" + digits))
  {
    var s := "0" + digits;
    assert IsAsciiDigit(s[|s| - 1]);
    TrimSpaceNoop(s);
    TrimJsonSpaceNoop(s);
    assert s != "null" && s != "true" && s != "false" && !IsQuoted(s) by {
      assert s[0] == '0';
    }
    assert !IsJsonInteger(s) by {
      assert s[0] == '0' && |s| > 1;
    }
    assert InvalidBoolPrefix + "0" + digits == InvalidBoolPrefix + s;
  }

  /** A number with a fraction is JSON but not an `Int64`, so it is refused. */
  lemma FlexibleBoolFraction(n: int, fraction: string, unescape: string -> Option<string>)
    requires |fraction| > 0 && AllAsciiDigits(fraction)
    ensures var s := Itoa(n) + "." + fraction;
      FlexibleBool(s, unescape) == Failure(Plain(InvalidBoolPrefix + s))
  {
    var i := Itoa(n);
    var s := i + "." + fraction;
    var digits := NatToDecimal(if n < 0 then -n else n);
    assert i == if n < 0 then "-" + digits else digits;
    assert IsAsciiDigit(s[0]) || s[0] == '-' by {
      assert s[0] == i[0];
    }
    assert IsAsciiDigit(s[|s| - 1]);
    TrimSpaceNoop(s);
    TrimJsonSpaceNoop(s);
    assert s != "null" && s != "true" && s != "false" && !IsQuoted(s);
    assert !IsJsonInteger(s) by {
      var rest := if s[0] == '-' then s[1..] else s;
      assert s[|i|] == '.';
      if s[0] == '-' {
        assert rest[|i| - 1] == '.';
      } else {
        assert rest[|i|] == '.';
      }
    }
  }

  /**
   * Nothing else decodes: a successful decision is blank or `null` (false),
   * a JSON literal that `encoding/json` sees unpadded, quoted text whose
   * trimmed inside is a `ParseBool` spelling, or a 64-bit JSON integer
   * (true when non-zero).
   */
  lemma DecideSound(s: string, json: string, unescape: string -> Option<string>)
    ensures var r := Decide(s, json, unescape);
      r.Success? ==>
        || ((s == "" || s == "null") && !r.value)
        || ((s == "true" || s == "false") && json == s && (r.value <==> s == "true"))
        || (&& IsQuoted(s) && Unquote(s, unescape).Some?
            && var w := TrimSpace(Unquote(s, unescape).value);
               (w in TrueWords || w in FalseWords) && (r.value <==> w in TrueWords))
        || (&& IsJsonInteger(json) && JsonInt64(json).Some? && IsInt64(JsonInt64(json).value)
            && (r.value <==> JsonInt64(json).value != 0))
  {
  }

  /** `FlexibleBool` succeeds only on the four shapes of `DecideSound`, read off its input. */
  lemma FlexibleBoolSound(data: string, unescape: string -> Option<string>)
    ensures var r := FlexibleBool(data, unescape);
      var s := TrimSpace(data);
      var json := TrimJsonSpace(data);
      r.Success? ==>
        || ((s == "" || s == "null") && !r.value)
        || ((s == "true" || s == "false") && json == s && (r.value <==> s == "true"))
        || (&& IsQuoted(s) && Unquote(s, unescape).Some?
            && var w := TrimSpace(Unquote(s, unescape).value);
               (w in TrueWords || w in FalseWords) && (r.value <==> w in TrueWords))
        || (&& IsJsonInteger(json) && JsonInt64(json).Some? && IsInt64(JsonInt64(json).value)
            && (r.value <==> JsonInt64(json).value != 0))
  {
    DecideSound(TrimSpace(data), TrimJsonSpace(data), unescape);
  }

  /** A number with an exponent is JSON but not an `Int64`, so it is refused: "1e0" is not true. */
  lemma FlexibleBoolExponent(mantissa: string, exponent: string, unescape: string -> Option<string>)
    requires |mantissa| > 0 && AllAsciiDigits(mantissa)
    requires |exponent| > 0 && AllAsciiDigits(exponent)
    ensures var s := mantissa + "e" + exponent;
      FlexibleBool(s, unescape) == Failure(Plain(InvalidBoolPrefix + s))
  {
    var s := mantissa + "e" + exponent;
    assert IsAsciiDigit(s[0]) by {
      assert s[0] == mantissa[0];
    }
    assert IsAsciiDigit(s[|s| - 1]) by {
      assert s[|s| - 1] == exponent[|exponent| - 1];
    }
    TrimSpaceNoop(s);
    TrimJsonSpaceNoop(s);
    assert s != "null" && s != "true" && s != "false" && !IsQuoted(s);
    assert !IsJsonInteger(s) by {
      assert s[|mantissa|] == 'e' && !IsAsciiDigit(s[|mantissa|]);
    }
  }

  /** An integer outside the 64-bit range, such as a 20-digit one, is refused rather than read as true. */
  lemma FlexibleBoolOutOfRange(n: int, unescape: string -> Option<string>)
    requires !IsInt64(n)
    ensures FlexibleBool(Itoa(n), unescape) == Failure(Plain(InvalidBoolPrefix + Itoa(n)))
  {
    var s := Itoa(n);
    var digits := NatToDecimal(if n < 0 then -n else n);
    assert s == if n < 0 then "-" + digits else digits;
    assert IsAsciiDigit(digits[|digits| - 1]);
    assert s[|s| - 1] == digits[|digits| - 1];
    assert IsAsciiDigit(s[0]) || s[0] == '-';
    TrimSpaceNoop(s);
    TrimJsonSpaceNoop(s);
    assert s != "null" && s != "true" && s != "false" && !IsQuoted(s);
    assert Atoi(s).None? by {
      if n < 0 {
        assert s[1..] == digits;
      }
      DecimalRoundTrip(if n < 0 then -n else n);
    }
  }

  /** The scopes requested from Google. */
  const Scopes: seq<string> := ["openid", "email", "profile"]

  const MissingCredentials: Error := Plain("google oauth: missing required credentials")

  /** The OAuth 2.0 client configuration a provider holds. */
  datatype Config = Config(clientId: string, clientSecret: string, redirectUrl: string, scopes: seq<string>)

  /**
   * `NewProvider`: the three credentials are trimmed and none may be
   * blank; the configuration keeps the trimmed values.
   */
  function NewProvider(clientId: string, clientSecret: string, redirectUrl: string): (r: Result<Config, Error>)
    ensures r.Failure? <==> All(clientId, IsSpace) || All(clientSecret, IsSpace) || All(redirectUrl, IsSpace)
    ensures r.Failure? ==> r.error == MissingCredentials
    ensures r.Success? ==>
      && r.value.scopes == Scopes
      && r.value.clientId != [] && r.value.clientSecret != [] && r.value.redirectUrl != []
    ensures r.Success? ==>
      && r.value.clientId == TrimSpace(clientId)
      && r.value.clientSecret == TrimSpace(clientSecret)
      && r.value.redirectUrl == TrimSpace(redirectUrl)
  {
    var id := TrimSpace(clientId);
    var secret := TrimSpace(clientSecret);
    var url := TrimSpace(redirectUrl);
    if id == "" || secret == "" || url == "" then Failure(MissingCredentials)
    else Success(Config(id, secret, url, Scopes))
  }

  /** A provider's own credentials pass the check again unchanged: the trimming is already done. */
  lemma NewProviderIdempotent(clientId: string, clientSecret: string, redirectUrl: string)
    requires NewProvider(clientId, clientSecret, redirectUrl).Success?
    ensures var c := NewProvider(clientId, clientSecret, redirectUrl).value;
      NewProvider(c.clientId, c.clientSecret, c.redirectUrl) == Success(c)
  {
    TrimSpaceIdempotent(clientId);
    TrimSpaceIdempotent(clientSecret);
    TrimSpaceIdempotent(redirectUrl);
  }
}

=== FILE: httpauth.dfy ===
/**
 * The authentication endpoints: login, refresh, and the two legs of the
 * Google sign-in (the authorization URL with its anti-forgery `state`
 * cookie, and the callback that checks the state against the cookie
 * before exchanging the code, section 10.12 of RFC 6749).
 *
 * Each handler is a function of what the request carries and of the
 * auth service call it makes, given as a function, so that "the service
 * is not called" is the statement that the reply does not depend on it.
 * The handlers' `writeError` and `writeSuccess` helpers are not part of
 * this model; a reply records their arguments.
 */
module HttpAuth {
  import opened Base
  import opened Errs
  import opened Text
  import Random
  import Auth
  import HttpServer

  const StatusOk: int := 200

  /** What a handler asks to be written. */
  datatype Reply =
    /** `writeError(c, status, message, err.Error(), err)`. */
    | WriteError(status: int, message: string, err: Error)
    /** `c.JSON(status, {"error": message})`. */
    | ErrorJson(status: int, message: string)
    /** `writeSuccess(c, status, fields)`. */
    | WriteSuccess(status: int, fields: map<string, string>)

  datatype SameSite = SameSiteDefault | SameSiteLax

  datatype Cookie = Cookie(name: string, value: string, httpOnly: bool, path: string, sameSite: SameSite, maxAge: int)

  /** The reply and the cookie set alongside it, if any. */
  datatype Handled = Handled(reply: Reply, cookie: Option<Cookie>)

  const StateCookieName: string := "oauth_state"
  const StateBytes: int := 32
  const StateCookieSeconds: int := 300

  /** The body of every successful token response. */
  function TokenFields(p: Auth.TokenPair): (fields: map<string, string>)
    ensures fields.Keys == {"access_token", "refresh_token"}
    ensures fields["access_token"] == p.accessToken && fields["refresh_token"] == p.refreshToken
  {
    map["access_token" := p.accessToken, "refresh_token" := p.refreshToken]
  }

  /** The fields a login request binds to. */
  datatype LoginRequest = LoginRequest(email: string, password: string)

  /** `handleLogin`: 400 for a body that does not bind, 429 for a locked account, 401 for bad credentials, else 500. */
  function HandleLogin(bound: Result<LoginRequest, Error>, login: (string, string) -> Result<Auth.TokenPair, Error>): (r: Reply)
    ensures bound.Failure? ==> r == WriteError(HttpServer.StatusBadRequest, "invalid request body", bound.error)
    ensures bound.Success? && login(bound.value.email, bound.value.password).Success? ==>
      r == WriteSuccess(StatusOk, TokenFields(login(bound.value.email, bound.value.password).value))
    ensures bound.Success? && login(bound.value.email, bound.value.password).Failure? ==>
      var e := login(bound.value.email, bound.value.password).error;
      && r.WriteError? && r.err == e
      && (r.status == HttpServer.StatusTooManyRequests <==> Is(e, Auth.ErrAccountLocked))
      && (r.status == HttpServer.StatusUnauthorized <==> !Is(e, Auth.ErrAccountLocked) && Is(e, Auth.ErrInvalidCredentials))
      && (r.status == HttpServer.StatusInternalServerError <==> !Is(e, Auth.ErrAccountLocked) && !Is(e, Auth.ErrInvalidCredentials))
  {
    match bound
    case Failure(e) => WriteError(HttpServer.StatusBadRequest, "invalid request body", e)
    case Success(req) =>
      match login(req.email, req.password)
      case Success(tokens) => WriteSuccess(StatusOk, TokenFields(tokens))
      case Failure(e) =>
        if Is(e, Auth.ErrAccountLocked) then WriteError(HttpServer.StatusTooManyRequests, "account temporarily locked", e)
        else if Is(e, Auth.ErrInvalidCredentials) then WriteError(HttpServer.StatusUnauthorized, "invalid credentials", e)
        else WriteError(HttpServer.StatusInternalServerError, "internal error", e)
  }

  /** The login endpoint in front of the login use case. */
  function LoginEndpoint(uc: Auth.Usecase, store: Auth.AttemptStore, db: Auth.UserDb, now: Instant): (string, string) -> Result<Auth.TokenPair, Error> {
    (email: string, password: string) => Auth.Login(uc, store, db, email, password, now).result
  }

  /** A running jail answers 429, whatever the password. */
  lemma JailedLoginIs429(uc: Auth.Usecase, store: Auth.AttemptStore, db: Auth.UserDb, email: string, password: string, now: Instant)
    requires store.getFault.None?
    requires !IsZero(Auth.AttemptOf(store, email).jailedUntil) && After(Auth.AttemptOf(store, email).jailedUntil, now)
    ensures HandleLogin(Success(LoginRequest(email, password)), LoginEndpoint(uc, store, db, now)).status == HttpServer.StatusTooManyRequests
  {
    Auth.JailRefusesAnyPassword(uc, store, db, email, password, now);
  }

  /** Refused credentials answer 401, for an unknown email and a wrong password alike. */
  lemma RefusedLoginIs401(uc: Auth.Usecase, store: Auth.AttemptStore, db: Auth.UserDb, email: string, password: string, now: Instant)
    requires store.getFault.None? && store.saveFault.None?
    requires IsZero(Auth.AttemptOf(store, email).jailedUntil)
    requires !Auth.Accepts(uc, db, email, password)
    ensures HandleLogin(Success(LoginRequest(email, password)), LoginEndpoint(uc, store, db, now)).status == HttpServer.StatusUnauthorized
  {
    Auth.RefusedCredentials(uc, store, db, email, password, now);
  }

  /** The fields a refresh request binds to. */
  datatype RefreshRequest = RefreshRequest(refreshToken: string)

  /** `handleRefresh`: 400 for a body that does not bind, 401 for a refused refresh token, else 500. */
  function HandleRefresh(bound: Result<RefreshRequest, Error>, refresh: string -> Result<Auth.TokenPair, Error>): (r: Reply)
    ensures bound.Failure? ==> r == WriteError(HttpServer.StatusBadRequest, "invalid request body", bound.error)
    ensures bound.Success? && refresh(bound.value.refreshToken).Success? ==>
      r == WriteSuccess(StatusOk, TokenFields(refresh(bound.value.refreshToken).value))
    ensures bound.Success? && refresh(bound.value.refreshToken).Failure? ==>
      var e := refresh(bound.value.refreshToken).error;
      && r.WriteError? && r.err == e
      && (r.status == HttpServer.StatusUnauthorized <==> Is(e, Auth.ErrInvalidRefreshToken))
      && (r.status == HttpServer.StatusInternalServerError <==> !Is(e, Auth.ErrInvalidRefreshToken))
  {
    match bound
    case Failure(e) => WriteError(HttpServer.StatusBadRequest, "invalid request body", e)
    case Success(req) =>
      match refresh(req.refreshToken)
      case Success(tokens) => WriteSuccess(StatusOk, TokenFields(tokens))
      case Failure(e) =>
        if Is(e, Auth.ErrInvalidRefreshToken) then WriteError(HttpServer.StatusUnauthorized, "invalid refresh token", e)
        else WriteError(HttpServer.StatusInternalServerError, "internal error", e)
  }

  /** Every refresh token the provider refuses is answered with 401. */
  lemma RefusedRefreshTokenIs401(uc: Auth.Usecase, token: string)
    requires uc.tokens.parseRefresh(token).Failure?
    ensures HandleRefresh(Success(RefreshRequest(token)), (t: string) => Auth.Refresh(uc, t)).status == HttpServer.StatusUnauthorized
  {
  }

  /** `generateOAuthState`: `length` random bytes, URL-safe base64 without padding. */
  function GenerateOAuthState(length: int, draw: Random.Draw): (r: Result<string, Error>)
    ensures length <= 0 ==> r == Failure(Plain("invalid state length"))
    ensures length > 0 && draw.ReadFailed? ==> r == Failure(draw.err)
    ensures length > 0 && draw.Read? ==> r.Success?
    ensures r.Success? ==>
      && |r.value| == Random.EncodedLength(length)
      && Random.Decode(r.value) == Some(Random.Bytes(draw.byteAt, length))
  {
    var r := Random.RandomToken("", length, draw, "invalid state length");
    assert r.Success? ==> r.value[0..] == r.value;
    r
  }

  /** `handleGoogleLogin`: a fresh state, the authorization URL for it, and the state in a short-lived cookie. */
  function HandleGoogleLogin(draw: Random.Draw, authUrl: string -> Result<string, Error>): (h: Handled)
    ensures GenerateOAuthState(StateBytes, draw).Failure? ==>
      h == Handled(WriteError(HttpServer.StatusInternalServerError, "internal error", GenerateOAuthState(StateBytes, draw).error), None)
    ensures GenerateOAuthState(StateBytes, draw).Success? ==>
      var state := GenerateOAuthState(StateBytes, draw).value;
      && (authUrl(state).Failure? && Is(authUrl(state).error, Auth.ErrOAuthNotConfigured) ==>
           h == Handled(WriteError(HttpServer.StatusNotImplemented, "oauth not configured", authUrl(state).error), None))
      && (authUrl(state).Failure? && !Is(authUrl(state).error, Auth.ErrOAuthNotConfigured) ==>
           h == Handled(WriteError(HttpServer.StatusInternalServerError, "internal error", authUrl(state).error), None))
      && (authUrl(state).Success? ==>
           h == Handled(WriteSuccess(StatusOk, map["auth_url" := authUrl(state).value]),
                        Some(Cookie(StateCookieName, state, true, "/", SameSiteLax, StateCookieSeconds))))
    ensures h.cookie.Some? <==> h.reply.WriteSuccess?
  {
    match GenerateOAuthState(StateBytes, draw)
    case Failure(e) => Handled(WriteError(HttpServer.StatusInternalServerError, "internal error", e), None)
    case Success(state) =>
      match authUrl(state)
      case Failure(e) =>
        if Is(e, Auth.ErrOAuthNotConfigured) then Handled(WriteError(HttpServer.StatusNotImplemented, "oauth not configured", e), None)
        else Handled(WriteError(HttpServer.StatusInternalServerError, "internal error", e), None)
      case Success(url) =>
        Handled(WriteSuccess(StatusOk, map["auth_url" := url]),
                Some(Cookie(StateCookieName, state, true, "/", SameSiteLax, StateCookieSeconds)))
  }

  /** A generated state is never blank: it is made of base64 letters only. */
  lemma GeneratedStateIsNotBlank(draw: Random.Draw)
    requires GenerateOAuthState(StateBytes, draw).Success?
    ensures var state := GenerateOAuthState(StateBytes, draw).value;
      state != "" && !All(state, IsSpace)
  {
    var state := GenerateOAuthState(StateBytes, draw).value;
    assert Random.IsLetter(state[0]);
    assert !IsSpace(state[0]);
  }

  /**
   * With Google configured and the random source working, the login
   * endpoint always succeeds: the state it generates is never refused as
   * missing, and the cookie carries exactly the state the URL was built
   * for.
   */
  lemma ConfiguredGoogleLoginSucceeds(uc: Auth.Usecase, draw: Random.Draw)
    requires uc.google.Some? && draw.Read?
    ensures var h := HandleGoogleLogin(draw, (s: string) => Auth.GoogleAuthUrl(uc, s));
      && h.reply.WriteSuccess? && h.reply.status == StatusOk
      && h.cookie.Some? && h.cookie.value.httpOnly && h.cookie.value.maxAge == StateCookieSeconds
      && h.reply.fields["auth_url"] == uc.google.value.authCodeUrl(h.cookie.value.value)
  {
    GeneratedStateIsNotBlank(draw);
  }

  /** The cookie that ends the Google sign-in: same name, emptied, expired at once. */
  const ClearedStateCookie: Cookie := Cookie(StateCookieName, "", true, "/", SameSiteDefault, -1)

  /**
   * `handleGoogleCallback`. An empty `code` or `state` is a 400 and a
   * missing or different `oauth_state` cookie a 401, both before the
   * service is called; the service's errors are then sorted into 501,
   * 400, 401 and 500, and a success clears the cookie.
   */
  function HandleGoogleCallback(code: string, state: string, stateCookie: Option<string>,
                                loginWithGoogle: string -> Result<Auth.TokenPair, Error>): (h: Handled)
    ensures code == "" || state == "" ==>
      h == Handled(WriteError(HttpServer.StatusBadRequest, "missing code or state", Errorf(EInvalid, "missing code or state")), None)
    ensures code != "" && state != "" && (stateCookie.None? || stateCookie.value != state) ==>
      h == Handled(WriteError(HttpServer.StatusUnauthorized, "invalid oauth state", Errorf(EUnauthorized, "invalid oauth state")), None)
    ensures h.cookie.Some? <==> h.reply.WriteSuccess?
    ensures h.reply.WriteSuccess? ==>
      && code != "" && stateCookie == Some(state) && loginWithGoogle(code).Success?
      && h == Handled(WriteSuccess(StatusOk, TokenFields(loginWithGoogle(code).value)), Some(ClearedStateCookie))
    ensures code != "" && stateCookie == Some(state) && state != "" && loginWithGoogle(code).Failure? ==>
      CallbackFailure(loginWithGoogle(code).error) == h.reply
  {
    if code == "" || state == "" then
      Handled(WriteError(HttpServer.StatusBadRequest, "missing code or state", Errorf(EInvalid, "missing code or state")), None)
    else if stateCookie.None? || stateCookie.value != state then
      Handled(WriteError(HttpServer.StatusUnauthorized, "invalid oauth state", Errorf(EUnauthorized, "invalid oauth state")), None)
    else
      match loginWithGoogle(code)
      case Failure(e) => Handled(CallbackFailure(e), None)
      case Success(tokens) => Handled(WriteSuccess(StatusOk, TokenFields(tokens)), Some(ClearedStateCookie))
  }

  /** How the callback answers an error from `LoginWithGoogle`. */
  function CallbackFailure(e: Error): (r: Reply)
    ensures !r.WriteSuccess?
    ensures Is(e, Auth.ErrOAuthNotConfigured) ==> r == WriteError(HttpServer.StatusNotImplemented, "oauth not configured", e)
    ensures !Is(e, Auth.ErrOAuthNotConfigured) && (Is(e, Auth.ErrMissingCode) || Is(e, Auth.ErrMissingState)) ==>
      r == ErrorJson(HttpServer.StatusBadRequest, "missing oauth parameters")
    ensures r.ErrorJson? && r.status == HttpServer.StatusUnauthorized ==>
      Is(e, Auth.ErrMissingEmail) || Is(e, Auth.ErrUnverifiedEmail) || Is(e, Auth.ErrInvalidOAuthUser)
    ensures r.WriteError? && r.status == HttpServer.StatusInternalServerError ==>
      && !Is(e, Auth.ErrOAuthNotConfigured) && !Is(e, Auth.ErrMissingCode) && !Is(e, Auth.ErrMissingState)
      && !Is(e, Auth.ErrMissingEmail) && !Is(e, Auth.ErrUnverifiedEmail) && !Is(e, Auth.ErrInvalidOAuthUser)
    ensures !Is(e, Auth.ErrOAuthNotConfigured) && !Is(e, Auth.ErrMissingCode) && !Is(e, Auth.ErrMissingState)
            && (Is(e, Auth.ErrMissingEmail) || Is(e, Auth.ErrUnverifiedEmail) || Is(e, Auth.ErrInvalidOAuthUser)) ==>
      r == ErrorJson(HttpServer.StatusUnauthorized, "invalid oauth user")
    ensures !Is(e, Auth.ErrOAuthNotConfigured) && !Is(e, Auth.ErrMissingCode) && !Is(e, Auth.ErrMissingState)
            && !Is(e, Auth.ErrMissingEmail) && !Is(e, Auth.ErrUnverifiedEmail) && !Is(e, Auth.ErrInvalidOAuthUser) ==>
      r == WriteError(HttpServer.StatusInternalServerError, "internal error", e)
  {
    if Is(e, Auth.ErrOAuthNotConfigured) then WriteError(HttpServer.StatusNotImplemented, "oauth not configured", e)
    else if Is(e, Auth.ErrMissingCode) || Is(e, Auth.ErrMissingState) then
      ErrorJson(HttpServer.StatusBadRequest, "missing oauth parameters")
    else if Is(e, Auth.ErrMissingEmail) || Is(e, Auth.ErrUnverifiedEmail) || Is(e, Auth.ErrInvalidOAuthUser) then
      ErrorJson(HttpServer.StatusUnauthorized, "invalid oauth user")
    else WriteError(HttpServer.StatusInternalServerError, "internal error", e)
  }

  /** A callback refused for its parameters or its state cookie gives the same answer whatever the service would do. */
  lemma PreChecksDoNotCallTheService(code: string, state: string, stateCookie: Option<string>,
                                     s1: string -> Result<Auth.TokenPair, Error>, s2: string -> Result<Auth.TokenPair, Error>)
    requires code == "" || state == "" || stateCookie != Some(state)
    ensures HandleGoogleCallback(code, state, stateCookie, s1) == HandleGoogleCallback(code, state, stateCookie, s2)
  {
  }

  /**
   * The state and cookie that the login leg hands out pass the
   * callback's check: what the callback answers is then up to the
   * service.
   */
  lemma IssuedStatePassesTheCheck(draw: Random.Draw, authUrl: string -> Result<string, Error>, code: string,
                                  loginWithGoogle: string -> Result<Auth.TokenPair, Error>)
    requires HandleGoogleLogin(draw, authUrl).cookie.Some?
    requires code != ""
    ensures var state := HandleGoogleLogin(draw, authUrl).cookie.value.value;
      var h := HandleGoogleCallback(code, state, Some(state), loginWithGoogle);
      && (loginWithGoogle(code).Success? ==> h.reply == WriteSuccess(StatusOk, TokenFields(loginWithGoogle(code).value)))
      && (loginWithGoogle(code).Failure? ==> h.reply == CallbackFailure(loginWithGoogle(code).error))
  {
    GeneratedStateIsNotBlank(draw);
  }

  /** The Google sign-in use case as the callback calls it. */
  function GoogleEndpoint(uc: Auth.Usecase, db: Auth.UserDb, now: Instant, passwordDraw: Random.Draw, nameDraw: Random.Draw)
    : string -> Result<Auth.TokenPair, Error>
  {
    (code: string) => Auth.LoginWithGoogle(uc, db, code, now, passwordDraw, nameDraw).result
  }

  /**
   * The handler checks only that `code` is non-empty; a code of spaces
   * reaches the service, which trims it and reports it missing, and the
   * handler answers 400 "missing oauth parameters".
   */
  lemma BlankCodeIsRefusedByTheService(uc: Auth.Usecase, db: Auth.UserDb, now: Instant,
                                       passwordDraw: Random.Draw, nameDraw: Random.Draw, code: string, state: string)
    requires uc.google.Some? && state != ""
    requires code != "" && All(code, IsSpace)
    ensures HandleGoogleCallback(code, state, Some(state), GoogleEndpoint(uc, db, now, passwordDraw, nameDraw)).reply ==
      ErrorJson(HttpServer.StatusBadRequest, "missing oauth parameters")
  {
    var service := GoogleEndpoint(uc, db, now, passwordDraw, nameDraw);
    ServiceRefusesBlankCode(uc, db, now, passwordDraw, nameDraw, code);
    MissingCodeReply();
    ServiceErrorIsSorted(code, state, service);
  }

  lemma ServiceErrorIsSorted(code: string, state: string, service: string -> Result<Auth.TokenPair, Error>)
    requires code != "" && state != "" && service(code).Failure?
    ensures HandleGoogleCallback(code, state, Some(state), service).reply == CallbackFailure(service(code).error)
  {
  }

  lemma ServiceRefusesBlankCode(uc: Auth.Usecase, db: Auth.UserDb, now: Instant,
                                passwordDraw: Random.Draw, nameDraw: Random.Draw, code: string)
    requires uc.google.Some? && All(code, IsSpace)
    ensures GoogleEndpoint(uc, db, now, passwordDraw, nameDraw)(code) == Failure(Auth.ErrMissingCode)
  {
  }

  lemma MissingCodeReply()
    ensures CallbackFailure(Auth.ErrMissingCode) == ErrorJson(HttpServer.StatusBadRequest, "missing oauth parameters")
  {
  }
}

=== FILE: httpresponse.dfy ===
/**
 * The JSON envelope of the HTTP API: `code`, `message`, and either a
 * `result` or an `info` detail, with six-digit application codes.
 *
 * `errorCode` recognises an application error only when the error is one
 * itself, so a wrapped application error is coded by its HTTP status
 * instead (`ErrorCodeAsWritten`); `RespondError` codes its reply that way.
 * `ResponseCode` is the evidently intended coding, which looks through
 * wrapping the way `errs.ErrorCode` does. The standard status texts of
 * `net/http` are a parameter.
 */
module HttpResponse {
  import opened Base
  import opened Errs
  import opened Text

  const SuccessMessage: string := "OK"
  const DefaultErrorCode: string := "100500"

  const CodeInvalid: string := "100010"
  const CodeNotFound: string := "100404"
  const CodeUnauthorized: string := "100401"
  const CodeConflict: string := "100409"
  const CodeNotImplemented: string := "100501"
  const CodeInternal: string := "100500"

  /** `APIResponse`; an absent `result` and an empty `info` are left out of the JSON. */
  datatype ApiResponse<T> = ApiResponse(code: string, message: string, result: Option<T>, info: string)

  /** A response as the handler writes it: the HTTP status and the envelope. */
  datatype Reply<T> = Reply(status: int, body: ApiResponse<T>)

  /** `RespondSuccess`: the status, also as the envelope's code, and message `OK`. */
  function RespondSuccess<T>(status: int, result: T): (r: Reply<T>)
    ensures r.status == status && r.body.message == SuccessMessage && r.body.result == Some(result)
    ensures r.body.info == ""
    ensures IsInt64(status) ==> Atoi(r.body.code) == Some(status)
  {
    assert IsInt64(status) ==> Atoi(Itoa(status)) == Some(status) by {
      if IsInt64(status) { AtoiItoa(status); }
    }
    Reply(status, ApiResponse(Itoa(status), SuccessMessage, Some(result), ""))
  }

  /** `RespondList`: the data nested under `data`. */
  function RespondList<T>(status: int, data: T): (r: Reply<map<string, T>>)
    ensures r.status == status && r.body.message == SuccessMessage
    ensures r.body.result.Some? && r.body.result.value.Keys == {"data"} && r.body.result.value["data"] == data
  {
    RespondSuccess(status, map["data" := data])
  }

  /** The application code of an error code from the `errs` package, if it is one of the six known. */
  function AppCode(code: string): (r: Option<string>) {
    if code == EInvalid then Some(CodeInvalid)
    else if code == ENotFound then Some(CodeNotFound)
    else if code == EConflict then Some(CodeConflict)
    else if code == EUnauthorized then Some(CodeUnauthorized)
    else if code == ENotImplemented then Some(CodeNotImplemented)
    else if code == EInternal then Some(CodeInternal)
    else None
  }

  /** Different error codes get different application codes. */
  lemma AppCodeInjective(a: string, b: string)
    requires AppCode(a).Some? && AppCode(a) == AppCode(b)
    ensures a == b
  {
  }

  /** The code for an error that has none of its own: `100` and the status in three digits, or `100500`. */
  function StatusCode(status: int): (code: string)
    ensures 0 < status < 1000 ==> |code| == 6 && AllAsciiDigits(code) && DecimalValue(code) == 100000 + status
    ensures status == 0 ==> code == DefaultErrorCode
  {
    if status != 0 then
      var s := "100" + ZeroPad3(status);
      assert 0 < status < 1000 ==> AllAsciiDigits(s) && DecimalValue(s) == 100000 + status by {
        if 0 < status < 1000 { StatusCodeValue(ZeroPad3(status), status); }
      }
      s
    else DefaultErrorCode
  }

  lemma StatusCodeValue(digits: string, status: int)
    requires |digits| == 3 && AllAsciiDigits(digits) && DecimalValue(digits) == status
    ensures var s := "100" + digits; AllAsciiDigits(s) && DecimalValue(s) == 100000 + status
  {
    var s := "100" + digits;
    assert s[..5] == "100" + digits[..2];
    assert s[..4] == "100" + digits[..1];
    assert s[..5][..4] == s[..4] && s[..4][..3] == "100";
    assert DecimalValue("100") == 100 by {
      assert "100"[..2] == "10" && "10"[..1] == "1" && "1"[..0] == "";
    }
    assert digits[..2][..1] == digits[..1] && digits[..1][..0] == "";
    var d0, d1, d2 := DigitValue(digits[0]), DigitValue(digits[1]), DigitValue(digits[2]);
    assert DecimalValue(digits[..1]) == d0 by {
      assert DecimalValue(digits[..1]) == 10 * DecimalValue(digits[..1][..0]) + DigitValue(digits[..1][0]);
    }
    assert DecimalValue(digits[..2]) == 10 * d0 + d1 by {
      assert DecimalValue(digits[..2]) == 10 * DecimalValue(digits[..2][..1]) + DigitValue(digits[..2][1]);
    }
    assert DecimalValue(digits) == 100 * d0 + 10 * d1 + d2 by {
      assert digits[..2] == digits[..|digits| - 1];
    }
    assert DecimalValue(s[..4]) == 1000 + d0 by {
      assert DecimalValue(s[..4]) == 10 * DecimalValue(s[..4][..3]) + DigitValue(s[..4][3]);
    }
    assert DecimalValue(s[..5]) == 10000 + 10 * d0 + d1 by {
      assert DecimalValue(s[..5]) == 10 * DecimalValue(s[..5][..4]) + DigitValue(s[..5][4]);
    }
    assert DecimalValue(s) == 100000 + 100 * d0 + 10 * d1 + d2 by {
      assert s[..5] == s[..|s| - 1] && s[|s| - 1] == digits[2];
    }
  }

  /** `errorCode` as written: only an error that is itself an application error is coded by its kind. */
  function ErrorCodeAsWritten(err: Option<Error>, status: int): (code: string)
    ensures err.Some? && err.value.AppError? && AppCode(err.value.code).Some? ==> code == AppCode(err.value.code).value
    ensures !(err.Some? && err.value.AppError? && AppCode(err.value.code).Some?) ==> code == StatusCode(status)
  {
    if err.Some? && err.value.AppError? && AppCode(err.value.code).Some? then AppCode(err.value.code).value
    else StatusCode(status)
  }

  /** `errorCode` as evidently intended: the application error is found inside wrapped and joined errors too. */
  function ResponseCode(err: Option<Error>, status: int): (code: string)
    ensures err.Some? && FindApp(err.value).Some? && AppCode(Errs.ErrorCode(err)).Some? ==>
      code == AppCode(Errs.ErrorCode(err)).value
    ensures !(err.Some? && FindApp(err.value).Some? && AppCode(Errs.ErrorCode(err)).Some?) ==> code == StatusCode(status)
  {
    if err.Some? && FindApp(err.value).Some? && AppCode(Errs.ErrorCode(err)).Some? then AppCode(Errs.ErrorCode(err)).value
    else StatusCode(status)
  }

  /** The two agree on errors that are application errors themselves and on errors with none inside. */
  lemma ErrorCodeAgreesOnUnwrapped(err: Option<Error>, status: int)
    requires err.None? || err.value.AppError? || FindApp(err.value).None?
    ensures ErrorCodeAsWritten(err, status) == ResponseCode(err, status)
  {
  }

  /** Wrapping does not change the intended code: the code the inner error gets is kept. */
  lemma ErrorCodeSeesThroughWrapping(e: Error, context: string, status: int)
    ensures ResponseCode(Some(Wrapped(context, e)), status) == ResponseCode(Some(e), status)
  {
    CodeAndMessageSeeThroughWrapping(e, context);
  }

  /**
   * As written, an invalid-input error wrapped with context and answered
   * with status 400 is coded `100400`, not `100010` as when unwrapped.
   */
  lemma WrappedInvalidLosesItsCode(context: string, message: string)
    ensures ErrorCodeAsWritten(Some(Wrapped(context, AppError(EInvalid, message))), 400) == "100400"
    ensures ResponseCode(Some(Wrapped(context, AppError(EInvalid, message))), 400) == CodeInvalid
    ensures ErrorCodeAsWritten(Some(AppError(EInvalid, message)), 400) == CodeInvalid
  {
    assert ZeroPad3(400) == "400";
  }

  /**
   * `RespondError`. An empty message becomes the status text, then
   * `Error`; a server-side status (500 and above) drops `info`; the code
   * is `errorCode`'s, as written.
   */
  function RespondError<T>(status: int, message: string, info: string, err: Option<Error>, statusText: int -> string): (r: Reply<T>)
    ensures r.status == status && r.body.result == None
    ensures r.body.message != ""
    ensures message != "" ==> r.body.message == message
    ensures message == "" && status != 0 && statusText(status) != "" ==> r.body.message == statusText(status)
    ensures message == "" && (status == 0 || statusText(status) == "") ==> r.body.message == "Error"
    ensures status >= 500 ==> r.body.info == ""
    ensures status < 500 ==> r.body.info == info
    ensures r.body.code == ErrorCodeAsWritten(err, status)
  {
    var m1 := if message == "" && status != 0 then statusText(status) else message;
    var m2 := if m1 == "" then "Error" else m1;
    var i := if status >= 500 then "" else info;
    Reply(status, ApiResponse(ErrorCodeAsWritten(err, status), m2, None, i))
  }

  /** So an invalid-input error wrapped with context and answered with 400 reaches the client coded `100400`. */
  lemma RespondErrorLosesWrappedCode<T>(message: string, info: string, context: string, m: string, statusText: int -> string)
    ensures RespondError<T>(400, message, info, Some(Wrapped(context, AppError(EInvalid, m))), statusText).body.code == "100400"
  {
    WrappedInvalidLosesItsCode(context, m);
  }
}

=== FILE: httpserver.dfy ===
/**
 * The HTTP server's defaults, its global middleware stack, and the
 * central error handler that turns an error into a status and an
 * `{"error": message}` body.
 *
 * The handler takes an echo `*HTTPError` at its word (status and string
 * message); any other error is classified by the code of the application
 * error found inside it, and anything without a recognised client-side
 * code becomes a 500 with a fixed message, so internal detail is not
 * returned.
 */
module HttpServer {
  import opened Base
  import opened Errs
  import HttpResponse

  const InternalServerError: string := "Internal server error"

  const StatusBadRequest: int := 400
  const StatusUnauthorized: int := 401
  const StatusNotFound: int := 404
  const StatusConflict: int := 409
  const StatusTooManyRequests: int := 429
  const StatusInternalServerError: int := 500
  const StatusNotImplemented: int := 501

  /** The status and the `error` field the handler writes. */
  datatype ErrorBody = ErrorBody(status: int, message: string)

  /** The status the handler gives an application error code that keeps its message. */
  function ClientStatus(code: string): (r: Option<int>)
    ensures r.Some? ==> r.value in {StatusBadRequest, StatusNotFound, StatusConflict, StatusUnauthorized, StatusNotImplemented}
    ensures r.None? <==> code !in {EInvalid, ENotFound, EConflict, EUnauthorized, ENotImplemented}
  {
    if code == EInvalid then Some(StatusBadRequest)
    else if code == ENotFound then Some(StatusNotFound)
    else if code == EConflict then Some(StatusConflict)
    else if code == EUnauthorized then Some(StatusUnauthorized)
    else if code == ENotImplemented then Some(StatusNotImplemented)
    else None
  }

  /**
   * What `customHTTPErrorHandler` would write for `err`. An echo error
   * whose message is not a string makes the handler panic, so it is
   * excluded here.
   */
  function Classify(err: Error): (r: ErrorBody)
    requires err.HttpError? ==> err.payload.Text?
    ensures err.HttpError? ==> r == ErrorBody(err.status, err.payload.text)
    ensures !err.HttpError? && FindApp(err).Some? && ClientStatus(FindApp(err).value.code).Some? ==>
      r == ErrorBody(ClientStatus(FindApp(err).value.code).value, FindApp(err).value.message)
    ensures !err.HttpError? && (FindApp(err).None? || ClientStatus(FindApp(err).value.code).None?) ==>
      r == ErrorBody(StatusInternalServerError, InternalServerError)
  {
    if err.HttpError? then ErrorBody(err.status, err.payload.text)
    else
      var code := ErrorCode(Some(err));
      match ClientStatus(code)
      case Some(status) => ErrorBody(status, ErrorMessage(Some(err)))
      case None => ErrorBody(StatusInternalServerError, InternalServerError)
  }

  /** `customHTTPErrorHandler`: nothing is written once the response is committed. */
  function HandleError(err: Error, committed: bool): (r: Option<ErrorBody>)
    requires err.HttpError? ==> err.payload.Text?
    ensures r.Some? <==> !committed
    ensures r.Some? ==> r.value == Classify(err)
  {
    if committed then None else Some(Classify(err))
  }

  /** Only echo errors and client-side application errors reach the client with their own message. */
  lemma OnlyClientErrorsKeepTheirMessage(err: Error)
    requires err.HttpError? ==> err.payload.Text?
    requires Classify(err).message != InternalServerError
    ensures err.HttpError? || (FindApp(err).Some? && FindApp(err).value.code in {EInvalid, ENotFound, EConflict, EUnauthorized, ENotImplemented})
    ensures !err.HttpError? ==> Classify(err).message == ErrorMessage(Some(err))
  {
  }

  /**
   * Wrapping an application error keeps its status and message, but
   * wrapping an echo error hides it: the handler only recognises an echo
   * error that is not wrapped.
   */
  lemma WrappingKeepsOnlyApplicationErrors(e: Error, context: string)
    requires e.HttpError? ==> e.payload.Text?
    ensures !e.HttpError? ==> Classify(Wrapped(context, e)) == Classify(e)
    ensures e.HttpError? ==> Classify(Wrapped(context, e)) == ErrorBody(StatusInternalServerError, InternalServerError)
  {
    CodeAndMessageSeeThroughWrapping(e, context);
  }

  /**
   * The handler's status and the envelope's application code agree for
   * every code but `invalid`: the code is `100` and the status, except
   * that an invalid-input error is a 400 whose application code is
   * `100010`.
   */
  lemma StatusAndApplicationCodeAgree(code: string, message: string)
    requires code in {ENotFound, EConflict, EUnauthorized, ENotImplemented, EInternal}
    ensures HttpResponse.AppCode(code) == Some(HttpResponse.StatusCode(Classify(AppError(code, message)).status))
    ensures HttpResponse.AppCode(EInvalid) != Some(HttpResponse.StatusCode(Classify(AppError(EInvalid, message)).status))
  {
    assert HttpResponse.StatusCode(400) == "100400";
    assert HttpResponse.StatusCode(404) == "100404";
    assert HttpResponse.StatusCode(409) == "100409";
    assert HttpResponse.StatusCode(401) == "100401";
    assert HttpResponse.StatusCode(501) == "100501";
    assert HttpResponse.StatusCode(500) == "100500";
  }

  /** The server's global middleware, in the order it is installed. */
  datatype Middleware =
    | Recover
    | Secure
    | RequestId
    | Gzip
    | Sentry(repanic: bool)
    | RateLimiter(perSecond: int)
    | Cors(allowOrigins: seq<string>)

  /** The configuration part of `Server`: the listen address and the CORS origins. */
  datatype Server = Server(addr: string, allowOrigins: seq<string>)

  /** `Default`: listen on port 8080 of every interface and allow any origin. */
  function Default(): (s: Server)
    ensures s.addr == ":8080" && s.allowOrigins == ["*"]
  {
    Server(":8080", ["*"])
  }

  const FixedMiddlewares: seq<Middleware> :=
    [Recover, Secure, RequestId, Gzip, Sentry(true), RateLimiter(20)]

  /** `RegisterGlobalMiddlewares`: the fixed stack, then CORS for the configured origins when there are any. */
  function GlobalMiddlewares(s: Server): (ms: seq<Middleware>)
    ensures |ms| >= |FixedMiddlewares| && ms[..|FixedMiddlewares|] == FixedMiddlewares
    ensures |ms| == |FixedMiddlewares| + (if |s.allowOrigins| > 0 then 1 else 0)
    ensures (exists i :: 0 <= i < |ms| && ms[i].Cors?) <==> |s.allowOrigins| > 0
    ensures forall i :: 0 <= i < |ms| && ms[i].Cors? ==> ms[i].allowOrigins == s.allowOrigins
  {
    if |s.allowOrigins| > 0 then
      var ms := FixedMiddlewares + [Cors(s.allowOrigins)];
      assert ms[|FixedMiddlewares|].Cors?;
      ms
    else FixedMiddlewares
  }

  /** The default server installs CORS for any origin. */
  lemma DefaultAllowsAnyOrigin()
    ensures GlobalMiddlewares(Default())[|FixedMiddlewares|] == Cors(["*"])
  {
  }
}

=== FILE: httpvalidator.dfy ===
/**
 * The request validator of the HTTP layer: the `phone` and `password`
 * field rules, the JSON-tag naming of reported fields, and the single
 * invalid-input error a failed validation becomes.
 *
 * The struct walk of the validation library is not modelled: a failed
 * validation is given as the list of field errors it reports. The
 * password rule here is not the domain's; the lemmas at the end show
 * where the two agree and where they part.
 */
module HttpValidator {
  import opened Base
  import opened Errs
  import opened Text
  import Users
  import HttpServer

  /** The value of the field under validation: a string, or a field of any other kind. */
  datatype FieldValue = StrField(s: string) | OtherKind

  /** `s` is exactly `n` ASCII digits; the pattern `^[0-9]{10}$` with `n` = 10. */
  function MatchesDigits(s: string, n: nat): (b: bool)
    ensures b <==> |s| == n && AllAsciiDigits(s)
    decreases |s|
  {
    if s == [] then n == 0
    else if n == 0 || !IsAsciiDigit(s[0]) then false
    else
      var b := MatchesDigits(s[1..], n - 1);
      assert AllAsciiDigits(s) <==> AllAsciiDigits(s[1..]) by {
        assert forall i :: 1 <= i < |s| ==> s[i] == s[1..][i - 1];
      }
      b
  }

  /** `isPhoneNumberVN10Digits`: a string field whose trimmed value is ten ASCII digits. */
  function IsPhone(v: FieldValue): (ok: bool)
    ensures ok <==> v.StrField? && Users.IsTenDigits(TrimSpace(v.s))
  {
    match v
    case OtherKind => false
    case StrField(s) => MatchesDigits(TrimSpace(s), 10)
  }

  const MinPasswordBytes: nat := 12

  /** A rune that is not an ASCII letter or digit: the `default` case of the password loop. */
  predicate IsOther(c: char) {
    !IsAsciiLower(c) && !IsAsciiUpper(c) && !IsAsciiDigit(c)
  }

  /** What the HTTP password rule asks of the trimmed value. */
  predicate HttpStrongPassword(p: string) {
    && Utf8Len(p) >= MinPasswordBytes
    && (exists i :: 0 <= i < |p| && IsAsciiLower(p[i]))
    && (exists i :: 0 <= i < |p| && IsAsciiUpper(p[i]))
    && (exists i :: 0 <= i < |p| && IsAsciiDigit(p[i]))
    && (exists i :: 0 <= i < |p| && IsOther(p[i]))
  }

  /** `isPasswordMin12CharsWithUpperLowerNumberSpecial`: the byte length, then one pass over the runes. */
  method IsStrongPassword(v: FieldValue) returns (ok: bool)
    ensures ok <==> v.StrField? && HttpStrongPassword(TrimSpace(v.s))
  {
    if v.OtherKind? {
      return false;
    }
    var value := TrimSpace(v.s);
    if Utf8Len(value) < MinPasswordBytes {
      return false;
    }
    var hasLower, hasUpper, hasDigit, hasSpecial := ScanClasses(value);
    return hasLower && hasUpper && hasDigit && hasSpecial;
  }

  /** The rune loop of the password rule: one flag per class, set when a rune of that class is seen. */
  method ScanClasses(value: string) returns (hasLower: bool, hasUpper: bool, hasDigit: bool, hasSpecial: bool)
    ensures hasLower <==> exists j :: 0 <= j < |value| && IsAsciiLower(value[j])
    ensures hasUpper <==> exists j :: 0 <= j < |value| && IsAsciiUpper(value[j])
    ensures hasDigit <==> exists j :: 0 <= j < |value| && IsAsciiDigit(value[j])
    ensures hasSpecial <==> exists j :: 0 <= j < |value| && IsOther(value[j])
  {
    hasLower, hasUpper, hasDigit, hasSpecial := false, false, false, false;
    var i := 0;
    while i < |value|
      invariant 0 <= i <= |value|
      invariant hasLower <==> exists j :: 0 <= j < i && IsAsciiLower(value[j])
      invariant hasUpper <==> exists j :: 0 <= j < i && IsAsciiUpper(value[j])
      invariant hasDigit <==> exists j :: 0 <= j < i && IsAsciiDigit(value[j])
      invariant hasSpecial <==> exists j :: 0 <= j < i && IsOther(value[j])
    {
      var r := value[i];
      if 'a' <= r <= 'z' {
        hasLower := true;
        assert !IsAsciiUpper(r) && !IsAsciiDigit(r) && !IsOther(r);
      } else if 'A' <= r <= 'Z' {
        hasUpper := true;
        assert !IsAsciiLower(r) && !IsAsciiDigit(r) && !IsOther(r);
      } else if '0' <= r <= '9' {
        hasDigit := true;
        assert !IsAsciiLower(r) && !IsAsciiUpper(r) && !IsOther(r);
      } else {
        hasSpecial := true;
        assert !IsAsciiLower(r) && !IsAsciiUpper(r) && !IsAsciiDigit(r) && IsOther(r);
      }
      i := i + 1;
    }
  }

  /** A printable ASCII character other than space. */
  predicate IsPrintableAscii(c: char) {
    0x21 <= c as int <= 0x7E
  }

  /** Among printable ASCII characters, "not a letter or digit" is exactly ASCII punctuation or symbol. */
  lemma PrintableOtherIsPunctOrSymbol(c: char)
    requires IsPrintableAscii(c)
    ensures IsOther(c) <==> Users.IsAsciiPunct(c) || Users.IsAsciiSymbol(c)
  {
  }

  /** The same with the Unicode classes, when they are right about ASCII. */
  lemma PrintableOtherIsSpecial(rc: Users.RuneClasses, c: char)
    requires Users.AgreesOnAscii(rc) && IsPrintableAscii(c)
    ensures IsOther(c) <==> Users.IsSpecial(rc, c)
  {
    PrintableOtherIsPunctOrSymbol(c);
  }

  /**
   * On passwords of printable ASCII characters from 12 to 72 bytes long,
   * with Unicode classes that are right about ASCII, the HTTP rule and the
   * domain rule accept the same passwords.
   */
  lemma PoliciesAgreeOnPrintableAscii(p: string, rc: Users.RuneClasses)
    requires Users.AgreesOnAscii(rc)
    requires forall i :: 0 <= i < |p| ==> IsPrintableAscii(p[i])
    requires MinPasswordBytes <= |p| <= Users.MaxPasswordLength
    ensures HttpStrongPassword(p) <==> Users.StrongPassword(p, rc)
  {
    Utf8LenAscii(p);
    forall i | 0 <= i < |p|
      ensures IsOther(p[i]) <==> Users.IsSpecial(rc, p[i])
    {
      PrintableOtherIsSpecial(rc, p[i]);
    }
  }

  /** Nine bytes are enough for the domain, not for the HTTP rule. */
  lemma NineBytesSplitThePolicies(rc: Users.RuneClasses)
    requires Users.AgreesOnAscii(rc)
    ensures Users.StrongPassword("Abcdef1!x", rc) && !HttpStrongPassword("Abcdef1!x")
  {
    NineBytesAreEnoughForTheDomain(rc);
    NineBytesAreTooFewForHttp();
  }

  lemma NineBytesAreEnoughForTheDomain(rc: Users.RuneClasses)
    requires Users.AgreesOnAscii(rc)
    ensures Users.StrongPassword("Abcdef1!x", rc)
  {
    NineByteWitnesses("Abcdef1!x");
    StrongFromAsciiWitnesses("Abcdef1!x", rc, 0, 1, 6, 7);
  }

  lemma NineByteWitnesses(p: string)
    requires p == "Abcdef1!x"
    ensures IsAscii(p) && |p| == 9
    ensures IsAsciiUpper(p[0]) && IsAsciiLower(p[1]) && IsAsciiDigit(p[6]) && Users.IsAsciiPunct(p[7])
  {
    ExclamationIsPunct();
  }

  /** With classes that are right about ASCII, one ASCII character of each class is enough for the domain. */
  lemma StrongFromAsciiWitnesses(p: string, rc: Users.RuneClasses, upper: nat, lower: nat, digit: nat, special: nat)
    requires Users.AgreesOnAscii(rc)
    requires IsAscii(p) && Users.MinPasswordLength <= |p| <= Users.MaxPasswordLength
    requires upper < |p| && lower < |p| && digit < |p| && special < |p|
    requires IsAsciiUpper(p[upper]) && IsAsciiLower(p[lower]) && IsAsciiDigit(p[digit]) && Users.IsAsciiPunct(p[special])
    ensures Users.StrongPassword(p, rc)
  {
    Utf8LenAscii(p);
    PunctIsAscii(p[special]);
    ClassesOfAscii(rc, p[upper]);
    ClassesOfAscii(rc, p[lower]);
    ClassesOfAscii(rc, p[digit]);
    ClassesOfAscii(rc, p[special]);
    StrongFromWitnesses(p, rc, upper, lower, digit, special);
  }

  lemma PunctIsAscii(c: char)
    requires Users.IsAsciiPunct(c)
    ensures c as int < 0x80
  {
  }

  /** What classes that are right about ASCII say about one ASCII character. */
  lemma ClassesOfAscii(rc: Users.RuneClasses, c: char)
    requires Users.AgreesOnAscii(rc) && c as int < 0x80
    ensures rc.isUpper(c) <==> IsAsciiUpper(c)
    ensures rc.isLower(c) <==> IsAsciiLower(c)
    ensures rc.isNumber(c) <==> IsAsciiDigit(c)
    ensures rc.isPunct(c) <==> Users.IsAsciiPunct(c)
  {
  }

  /** One character of each class, within the length bounds, satisfies the domain. */
  lemma StrongFromWitnesses(p: string, rc: Users.RuneClasses, upper: nat, lower: nat, digit: nat, special: nat)
    requires Users.MinPasswordLength <= Utf8Len(p) <= Users.MaxPasswordLength
    requires upper < |p| && lower < |p| && digit < |p| && special < |p|
    requires rc.isUpper(p[upper]) && rc.isLower(p[lower]) && rc.isNumber(p[digit]) && Users.IsSpecial(rc, p[special])
    ensures Users.StrongPassword(p, rc)
  {
  }

  lemma NineBytesAreTooFewForHttp()
    ensures !HttpStrongPassword("Abcdef1!x")
  {
    NineByteWitnesses("Abcdef1!x");
    ShortAsciiFailsHttp("Abcdef1!x");
  }

  /** An ASCII password shorter than 12 characters is too short for the HTTP rule. */
  lemma ShortAsciiFailsHttp(p: string)
    requires IsAscii(p) && |p| < MinPasswordBytes
    ensures !HttpStrongPassword(p)
  {
    Utf8LenAscii(p);
  }

  lemma ExclamationIsPunct()
    ensures Users.IsAsciiPunct('!')
  {
  }

  /** Seventy-three bytes are too many for the domain; the HTTP rule has no upper bound. */
  lemma LongPasswordSplitsThePolicies(rc: Users.RuneClasses)
    ensures var p := "Abcdef1!" + seq(65, _ => 'x');
      HttpStrongPassword(p) && !Users.StrongPassword(p, rc)
  {
    var p := "Abcdef1!" + seq(65, _ => 'x');
    assert IsAscii(p) by {
      assert forall i :: 8 <= i < |p| ==> p[i] == 'x';
    }
    Utf8LenAscii(p);
    assert IsAsciiUpper(p[0]) && IsAsciiLower(p[1]) && IsAsciiDigit(p[6]) && IsOther(p[7]);
  }

  /**
   * A space inside the password counts as special for the HTTP rule, not
   * for the domain: a password of 12 or more ASCII letters, digits and
   * spaces, with a space and each kind of letter and a digit, passes the
   * HTTP rule and fails the domain's.
   */
  lemma InnerSpaceSplitsThePolicies(p: string, rc: Users.RuneClasses)
    requires Users.AgreesOnAscii(rc)
    requires |p| >= MinPasswordBytes
    requires forall i :: 0 <= i < |p| ==> IsAsciiUpper(p[i]) || IsAsciiLower(p[i]) || IsAsciiDigit(p[i]) || p[i] == ' '
    requires exists i :: 0 <= i < |p| && IsAsciiUpper(p[i])
    requires exists i :: 0 <= i < |p| && IsAsciiLower(p[i])
    requires exists i :: 0 <= i < |p| && IsAsciiDigit(p[i])
    requires exists i :: 0 <= i < |p| && p[i] == ' '
    ensures HttpStrongPassword(p) && !Users.StrongPassword(p, rc)
  {
    Utf8LenAscii(p);
    var j :| 0 <= j < |p| && p[j] == ' ';
    assert IsOther(p[j]);
    WithoutPunctuationNotStrong(p, rc);
  }

  /**
   * A non-ASCII rune is special for the HTTP rule whatever it is, and for
   * the domain only when the Unicode tables call it punctuation or a
   * symbol: a password of 12 to 72 bytes whose only character other than
   * ASCII letters and digits is one non-ASCII rune, with each kind of
   * letter and a digit, passes the HTTP rule, and the domain's exactly
   * when that rune is punctuation or a symbol.
   */
  lemma NonAsciiSplitsThePolicies(p: string, rc: Users.RuneClasses, k: nat)
    requires Users.AgreesOnAscii(rc)
    requires k < |p| && p[k] as int >= 0x80
    requires forall i :: 0 <= i < |p| && i != k ==> IsAsciiUpper(p[i]) || IsAsciiLower(p[i]) || IsAsciiDigit(p[i])
    requires exists i :: 0 <= i < |p| && IsAsciiUpper(p[i])
    requires exists i :: 0 <= i < |p| && IsAsciiLower(p[i])
    requires exists i :: 0 <= i < |p| && IsAsciiDigit(p[i])
    requires MinPasswordBytes <= Utf8Len(p) <= Users.MaxPasswordLength
    ensures HttpStrongPassword(p)
    ensures Users.StrongPassword(p, rc) <==> Users.IsSpecial(rc, p[k])
  {
    NonAsciiPassesHttp(p, k);
    NonAsciiDecidesTheDomain(p, rc, k);
  }

  /**
   * `ValidatePassword` accepts exactly the strong passwords, so where one
   * rune decides strength, as in `NonAsciiSplitsThePolicies`, it decides
   * whether the domain reports an error.
   */
  lemma DomainAcceptsWhenSpecial(p: string, rc: Users.RuneClasses, k: nat)
    requires k < |p|
    requires Users.StrongPassword(p, rc) <==> Users.IsSpecial(rc, p[k])
    ensures Users.ValidatePassword(p, rc).None? <==> rc.isPunct(p[k]) || rc.isSymbol(p[k])
  {
  }

  /** The HTTP half: the non-ASCII rune is the special character the HTTP rule wants. */
  lemma NonAsciiPassesHttp(p: string, k: nat)
    requires k < |p| && p[k] as int >= 0x80
    requires exists i :: 0 <= i < |p| && IsAsciiUpper(p[i])
    requires exists i :: 0 <= i < |p| && IsAsciiLower(p[i])
    requires exists i :: 0 <= i < |p| && IsAsciiDigit(p[i])
    requires MinPasswordBytes <= Utf8Len(p)
    ensures HttpStrongPassword(p)
  {
    assert IsOther(p[k]);
  }

  /** The domain half of `NonAsciiSplitsThePolicies`: the lone non-ASCII rune decides. */
  lemma NonAsciiDecidesTheDomain(p: string, rc: Users.RuneClasses, k: nat)
    requires Users.AgreesOnAscii(rc)
    requires k < |p|
    requires forall i :: 0 <= i < |p| && i != k ==> IsAsciiUpper(p[i]) || IsAsciiLower(p[i]) || IsAsciiDigit(p[i])
    requires exists i :: 0 <= i < |p| && IsAsciiUpper(p[i])
    requires exists i :: 0 <= i < |p| && IsAsciiLower(p[i])
    requires exists i :: 0 <= i < |p| && IsAsciiDigit(p[i])
    requires Users.MinPasswordLength <= Utf8Len(p) <= Users.MaxPasswordLength
    ensures Users.StrongPassword(p, rc) <==> Users.IsSpecial(rc, p[k])
  {
    var u :| 0 <= u < |p| && IsAsciiUpper(p[u]);
    var l :| 0 <= l < |p| && IsAsciiLower(p[l]);
    var d :| 0 <= d < |p| && IsAsciiDigit(p[d]);
    ClassesOfAscii(rc, p[u]);
    ClassesOfAscii(rc, p[l]);
    ClassesOfAscii(rc, p[d]);
    AlphanumericNotSpecial(p, rc, k);
    if Users.IsSpecial(rc, p[k]) {
      StrongFromWitnesses(p, rc, u, l, d, k);
    }
  }

  /** Under classes that are right about ASCII, no ASCII letter or digit is special. */
  lemma AlphanumericNotSpecial(p: string, rc: Users.RuneClasses, k: nat)
    requires Users.AgreesOnAscii(rc)
    requires forall i :: 0 <= i < |p| && i != k ==> IsAsciiUpper(p[i]) || IsAsciiLower(p[i]) || IsAsciiDigit(p[i])
    ensures forall i :: 0 <= i < |p| && i != k ==> !Users.IsSpecial(rc, p[i])
  {
    forall i | 0 <= i < |p| && i != k
      ensures !Users.IsSpecial(rc, p[i])
    {
      AlphanumericOrSpaceIsNotSpecial(p[i]);
    }
  }

  /** Letters, digits and spaces alone never make a password the domain accepts. */
  lemma WithoutPunctuationNotStrong(p: string, rc: Users.RuneClasses)
    requires Users.AgreesOnAscii(rc)
    requires forall i :: 0 <= i < |p| ==> IsAsciiUpper(p[i]) || IsAsciiLower(p[i]) || IsAsciiDigit(p[i]) || p[i] == ' '
    ensures !Users.StrongPassword(p, rc)
  {
    forall i | 0 <= i < |p|
      ensures !Users.IsSpecial(rc, p[i])
    {
      AlphanumericOrSpaceIsNotSpecial(p[i]);
    }
  }

  lemma AlphanumericOrSpaceIsNotSpecial(c: char)
    requires IsAsciiUpper(c) || IsAsciiLower(c) || IsAsciiDigit(c) || c == ' '
    ensures !Users.IsAsciiPunct(c) && !Users.IsAsciiSymbol(c)
  {
  }

  /**
   * The HTTP phone rule and the domain's agree on phones that are not
   * blank; a blank phone is optional for the domain and refused here.
   */
  lemma PhoneRulesAgree(phone: string)
    ensures TrimSpace(phone) != "" ==> (IsPhone(StrField(phone)) <==> Users.ValidatePhone(TrimSpace(phone)).None?)
    ensures TrimSpace(phone) == "" ==> !IsPhone(StrField(phone)) && Users.ValidatePhone(TrimSpace(phone)).None?
  {
  }

  /** The text before the first comma of a struct tag; the whole tag when it has none. */
  function FirstSegment(tag: string): (name: string)
    ensures |name| <= |tag| && tag[..|name|] == name
    ensures forall i :: 0 <= i < |name| ==> name[i] != ','
    ensures |name| == |tag| || tag[|name|] == ','
    decreases |tag|
  {
    if tag == [] || tag[0] == ',' then []
    else [tag[0]] + FirstSegment(tag[1..])
  }

  /** The tag-name function: the JSON name, nothing for `-`, the Go field name for an empty one. */
  function TagName(jsonTag: string, fieldName: string): (name: string)
    ensures FirstSegment(jsonTag) == "-" ==> name == ""
    ensures FirstSegment(jsonTag) == "" ==> name == fieldName
    ensures FirstSegment(jsonTag) != "-" && FirstSegment(jsonTag) != "" ==> name == FirstSegment(jsonTag)
  {
    var name := FirstSegment(jsonTag);
    if name == "-" then "" else if name == "" then fieldName else name
  }

  /** A JSON name comes back out of its tag, with or without options after it. */
  lemma TagNameRoundTrip(name: string, options: string, fieldName: string)
    requires name != "" && name != "-"
    requires forall i :: 0 <= i < |name| ==> name[i] != ','
    ensures TagName(name, fieldName) == name
    ensures TagName(name + "," + options, fieldName) == name
  {
    FirstSegmentOfName(name, "");
    FirstSegmentOfName(name, "," + options);
    assert name + "," + options == name + ("," + options);
  }

  lemma {:induction false} FirstSegmentOfName(name: string, rest: string)
    requires forall i :: 0 <= i < |name| ==> name[i] != ','
    requires rest == [] || rest[0] == ','
    ensures FirstSegment(name + rest) == name
    decreases |name|
  {
    if name != [] {
      FirstSegmentOfName(name[1..], rest);
      assert (name + rest)[1..] == name[1..] + rest;
    } else {
      assert name + rest == rest;
    }
  }

  /** One field error as the validation library reports it. */
  datatype FieldError = FieldError(field: string, structField: string, tag: string)

  /** The error `Struct` returns: the field errors, or another failure. */
  datatype Failure = FieldErrors(errors: seq<FieldError>) | OtherFailure

  /** The name a field error is reported under. */
  function Reported(fe: FieldError): string {
    (if fe.field == "" then fe.structField else fe.field) + " failed on " + fe.tag
  }

  function ReportedParts(errors: seq<FieldError>): (parts: seq<string>)
    ensures |parts| == |errors| && forall i :: 0 <= i < |errors| ==> parts[i] == Reported(errors[i])
  {
    seq(|errors|, i requires 0 <= i < |errors| => Reported(errors[i]))
  }

  const FormatPrefix: string := "validation error"

  /** `formatValidationError`. */
  function FormatValidationError(f: Failure): (msg: string)
    ensures f.OtherFailure? ==> msg == FormatPrefix
    ensures f.FieldErrors? ==> |msg| >= |FormatPrefix| + 2 && msg[..|FormatPrefix| + 2] == FormatPrefix + ": "
    ensures f.FieldErrors? && |f.errors| == 1 ==> msg == FormatPrefix + ": " + Reported(f.errors[0])
  {
    match f
    case OtherFailure => FormatPrefix
    case FieldErrors(errors) =>
      var parts := ReportedParts(errors);
      var joined := Join(parts, "; ");
      var msg := FormatPrefix + ": " + joined;
      msg
  }

  /** Every part appears in a joined string, whatever comes before it. */
  lemma PrefixedJoinHasEveryPart(prefix: string, parts: seq<string>, sep: string, i: nat)
    requires i < |parts|
    ensures exists k :: OccursAt(prefix + Join(parts, sep), parts[i], k)
  {
    JoinHasEveryPart(parts, sep, i);
    var joined := Join(parts, sep);
    var k :| OccursAt(joined, parts[i], k);
    var msg := prefix + joined;
    assert msg[|prefix| + k..|prefix| + k + |parts[i]|] == joined[k..k + |parts[i]|];
    assert OccursAt(msg, parts[i], |prefix| + k);
  }

  /** The message names every failed field with its rule. */
  lemma MessageNamesEveryField(f: Failure, i: nat)
    requires f.FieldErrors? && i < |f.errors|
    ensures exists k :: OccursAt(FormatValidationError(f), Reported(f.errors[i]), k)
  {
    var parts := ReportedParts(f.errors);
    PrefixedJoinHasEveryPart(FormatPrefix + ": ", parts, "; ", i);
    var k :| OccursAt(FormatPrefix + ": " + Join(parts, "; "), parts[i], k);
    assert FormatValidationError(f) == FormatPrefix + ": " + Join(parts, "; ");
    assert OccursAt(FormatValidationError(f), Reported(f.errors[i]), k);
  }

  /** `AppValidator.Validate`: no failure is no error; any failure is one invalid-input error. */
  function Validate(failure: Option<Failure>): (r: Option<Error>)
    ensures r.None? <==> failure.None?
    ensures r.Some? ==> ErrorCode(r) == EInvalid && ErrorMessage(r) == FormatValidationError(failure.value)
  {
    match failure
    case None => None
    case Some(f) => Some(Errorf(EInvalid, FormatValidationError(f)))
  }

  /** A failed validation reaches the client as a 400 with the formatted message. */
  lemma ValidationFailureIs400(f: Failure)
    ensures HttpServer.Classify(Validate(Some(f)).value) == HttpServer.ErrorBody(HttpServer.StatusBadRequest, FormatValidationError(f))
  {
  }
}

=== FILE: jwt.dfy ===
/**
 * Access and refresh tokens (pkg/jwt/provider.go): JSON Web Tokens whose
 * registered claims (section 4.1 of RFC 7519) are signed with HMAC
 * SHA-256 (section 3.2 of RFC 7518).
 *
 * Signing and verification are the parameter `Codec`: `sign` renders
 * a header algorithm and a claim set under a secret, and `verify` reads
 * a token back under a secret, yielding the algorithm and the claims
 * exactly when the signature checks out. The library's time-claim
 * checks (`MapClaims.Valid` of github.com/golang-jwt/jwt v3) are written
 * out; claim times are whole Unix seconds.
 */
module Jwt {
  import opened Base
  import opened Errs
  import opened Random
  import Users

  const DefaultIssuer: string := "hexagon-api"
  const DefaultAudience: string := "hexagon-clients"
  const JtiLength: int := 24

  const TypeAccess: string := "access"
  const TypeRefresh: string := "refresh"

  /** `JWTProvider`. */
  datatype Provider = Provider(
    secret: string,
    accessTtl: Duration,
    refreshTtl: Duration,
    issuer: string,
    audience: string)

  /** `NewJWTProvider`: the issuer and audience are fixed. */
  function NewProvider(secret: string, accessTtl: Duration, refreshTtl: Duration): (p: Provider)
    ensures p.secret == secret && p.accessTtl == accessTtl && p.refreshTtl == refreshTtl
    ensures p.issuer == DefaultIssuer && p.audience == DefaultAudience
  {
    Provider(secret, accessTtl, refreshTtl, DefaultIssuer, DefaultAudience)
  }

  /** A decoded JSON claim value: a string, a number, or anything else. */
  datatype ClaimValue = Str(text: string) | Num(n: int) | OtherValue

  /** `jwt.MapClaims`. */
  type Claims = map<string, ClaimValue>

  /** Signing algorithms a token header may name. */
  datatype Alg = HS256 | HS384 | HS512 | RS256 | ES256 | EdDSA | NoSignature

  /** `*jwt.SigningMethodHMAC`. */
  predicate IsHmac(alg: Alg) {
    alg == HS256 || alg == HS384 || alg == HS512
  }

  datatype Decoded = Decoded(alg: Alg, claims: Claims)

  datatype Codec = Codec(
    sign: (Alg, Claims, string) -> string,
    verify: (string, string) -> Option<Decoded>)

  datatype TokenType = Access | Refresh

  function TypeName(t: TokenType): string {
    match t
    case Access => TypeAccess
    case Refresh => TypeRefresh
  }

  /** `generateJTI`. */
  function GenerateJti(length: int, draw: Draw): (r: Result<string, Error>)
    ensures length <= 0 ==> r == Failure(Plain("invalid jti length"))
    ensures length > 0 && draw.ReadFailed? ==> r == Failure(draw.err)
    ensures length > 0 && draw.Read? ==> r.Success?
    ensures r.Success? ==> draw.Read? && r.value != [] && Decode(r.value) == Some(Bytes(draw.byteAt, length))
  {
    RandomToken("", length, draw, "invalid jti length")
  }

  /** The claim set of a token of type `t` for `u`, issued at `now` with identifier `jti`. */
  function TokenClaims(p: Provider, u: Users.User, now: Instant, jti: string, t: TokenType): (c: Claims)
    ensures c.Keys == {"iss", "aud", "sub", "jti", "iat", "nbf", "exp", "type", "user_id", "email", "role"}
  {
    var ttl := if t == Access then p.accessTtl else p.refreshTtl;
    map[
      "iss" := Str(p.issuer),
      "aud" := Str(p.audience),
      "sub" := Str(u.id),
      "jti" := Str(jti),
      "iat" := Num(UnixSeconds(now)),
      "nbf" := Num(UnixSeconds(now)),
      "exp" := Num(UnixSeconds(now + ttl)),
      "type" := Str(TypeName(t)),
      "user_id" := Str(u.id),
      "email" := Str(u.email),
      "role" := Str(u.role)]
  }

  /** `GenerateAccessToken` / `GenerateRefreshToken`. */
  function GenerateToken(p: Provider, codec: Codec, u: Users.User, now: Instant, draw: Draw, t: TokenType): (r: Result<string, Error>)
    ensures draw.ReadFailed? ==> r == Failure(draw.err)
    ensures draw.Read? ==>
      (r.Success? && exists jti :: jti != [] && r.value == codec.sign(HS256, TokenClaims(p, u, now, jti, t), p.secret))
  {
    var jti :- GenerateJti(JtiLength, draw);
    Success(codec.sign(HS256, TokenClaims(p, u, now, jti, t), p.secret))
  }

  function GenerateAccessToken(p: Provider, codec: Codec, u: Users.User, now: Instant, draw: Draw): Result<string, Error> {
    GenerateToken(p, codec, u, now, draw, Access)
  }

  function GenerateRefreshToken(p: Provider, codec: Codec, u: Users.User, now: Instant, draw: Draw): Result<string, Error> {
    GenerateToken(p, codec, u, now, draw, Refresh)
  }

  /** The identifier a successful draw gives a token. */
  function JtiOf(draw: Draw): string
    requires draw.Read?
  {
    GenerateJti(JtiLength, draw).value
  }

  /**
   * Both kinds of token carry the same claims apart from `type` and
   * `exp`: issuer, audience, subject and user id, email, role, issue and
   * not-before times, and a fresh identifier.
   */
  lemma AccessAndRefreshClaimsDiffer(p: Provider, u: Users.User, now: Instant, jti: string)
    ensures var a := TokenClaims(p, u, now, jti, Access);
            var r := TokenClaims(p, u, now, jti, Refresh);
            && a - {"type", "exp"} == r - {"type", "exp"}
            && a["type"] == Str(TypeAccess) && r["type"] == Str(TypeRefresh)
            && a["exp"] == Num(UnixSeconds(now + p.accessTtl))
            && r["exp"] == Num(UnixSeconds(now + p.refreshTtl))
            && a["iat"] == a["nbf"] == Num(UnixSeconds(now))
            && a["sub"] == a["user_id"] == Str(u.id)
  {
  }

  /* ---------------------------------------------------------------- */
  /* Time claims, as `MapClaims.Valid` checks them.                    */

  /** `VerifyExpiresAt(now, false)`: absent or zero passes; otherwise `now <= exp`. */
  predicate ExpOk(c: Claims, now: int) {
    "exp" !in c || (c["exp"].Num? && (c["exp"].n == 0 || now <= c["exp"].n))
  }

  /** `VerifyIssuedAt(now, false)`: absent or zero passes; otherwise `now >= iat`. */
  predicate IatOk(c: Claims, now: int) {
    "iat" !in c || (c["iat"].Num? && (c["iat"].n == 0 || now >= c["iat"].n))
  }

  /** `VerifyNotBefore(now, false)`: absent or zero passes; otherwise `now >= nbf`. */
  predicate NbfOk(c: Claims, now: int) {
    "nbf" !in c || (c["nbf"].Num? && (c["nbf"].n == 0 || now >= c["nbf"].n))
  }

  predicate TimeValid(c: Claims, now: Instant) {
    ExpOk(c, UnixSeconds(now)) && IatOk(c, UnixSeconds(now)) && NbfOk(c, UnixSeconds(now))
  }

  /** `jwt.Parse` with the provider's key function: verify, insist on HMAC, check times. */
  function ParseTokenClaims(p: Provider, codec: Codec, token: string, now: Instant): (r: Result<Claims, Error>)
    ensures r.Success? <==>
      && codec.verify(token, p.secret).Some?
      && IsHmac(codec.verify(token, p.secret).value.alg)
      && TimeValid(codec.verify(token, p.secret).value.claims, now)
    ensures r.Success? ==> r.value == codec.verify(token, p.secret).value.claims
    ensures r.Failure? ==> r.error == Plain("invalid token")
  {
    match codec.verify(token, p.secret)
    case None => Failure(Plain("invalid token"))
    case Some(d) =>
      if !IsHmac(d.alg) then Failure(Plain("invalid token"))
      else if !TimeValid(d.claims, now) then Failure(Plain("invalid token"))
      // `claims.Valid()` again, on the same clock reading: it cannot fail here.
      else if !TimeValid(d.claims, now) then Failure(Plain("token expired"))
      else Success(d.claims)
  }

  predicate HasString(c: Claims, name: string) {
    name in c && c[name].Str?
  }

  predicate HasNonEmptyString(c: Claims, name: string) {
    HasString(c, name) && c[name].text != ""
  }

  /** `validateRefreshClaims`. */
  function ValidateRefreshClaims(p: Provider, c: Claims): (r: Option<Error>)
    ensures r == None <==>
      && c.Keys >= {"type", "iss", "aud", "jti"}
      && c["type"] == Str(TypeRefresh) && c["iss"] == Str(p.issuer) && c["aud"] == Str(p.audience)
      && HasNonEmptyString(c, "jti")
    ensures !(HasString(c, "type") && c["type"].text == TypeRefresh) ==> r == Some(Plain("invalid token type"))
  {
    if !(HasString(c, "type") && c["type"].text == TypeRefresh) then Some(Plain("invalid token type"))
    else if !(HasString(c, "iss") && c["iss"].text == p.issuer) then Some(Plain("invalid token issuer"))
    else if !(HasString(c, "aud") && c["aud"].text == p.audience) then Some(Plain("invalid token audience"))
    else if !HasNonEmptyString(c, "jti") then Some(Plain("invalid token id"))
    else None
  }

  /** `userIDFromClaims`: a non-empty `sub`, else a non-empty `user_id`. */
  function UserIdFromClaims(c: Claims): (r: Result<string, Error>)
    ensures r.Success? <==> HasNonEmptyString(c, "sub") || HasNonEmptyString(c, "user_id")
    ensures HasNonEmptyString(c, "sub") ==> r == Success(c["sub"].text)
    ensures !HasNonEmptyString(c, "sub") && HasNonEmptyString(c, "user_id") ==> r == Success(c["user_id"].text)
    ensures r.Failure? ==> r.error == Plain("invalid user id")
  {
    var fromSub := if HasString(c, "sub") then c["sub"].text else "";
    var userId :=
      if fromSub == "" && HasNonEmptyString(c, "user_id") then c["user_id"].text else fromSub;
    if userId == "" then Failure(Plain("invalid user id")) else Success(userId)
  }

  /** `emailFromClaims`. */
  function EmailFromClaims(c: Claims): (r: Result<string, Error>)
    ensures r.Success? <==> HasNonEmptyString(c, "email")
    ensures r.Success? ==> r.value == c["email"].text
    ensures r.Failure? ==> r.error == Plain("invalid email")
  {
    if HasNonEmptyString(c, "email") then Success(c["email"].text) else Failure(Plain("invalid email"))
  }

  /** `roleFromClaims`: a missing, non-string or empty role reads as `user`. */
  function RoleFromClaims(c: Claims): (role: string)
    ensures role != ""
    ensures HasNonEmptyString(c, "role") ==> role == c["role"].text
    ensures !HasNonEmptyString(c, "role") ==> role == Users.RoleUser
  {
    if HasNonEmptyString(c, "role") then c["role"].text else Users.RoleUser
  }

  /** `ParseRefreshToken`: the identity a refresh token names. */
  function ParseRefreshToken(p: Provider, codec: Codec, token: string, now: Instant): (r: Result<Users.User, Error>)
    ensures r.Success? ==>
      && ParseTokenClaims(p, codec, token, now).Success?
      && ValidateRefreshClaims(p, ParseTokenClaims(p, codec, token, now).value) == None
      && r.value.id != "" && r.value.email != "" && r.value.role != ""
      && r.value == Users.EmptyUser.(id := r.value.id, email := r.value.email, role := r.value.role)
    ensures r.Success? ==>
      var c := ParseTokenClaims(p, codec, token, now).value;
      && UserIdFromClaims(c).Success? && r.value.id == UserIdFromClaims(c).value
      && EmailFromClaims(c).Success? && r.value.email == EmailFromClaims(c).value
      && r.value.role == RoleFromClaims(c)
    ensures ParseTokenClaims(p, codec, token, now).Failure? ==> r == Failure(ParseTokenClaims(p, codec, token, now).error)
    ensures ParseTokenClaims(p, codec, token, now).Success? ==>
      var c := ParseTokenClaims(p, codec, token, now).value;
      && (ValidateRefreshClaims(p, c).Some? ==> r == Failure(ValidateRefreshClaims(p, c).value))
      && (ValidateRefreshClaims(p, c) == None && UserIdFromClaims(c).Success? && EmailFromClaims(c).Success? ==> r.Success?)
  {
    var c :- ParseTokenClaims(p, codec, token, now);
    match ValidateRefreshClaims(p, c)
    case Some(err) => Failure(err)
    case None =>
      var id :- UserIdFromClaims(c);
      var email :- EmailFromClaims(c);
      Success(Users.EmptyUser.(id := id, email := email, role := RoleFromClaims(c)))
  }

  /** What the codec promises for one signed claim set: it reads back as signed. */
  predicate ReadsBack(codec: Codec, secret: string, c: Claims) {
    codec.verify(codec.sign(HS256, c, secret), secret) == Some(Decoded(HS256, c))
  }

  /** A token issued at `issued` passes the time checks at any `now` up to its expiry. */
  lemma FreshClaimsAreTimely(p: Provider, u: Users.User, issued: Instant, now: Instant, jti: string, t: TokenType)
    requires issued <= now <= issued + (if t == Access then p.accessTtl else p.refreshTtl)
    ensures TimeValid(TokenClaims(p, u, issued, jti, t), now)
  {
    UnixSecondsMonotone(issued, now);
    UnixSecondsMonotone(now, issued + (if t == Access then p.accessTtl else p.refreshTtl));
  }

  /**
   * Round trip: a refresh token issued for a user with an id and an email,
   * read back before it expires, names that user, with role `user` when
   * the user had none.
   */
  lemma RefreshRoundTrip(p: Provider, codec: Codec, u: Users.User, issued: Instant, now: Instant, draw: Draw)
    requires draw.Read?
    requires ReadsBack(codec, p.secret, TokenClaims(p, u, issued, JtiOf(draw), Refresh))
    requires u.id != "" && u.email != ""
    requires issued <= now <= issued + p.refreshTtl
    ensures GenerateRefreshToken(p, codec, u, issued, draw).Success?
    ensures ParseRefreshToken(p, codec, GenerateRefreshToken(p, codec, u, issued, draw).value, now)
         == Success(Users.EmptyUser.(id := u.id, email := u.email,
                                     role := if u.role == "" then Users.RoleUser else u.role))
  {
    var jti := JtiOf(draw);
    var c := TokenClaims(p, u, issued, jti, Refresh);
    FreshClaimsAreTimely(p, u, issued, now, jti, Refresh);
    assert GenerateRefreshToken(p, codec, u, issued, draw) == Success(codec.sign(HS256, c, p.secret));
    assert ParseTokenClaims(p, codec, codec.sign(HS256, c, p.secret), now) == Success(c);
    RefreshClaimsName(p, u, issued, jti);
  }

  /** The claims of a refresh token pass the refresh checks and name the user they were issued for. */
  lemma RefreshClaimsName(p: Provider, u: Users.User, issued: Instant, jti: string)
    requires jti != "" && u.id != "" && u.email != ""
    ensures var c := TokenClaims(p, u, issued, jti, Refresh);
            && ValidateRefreshClaims(p, c) == None
            && UserIdFromClaims(c) == Success(u.id)
            && EmailFromClaims(c) == Success(u.email)
            && RoleFromClaims(c) == (if u.role == "" then Users.RoleUser else u.role)
  {
    var c := TokenClaims(p, u, issued, jti, Refresh);
    assert c["type"] == Str(TypeRefresh) && c["jti"] == Str(jti);
    assert c["iss"] == Str(p.issuer) && c["aud"] == Str(p.audience);
    assert c["sub"] == Str(u.id) && c["email"] == Str(u.email) && c["role"] == Str(u.role);
  }

  /** An access token, however valid, is never accepted as a refresh token. */
  lemma AccessTokenIsNotRefreshToken(p: Provider, codec: Codec, u: Users.User, issued: Instant, now: Instant, draw: Draw)
    requires draw.Read?
    requires ReadsBack(codec, p.secret, TokenClaims(p, u, issued, JtiOf(draw), Access))
    ensures GenerateAccessToken(p, codec, u, issued, draw).Success?
    ensures ParseRefreshToken(p, codec, GenerateAccessToken(p, codec, u, issued, draw).value, now).Failure?
  {
    var c := TokenClaims(p, u, issued, JtiOf(draw), Access);
    assert GenerateAccessToken(p, codec, u, issued, draw) == Success(codec.sign(HS256, c, p.secret));
    assert ValidateRefreshClaims(p, c) == Some(Plain("invalid token type"));
  }

  /** A token past its expiry is refused as an invalid token, whatever it names. */
  lemma ExpiredTokenIsRefused(p: Provider, codec: Codec, token: string, now: Instant)
    requires codec.verify(token, p.secret).Some?
    requires var c := codec.verify(token, p.secret).value.claims;
             "exp" in c && c["exp"].Num? && c["exp"].n != 0 && c["exp"].n < UnixSeconds(now)
    ensures ParseTokenClaims(p, codec, token, now) == Failure(Plain("invalid token"))
    ensures ParseRefreshToken(p, codec, token, now) == Failure(Plain("invalid token"))
  {
  }
}

=== FILE: movies.dfy ===
/**
 * Movie search: the `GET /movies/search` handler, the pass-through use
 * case and the PostgreSQL repository.
 *
 * The handler trims the query and the `limit` parameter, refuses a blank
 * query or a limit that is not an integer, and defaults the limit to 20;
 * it does not range-check the limit. The repository does: a limit of zero
 * or less becomes 20 and one above 100 becomes 100. The full-text match
 * and the ranking are done by the database; the model is given the
 * matching rows in ranked order.
 */
module Movies {
  import opened Base
  import opened Errs
  import opened Text
  import HttpResponse
  import HttpServer

  const DefaultLimit: int := 20
  const MaxLimit: int := 100
  const StatusOk: int := 200

  /** `movie.ErrInvalidQuery`. */
  const ErrInvalidQuery: Error := Errorf(EInvalid, "invalid search query")
  /** What the handler returns when no movie service is configured. */
  const ErrServiceMissing: Error := Errorf(ENotImplemented, "movie service not configured")

  /** `movie.Movie`. */
  datatype Movie = Movie(movieId: int, title: string, genres: string)

  /** `postgres.MovieModel`: a row of the `movies` table (the search vector is not mapped). */
  datatype MovieModel = MovieModel(id: nat, movieId: int, title: string, genres: string)

  /** `Service.Search` / `Repository.Search`: a query and a limit to movies or an error. */
  type Search = (string, int) -> Result<seq<Movie>, Error>

  /** The query and limit the handler passes on. */
  datatype SearchQuery = SearchQuery(query: string, limit: int)

  function Min(a: int, b: int): int {
    if a <= b then a else b
  }

  // ---------------------------------------------------------------------
  // Repository
  // ---------------------------------------------------------------------

  /** The limit the repository puts in the SQL `LIMIT`. */
  function Clamp(limit: int): (r: int)
    ensures 1 <= r <= MaxLimit
    ensures 1 <= limit <= MaxLimit ==> r == limit
    ensures limit <= 0 ==> r == DefaultLimit
    ensures limit > MaxLimit ==> r == MaxLimit
  {
    if limit <= 0 then DefaultLimit
    else if limit > MaxLimit then MaxLimit
    else limit
  }

  /** Clamping is idempotent: a clamped limit is already in range. */
  lemma ClampIdempotent(limit: int)
    ensures Clamp(Clamp(limit)) == Clamp(limit)
  {
  }

  function ToMovie(m: MovieModel): Movie {
    Movie(m.movieId, m.title, m.genres)
  }

  /**
   * `MovieRepository.Search`. `ranked` are the rows the full-text query
   * selects, in the order of the `ORDER BY`; `fault` is the database
   * error, if any.
   */
  function RepositorySearch(ranked: seq<MovieModel>, limit: int, fault: Option<Error>): (r: Result<seq<Movie>, Error>)
    ensures r.Failure? <==> fault.Some?
    ensures r.Failure? ==> r.error == fault.value
    ensures r.Success? ==> |r.value| == Min(Clamp(limit), |ranked|) && |r.value| <= MaxLimit
    ensures r.Success? ==> forall i :: 0 <= i < |r.value| ==> r.value[i] == ToMovie(ranked[i])
  {
    if fault.Some? then Failure(fault.value)
    else
      var n := Min(Clamp(limit), |ranked|);
      Success(seq(n, i requires 0 <= i < n => ToMovie(ranked[i])))
  }

  /** A larger limit returns more of the same ranking: the smaller result is a prefix of the larger. */
  lemma LargerLimitExtendsResults(ranked: seq<MovieModel>, a: int, b: int)
    requires Clamp(a) <= Clamp(b)
    ensures var ra := RepositorySearch(ranked, a, None).value;
      var rb := RepositorySearch(ranked, b, None).value;
      |ra| <= |rb| && ra == rb[..|ra|]
  {
  }

  /** The movies a successful search returns are distinct when the matched rows have distinct movie ids. */
  lemma DistinctIdsStayDistinct(ranked: seq<MovieModel>, limit: int)
    requires forall i, j :: 0 <= i < j < |ranked| ==> ranked[i].movieId != ranked[j].movieId
    ensures var r := RepositorySearch(ranked, limit, None).value;
      forall i, j :: 0 <= i < j < |r| ==> r[i] != r[j]
  {
    var r := RepositorySearch(ranked, limit, None).value;
    forall i, j | 0 <= i < j < |r|
      ensures r[i] != r[j]
    {
      assert r[i].movieId == ranked[i].movieId && r[j].movieId == ranked[j].movieId;
    }
  }

  /**
   * The mapping loop of `MovieRepository.Search`: one movie per row, in
   * row order, carrying the row's movie id, title and genres.
   */
  method CopyRows(models: seq<MovieModel>) returns (movies: seq<Movie>)
    ensures |movies| == |models|
    ensures forall i :: 0 <= i < |models| ==>
      movies[i].movieId == models[i].movieId && movies[i].title == models[i].title && movies[i].genres == models[i].genres
  {
    movies := [];
    var i := 0;
    while i < |models|
      invariant 0 <= i <= |models| && |movies| == i
      invariant forall k :: 0 <= k < i ==>
        movies[k].movieId == models[k].movieId && movies[k].title == models[k].title && movies[k].genres == models[k].genres
    {
      movies := movies + [Movie(models[i].movieId, models[i].title, models[i].genres)];
      i := i + 1;
    }
  }

  /** The repository as a `Search`, over a fixed set of ranked rows per query. */
  function Repository(rows: string -> seq<MovieModel>, fault: Option<Error>): Search {
    (query: string, limit: int) => RepositorySearch(rows(query), limit, fault)
  }

  // ---------------------------------------------------------------------
  // Use case
  // ---------------------------------------------------------------------

  /** `movie.Usecase.Search`: the repository's answer, unchanged. */
  function Usecase(repository: Search): Search {
    (query: string, limit: int) => repository(query, limit)
  }

  // ---------------------------------------------------------------------
  // Handler
  // ---------------------------------------------------------------------

  /** The checks `handleSearchMovies` makes before it calls the service. */
  function ParseSearch(configured: bool, q: string, limitParam: string): (r: Result<SearchQuery, Error>)
    ensures !configured ==> r == Failure(ErrServiceMissing)
    ensures configured && TrimSpace(q) == "" ==> r == Failure(ErrInvalidQuery)
    ensures r.Failure? ==> r.error in {ErrServiceMissing, ErrInvalidQuery}
    ensures r.Success? ==> configured && r.value.query == TrimSpace(q) && r.value.query != ""
    ensures r.Success? && TrimSpace(limitParam) == "" ==> r.value.limit == DefaultLimit
    ensures r.Success? && TrimSpace(limitParam) != "" ==> Atoi(TrimSpace(limitParam)) == Some(r.value.limit)
    ensures configured && TrimSpace(q) != "" ==>
      (r.Success? <==> TrimSpace(limitParam) == "" || Atoi(TrimSpace(limitParam)).Some?)
  {
    if !configured then Failure(ErrServiceMissing)
    else
      var query := TrimSpace(q);
      if query == "" then Failure(ErrInvalidQuery)
      else
        var raw := TrimSpace(limitParam);
        if raw == "" then Success(SearchQuery(query, DefaultLimit))
        else
          match Atoi(raw)
          case None => Failure(ErrInvalidQuery)
          case Some(parsed) => Success(SearchQuery(query, parsed))
  }

  /** `handleSearchMovies`: the service's movies under `data`, or the error the central handler classifies. */
  function HandleSearch(service: Option<Search>, q: string, limitParam: string)
    : (r: Result<HttpResponse.Reply<map<string, seq<Movie>>>, Error>)
    ensures ParseSearch(service.Some?, q, limitParam).Failure? ==>
      r == Failure(ParseSearch(service.Some?, q, limitParam).error)
    ensures ParseSearch(service.Some?, q, limitParam).Success? ==>
      var p := ParseSearch(service.Some?, q, limitParam).value;
      && (service.value(p.query, p.limit).Failure? ==> r == Failure(service.value(p.query, p.limit).error))
      && (service.value(p.query, p.limit).Success? ==>
            r.Success? && r.value.status == StatusOk
            && r.value.body.result.Some? && "data" in r.value.body.result.value
            && r.value.body.result.value["data"] == service.value(p.query, p.limit).value)
  {
    match ParseSearch(service.Some?, q, limitParam)
    case Failure(e) => Failure(e)
    case Success(p) =>
      match service.value(p.query, p.limit)
      case Failure(e) => Failure(e)
      case Success(movies) => Success(HttpResponse.RespondList(StatusOk, movies))
  }

  /** The handler's own errors reach the client as a 400 or a 501 with their message. */
  lemma HandlerErrorsAreClientErrors()
    ensures HttpServer.Classify(ErrInvalidQuery) == HttpServer.ErrorBody(400, "invalid search query")
    ensures HttpServer.Classify(ErrServiceMissing) == HttpServer.ErrorBody(501, "movie service not configured")
  {
  }

  /** A limit that does not start like an integer is refused before the service is called. */
  lemma NonNumericLimitIsRefused(service: Search, q: string, limitParam: string)
    requires TrimSpace(q) != ""
    requires var raw := TrimSpace(limitParam); raw != "" && !IsAsciiDigit(raw[0]) && raw[0] != '+' && raw[0] != '-'
    ensures HandleSearch(Some(service), q, limitParam) == Failure(ErrInvalidQuery)
    ensures forall other: Search :: HandleSearch(Some(other), q, limitParam) == HandleSearch(Some(service), q, limitParam)
  {
  }

  /** The decimal text of a 64-bit integer is passed on as that integer. */
  lemma DecimalLimitIsParsed(q: string, n: int)
    requires TrimSpace(q) != "" && IsInt64(n)
    ensures ParseSearch(true, q, Itoa(n)) == Success(SearchQuery(TrimSpace(q), n))
  {
    var s := Itoa(n);
    assert !IsSpace(s[0]) && !IsSpace(s[|s| - 1]) by {
      if n < 0 {
        assert s[|s| - 1] == NatToDecimal(-n)[|NatToDecimal(-n)| - 1];
      }
    }
    TrimSpaceNoop(s);
    AtoiItoa(n);
  }

  /** The search the handler, the use case and the repository together run. */
  function Endpoint(rows: string -> seq<MovieModel>, fault: Option<Error>): Search {
    Usecase(Repository(rows, fault))
  }

  lemma EndpointIsRepository(rows: string -> seq<MovieModel>, fault: Option<Error>, query: string, limit: int)
    ensures Endpoint(rows, fault)(query, limit) == RepositorySearch(rows(query), limit, fault)
  {
  }

  /** Without a limit the client gets the first 20 ranked matches (or all of them, if fewer). */
  lemma MissingLimitGivesTwenty(rows: string -> seq<MovieModel>, q: string, limitParam: string)
    requires TrimSpace(q) != "" && TrimSpace(limitParam) == ""
    ensures var r := HandleSearch(Some(Endpoint(rows, None)), q, limitParam);
      && r.Success?
      && |r.value.body.result.value["data"]| == Min(DefaultLimit, |rows(TrimSpace(q))|)
  {
    EndpointIsRepository(rows, None, TrimSpace(q), DefaultLimit);
  }

  /**
   * The handler passes any integer limit on; the repository then puts it
   * in range: more than 100 gives at most 100 movies, and zero or less
   * gives the default 20.
   */
  lemma OutOfRangeLimitIsClamped(rows: string -> seq<MovieModel>, q: string, n: int)
    requires TrimSpace(q) != "" && IsInt64(n)
    requires n <= 0 || n > MaxLimit
    ensures var r := HandleSearch(Some(Endpoint(rows, None)), q, Itoa(n));
      && r.Success?
      && |r.value.body.result.value["data"]| == Min(if n <= 0 then DefaultLimit else MaxLimit, |rows(TrimSpace(q))|)
  {
    DecimalLimitIsParsed(q, n);
    EndpointIsRepository(rows, None, TrimSpace(q), n);
  }

  /** A database error reaches the central handler unchanged. */
  lemma DatabaseErrorPassesThrough(rows: string -> seq<MovieModel>, q: string, limitParam: string, e: Error)
    requires ParseSearch(true, q, limitParam).Success?
    ensures HandleSearch(Some(Endpoint(rows, Some(e))), q, limitParam) == Failure(e)
  {
    var p := ParseSearch(true, q, limitParam).value;
    EndpointIsRepository(rows, Some(e), p.query, p.limit);
  }
}

=== FILE: pgattempts.dfy ===
/**
 * The PostgreSQL login-attempt repository: one row of `login_attempts`
 * per email, with a nullable `jailed_until` column.
 *
 * A zero jail end is stored as NULL and NULL reads back as zero. A
 * `timestamptz` keeps whole microseconds, so a stored instant comes back
 * truncated to the microsecond below it. Each statement either fails with
 * the driver error given as `fault` or takes effect.
 */
module PgAttempts {
  import opened Base
  import opened Errs
  import Auth
  import PgUsers

  datatype AttemptRow = AttemptRow(failedCount: int, jailedUntil: Option<Instant>)

  type AttemptTable = map<string, AttemptRow>

  /** The instant a `timestamptz` column holds for `t`: the whole microsecond at or below it. */
  function Truncate(t: Instant): (s: Instant)
    ensures s <= t < s + Microsecond
    ensures s % Microsecond == 0
  {
    t - t % Microsecond
  }

  /** The row `Save` writes: the count, and the jail end or NULL when it is zero. */
  function ToRow(a: Auth.LoginAttempt): (row: AttemptRow)
    ensures row.failedCount == a.failedCount
    ensures row.jailedUntil.None? <==> IsZero(a.jailedUntil)
    ensures row.jailedUntil.Some? ==> row.jailedUntil.value == Truncate(a.jailedUntil)
  {
    AttemptRow(a.failedCount, if IsZero(a.jailedUntil) then None else Some(Truncate(a.jailedUntil)))
  }

  /** The record `Get` builds from a row: NULL becomes the zero instant. */
  function FromRow(row: AttemptRow): (a: Auth.LoginAttempt)
    ensures a.failedCount == row.failedCount
    ensures row.jailedUntil.None? ==> IsZero(a.jailedUntil)
    ensures row.jailedUntil.Some? ==> a.jailedUntil == row.jailedUntil.value
  {
    Auth.LoginAttempt(row.failedCount, if row.jailedUntil.None? then ZeroTime else row.jailedUntil.value)
  }

  /** What a record is after a trip through the table: its jail end truncated to the microsecond. */
  function Stored(a: Auth.LoginAttempt): Auth.LoginAttempt {
    a.(jailedUntil := Truncate(a.jailedUntil))
  }

  lemma RowRoundTrip(a: Auth.LoginAttempt)
    ensures FromRow(ToRow(a)) == Stored(a)
  {
  }

  /** A record whose jail end is a whole microsecond survives the trip unchanged. */
  lemma WholeMicrosecondsSurvive(a: Auth.LoginAttempt)
    requires a.jailedUntil % Microsecond == 0
    ensures FromRow(ToRow(a)) == a
  {
  }

  /** `Get`: the email's record; a missing row is the zero record; other errors are returned. */
  function Get(t: AttemptTable, email: string, fault: Option<Error>): (r: Result<Auth.LoginAttempt, Error>)
    ensures fault.None? && email !in t ==> r == Success(Auth.ZeroAttempt)
    ensures fault.None? && email in t ==> r == Success(FromRow(t[email]))
    ensures fault.Some? && !Is(fault.value, PgUsers.ErrRecordNotFound) ==> r == Failure(fault.value)
  {
    var err := if fault.Some? then Some(fault.value) else if email !in t then Some(PgUsers.ErrRecordNotFound) else None;
    match err
    case Some(e) => if Is(e, PgUsers.ErrRecordNotFound) then Success(Auth.ZeroAttempt) else Failure(e)
    case None => Success(FromRow(t[email]))
  }

  /** `Save`: an upsert keyed by email. */
  function Save(t: AttemptTable, email: string, a: Auth.LoginAttempt, fault: Option<Error>): (r: (AttemptTable, Option<Error>))
    ensures r.1 == fault
    ensures fault.Some? ==> r.0 == t
    ensures fault.None? ==> r.0 == t[email := ToRow(a)]
  {
    if fault.Some? then (t, fault) else (t[email := ToRow(a)], None)
  }

  /** `Reset`: delete the email's row; deleting nothing is not an error. */
  function Reset(t: AttemptTable, email: string, fault: Option<Error>): (r: (AttemptTable, Option<Error>))
    ensures r.1 == fault
    ensures fault.Some? ==> r.0 == t
    ensures fault.None? ==> r.0 == t - {email}
  {
    if fault.Some? then (t, fault) else (t - {email}, None)
  }

  /** Reading back a saved record gives its count and its jail end, truncated to the microsecond. */
  lemma SaveThenGet(t: AttemptTable, email: string, a: Auth.LoginAttempt)
    ensures Get(Save(t, email, a, None).0, email, None) == Success(Stored(a))
  {
    RowRoundTrip(a);
  }

  /** After a reset the email reads as the zero record. */
  lemma ResetThenGet(t: AttemptTable, email: string)
    ensures Get(Reset(t, email, None).0, email, None) == Success(Auth.ZeroAttempt)
  {
  }

  /** The records the table represents, as the attempt store of the use case sees them. */
  function Records(t: AttemptTable): (m: map<string, Auth.LoginAttempt>)
    ensures m.Keys == t.Keys
  {
    map email | email in t :: FromRow(t[email])
  }

  /**
   * The table implements the use case's attempt store: reading any email
   * agrees with the abstract store, a save stores the truncated record,
   * and a reset removes the email's record.
   */
  lemma ImplementsAttemptStore(t: AttemptTable, email: string, a: Auth.LoginAttempt, other: string)
    ensures var s := Auth.AttemptStore(Records(t), None, None, None);
      Get(t, other, None) == Auth.GetAttempt(s, other)
    ensures Records(Save(t, email, a, None).0) == Records(t)[email := Stored(a)]
    ensures Records(Reset(t, email, None).0) == Records(t) - {email}
  {
    RowRoundTrip(a);
    assert Records(Save(t, email, a, None).0) == Records(t)[email := Stored(a)];
    assert Records(Reset(t, email, None).0) == Records(t) - {email};
  }
}

=== FILE: pgusers.dfy ===
/**
 * The PostgreSQL user repository: the row type of the `users` table, its
 * mapping to and from the domain `User`, and the repository operations
 * over a table held as a sequence of rows.
 *
 * A statement either fails with a driver error, given as a `fault`
 * parameter, or takes effect on the table. What the database itself
 * decides is written out: `gen_random_uuid()` for an empty id (the value
 * drawn is the `freshId` parameter), the column defaults `user` and
 * `active`, `autoCreateTime`/`autoUpdateTime` stamps from the clock
 * reading `now`, and the unique constraints on `id` and `email`.
 */
module PgUsers {
  import opened Base
  import opened Errs
  import opened Text
  import opened Users

  /** `UserModel`: one row of `users`. A NULL timestamp is `None`. */
  datatype UserModel = UserModel(
    id: string,
    name: string,
    email: string,
    phone: string,
    passwordHash: string,
    role: string,
    status: string,
    failedLoginAttempts: int,
    lockUntil: Option<Instant>,
    lockEscalationLevel: int,
    lastFailedLoginAt: Option<Instant>,
    createdAt: Instant,
    updatedAt: Instant)

  type Table = seq<UserModel>

  /** `gorm.ErrRecordNotFound`, returned by `First` when no row matches. */
  const ErrRecordNotFound: Error := Plain("record not found")

  /** SQLSTATE `unique_violation`. */
  const UniqueViolation: string := "23505"

  /** Constraint names PostgreSQL gives the primary key and the unique `email` column. */
  const PrimaryKeyConstraint: string := "users_pkey"
  const EmailConstraint: string := "users_email_key"

  /** Ids and emails are unique: the table's two unique constraints. */
  predicate Consistent(t: Table) {
    forall i, j :: 0 <= i < j < |t| ==> t[i].id != t[j].id && t[i].email != t[j].email
  }

  /** `toDomainUser`. The password itself is never stored, so it comes back empty. */
  function ToDomainUser(m: UserModel): (u: User)
    ensures u.password == ""
    ensures u.id == m.id && u.email == m.email && u.passwordHash == m.passwordHash
  {
    User(m.id, m.name, m.email, m.phone, "", m.passwordHash, m.role, m.status,
         m.failedLoginAttempts, m.lockUntil, m.lockEscalationLevel, m.lastFailedLoginAt,
         m.createdAt, m.updatedAt)
  }

  /** `toModelUser`. The timestamps are left for the database to fill in. */
  function ToModelUser(u: User): (m: UserModel)
    ensures m.createdAt == ZeroTime && m.updatedAt == ZeroTime
    ensures m.id == u.id && m.email == u.email && m.passwordHash == u.passwordHash
  {
    UserModel(u.id, u.name, u.email, u.phone, u.passwordHash, u.role, u.status,
              u.failedLoginAttempts, u.lockUntil, u.lockEscalationLevel, u.lastFailedLoginAt,
              ZeroTime, ZeroTime)
  }

  /** A user survives the trip to a row and back except for its password and its two timestamps. */
  lemma DomainRoundTrip(u: User)
    ensures ToDomainUser(ToModelUser(u)) == u.(password := "", createdAt := ZeroTime, updatedAt := ZeroTime)
  {
  }

  /** A row survives the trip to a user and back except for its two timestamps. */
  lemma ModelRoundTrip(m: UserModel)
    ensures ToModelUser(ToDomainUser(m)) == m.(createdAt := ZeroTime, updatedAt := ZeroTime)
  {
  }

  /** Only the password and the timestamps are lost: users that differ elsewhere give different rows. */
  lemma ToModelUserInjective(u: User, v: User)
    requires ToModelUser(u) == ToModelUser(v)
    ensures u.(password := "", createdAt := ZeroTime, updatedAt := ZeroTime)
         == v.(password := "", createdAt := ZeroTime, updatedAt := ZeroTime)
  {
    DomainRoundTrip(u);
    DomainRoundTrip(v);
  }

  /** The position of the first row satisfying `matches`. */
  function Lookup(t: Table, matches: UserModel -> bool): (r: Option<nat>)
    ensures r.Some? ==> r.value < |t| && matches(t[r.value])
    ensures r.Some? ==> forall j :: 0 <= j < r.value ==> !matches(t[j])
    ensures r.None? <==> forall j :: 0 <= j < |t| ==> !matches(t[j])
    decreases |t|
  {
    if |t| == 0 then None
    else if matches(t[0]) then Some(0)
    else
      match Lookup(t[1..], matches)
      case None =>
        assert forall j :: 1 <= j < |t| ==> t[j] == t[1..][j - 1];
        None
      case Some(k) =>
        assert forall j :: 1 <= j <= k ==> t[j] == t[1..][j - 1];
        Some(k + 1)
  }

  predicate HasId(t: Table, id: string) {
    exists i :: 0 <= i < |t| && t[i].id == id
  }

  predicate HasEmail(t: Table, email: string) {
    exists i :: 0 <= i < |t| && t[i].email == email
  }

  /** `db.Where(column = ?).First(&model)`: the matching row, `ErrRecordNotFound`, or the driver's error. */
  function First(t: Table, matches: UserModel -> bool, fault: Option<Error>): (r: Result<UserModel, Error>)
    ensures fault.Some? ==> r == Failure(fault.value)
    ensures fault.None? && r.Success? ==> r.value in t && matches(r.value)
    ensures fault.None? && r.Failure? ==> r.error == ErrRecordNotFound && forall j :: 0 <= j < |t| ==> !matches(t[j])
  {
    if fault.Some? then Failure(fault.value)
    else
      match Lookup(t, matches)
      case None => Failure(ErrRecordNotFound)
      case Some(i) => Success(t[i])
  }

  /** The error mapping shared by `GetByEmail` and `GetByID`. */
  function NotFoundAsUserNotFound(r: Result<UserModel, Error>): (u: Result<User, Error>)
    ensures r.Success? ==> u == Success(ToDomainUser(r.value))
    ensures r.Failure? && Is(r.error, ErrRecordNotFound) ==> u == Failure(ErrUserNotFound)
    ensures r.Failure? && !Is(r.error, ErrRecordNotFound) ==> u == Failure(r.error)
  {
    match r
    case Success(m) => Success(ToDomainUser(m))
    case Failure(e) => if Is(e, ErrRecordNotFound) then Failure(ErrUserNotFound) else Failure(e)
  }

  /** `GetByEmail`: the user with that email, `ErrUserNotFound`, or the driver's error. */
  function GetByEmail(t: Table, email: string, fault: Option<Error>): (r: Result<User, Error>)
    ensures fault.None? ==> (r.Success? <==> HasEmail(t, email))
    ensures fault.None? && r.Failure? ==> r.error == ErrUserNotFound
    ensures r.Success? ==> r.value.email == email && exists i :: 0 <= i < |t| && r.value == ToDomainUser(t[i])
  {
    NotFoundAsUserNotFound(First(t, (m: UserModel) => m.email == email, fault))
  }

  /** `GetByID`: the user with that id, `ErrUserNotFound`, or the driver's error. */
  function GetById(t: Table, id: string, fault: Option<Error>): (r: Result<User, Error>)
    ensures fault.None? ==> (r.Success? <==> HasId(t, id))
    ensures fault.None? && r.Failure? ==> r.error == ErrUserNotFound
    ensures r.Success? ==> r.value.id == id && exists i :: 0 <= i < |t| && r.value == ToDomainUser(t[i])
  {
    NotFoundAsUserNotFound(First(t, (m: UserModel) => m.id == id, fault))
  }

  /** In a consistent table the user found by email is the one row holding that email. */
  lemma GetByEmailFindsTheRow(t: Table, i: nat)
    requires Consistent(t) && i < |t|
    ensures GetByEmail(t, t[i].email, None) == Success(ToDomainUser(t[i]))
  {
    var r := Lookup(t, (m: UserModel) => m.email == t[i].email);
    assert r.Some?;
  }

  /** `isDuplicateEmailError`: a PostgreSQL unique violation on a constraint whose name mentions email. */
  predicate IsDuplicateEmailError(e: Error) {
    match FindPq(e)
    case None => false
    case Some(p) => p.pqCode == UniqueViolation && Contains(AsciiLower(p.constraint), "email")
  }

  /** Both directions of the rule, with the error found by unwrapping. */
  lemma IsDuplicateEmailErrorExactly(e: Error)
    ensures IsDuplicateEmailError(e) <==>
      (FindPq(e).Some?
       && FindPq(e).value.pqCode == UniqueViolation
       && exists i :: OccursAt(AsciiLower(FindPq(e).value.constraint), "email", i))
  {
  }

  /** The violation the email constraint raises is recognised; one on the primary key is not. */
  lemma DuplicateConstraintsClassified()
    ensures IsDuplicateEmailError(PqError(UniqueViolation, EmailConstraint))
    ensures !IsDuplicateEmailError(PqError(UniqueViolation, PrimaryKeyConstraint))
  {
    var lowered := AsciiLower(EmailConstraint);
    assert OccursAt(lowered, "email", 6);
    var pk := AsciiLower(PrimaryKeyConstraint);
    assert pk == PrimaryKeyConstraint;
    assert forall k :: 0 <= k < |pk| ==> pk[k] != 'm';
    assert forall i :: OccursAt(pk, "email", i) ==> pk[i..i + 5][1] == 'm';
  }

  /** Only PostgreSQL errors can be duplicate-email errors. */
  lemma OtherErrorsAreNotDuplicates(text: string)
    ensures !IsDuplicateEmailError(Plain(text))
  {
  }

  /** The row a GORM `Create` writes: database defaults filled in for empty id, role, status and timestamps. */
  function WithDefaults(m: UserModel, now: Instant, freshId: string): (row: UserModel)
    ensures row.id == (if m.id == "" then freshId else m.id)
    ensures row.role == (if m.role == "" then RoleUser else m.role)
    ensures row.status == (if m.status == "" then StatusActive else m.status)
    ensures row.createdAt == (if m.createdAt == ZeroTime then now else m.createdAt)
    ensures row.updatedAt == (if m.updatedAt == ZeroTime then now else m.updatedAt)
    ensures row.email == m.email && row.passwordHash == m.passwordHash && row.name == m.name
    ensures row.(id := m.id, role := m.role, status := m.status, createdAt := m.createdAt, updatedAt := m.updatedAt) == m
  {
    m.(id := if m.id == "" then freshId else m.id,
       role := if m.role == "" then RoleUser else m.role,
       status := if m.status == "" then StatusActive else m.status,
       createdAt := if m.createdAt == ZeroTime then now else m.createdAt,
       updatedAt := if m.updatedAt == ZeroTime then now else m.updatedAt)
  }

  /** `INSERT` of a row: the driver's error, a unique violation, or the table with the row appended. */
  function Insert(t: Table, m: UserModel, now: Instant, freshId: string, fault: Option<Error>): (r: Result<(Table, UserModel), Error>)
    ensures fault.Some? ==> r == Failure(fault.value)
    ensures r.Success? ==> r.value.0 == t + [r.value.1] && r.value.1 == WithDefaults(m, now, freshId)
    ensures fault.None? ==>
      (r.Success? <==> !HasId(t, WithDefaults(m, now, freshId).id) && !HasEmail(t, m.email))
    ensures fault.None? && r.Failure? ==> r.error.PqError? && r.error.pqCode == UniqueViolation
    ensures fault.None? && !HasId(t, WithDefaults(m, now, freshId).id) && HasEmail(t, m.email) ==>
      r == Failure(PqError(UniqueViolation, EmailConstraint))
    ensures Consistent(t) && r.Success? ==> Consistent(r.value.0)
  {
    var row := WithDefaults(m, now, freshId);
    if fault.Some? then Failure(fault.value)
    else if Lookup(t, (x: UserModel) => x.id == row.id).Some? then Failure(PqError(UniqueViolation, PrimaryKeyConstraint))
    else if Lookup(t, (x: UserModel) => x.email == row.email).Some? then Failure(PqError(UniqueViolation, EmailConstraint))
    else Success((t + [row], row))
  }

  /** The table and the outcome after a repository call. */
  datatype Written<T> = Written(table: Table, result: Result<T, Error>)

  /** `CreateUser`: insert the user's row; a duplicate email becomes `ErrEmailAlreadyExists`. */
  function CreateUser(t: Table, u: User, now: Instant, freshId: string, fault: Option<Error>): (w: Written<()>)
    ensures w.result.Failure? ==> w.table == t
    ensures w.result.Success? ==> w.table == t + [WithDefaults(ToModelUser(u), now, freshId)]
    ensures fault.None? ==>
      (w.result.Success? <==> !HasId(t, WithDefaults(ToModelUser(u), now, freshId).id) && !HasEmail(t, u.email))
    ensures fault.None? && !HasId(t, WithDefaults(ToModelUser(u), now, freshId).id) && HasEmail(t, u.email) ==>
      w.result == Failure(ErrEmailAlreadyExists)
    ensures Consistent(t) ==> Consistent(w.table)
  {
    DuplicateConstraintsClassified();
    match Insert(t, ToModelUser(u), now, freshId, fault)
    case Failure(e) => Written(t, Failure(if IsDuplicateEmailError(e) then ErrEmailAlreadyExists else e))
    case Success((t', _)) => Written(t', Success(()))
  }

  /** A created user is then found by its email, with the stored fields and the database's defaults. */
  lemma CreateThenGetByEmail(t: Table, u: User, now: Instant, freshId: string)
    requires Consistent(t)
    requires CreateUser(t, u, now, freshId, None).result.Success?
    ensures var stored := ToDomainUser(WithDefaults(ToModelUser(u), now, freshId));
      && GetByEmail(CreateUser(t, u, now, freshId, None).table, u.email, None) == Success(stored)
      && stored == u.(id := stored.id, password := "", role := stored.role, status := stored.status,
                      createdAt := now, updatedAt := now)
  {
    var t' := CreateUser(t, u, now, freshId, None).table;
    GetByEmailFindsTheRow(t', |t|);
  }

  /** The outcome of `CreateUserTx`: the table after commit or rollback, the created user, the error. */
  datatype TxOutcome = TxOutcome(table: Table, created: User, err: Option<Error>)

  /**
   * `CreateUserTx`: inside one transaction insert the user, then run the
   * callback (if any) on the created user. Any error rolls the insert
   * back. The created user is returned even when the callback fails; when
   * the insert fails it is the empty user. `commitFault` is the error, if
   * any, of the final `COMMIT`.
   */
  function CreateUserTx(t: Table, u: User, now: Instant, freshId: string, fault: Option<Error>,
                        callback: Option<User -> Option<Error>>, commitFault: Option<Error>): (r: TxOutcome)
    ensures r.err.Some? ==> r.table == t
    ensures r.err.None? ==> |r.table| == |t| + 1 && r.table[..|t|] == t && ToDomainUser(r.table[|t|]) == r.created
    ensures Consistent(t) ==> Consistent(r.table)
    ensures (match Insert(t, ToModelUser(u), now, freshId, fault)
             case Failure(_) => r.created == EmptyUser && r.err.Some?
             case Success((_, row)) =>
               && r.created == ToDomainUser(row)
               && (callback.Some? && callback.value(r.created).Some? ==> r.err == callback.value(r.created)))
  {
    match Insert(t, ToModelUser(u), now, freshId, fault)
    case Failure(e) =>
      TxOutcome(t, EmptyUser, Some(if IsDuplicateEmailError(e) then ErrEmailAlreadyExists else e))
    case Success((t', row)) =>
      var created := ToDomainUser(row);
      var callbackErr := if callback.Some? then callback.value(created) else None;
      if callbackErr.Some? then TxOutcome(t, created, callbackErr)
      else if commitFault.Some? then TxOutcome(t, created, commitFault)
      else
        assert t'[..|t|] == t;
        TxOutcome(t', created, None)
  }

  /** Without a callback and with a successful commit, the transaction does what `CreateUser` does. */
  lemma CreateUserTxWithoutCallback(t: Table, u: User, now: Instant, freshId: string, fault: Option<Error>)
    ensures var r := CreateUserTx(t, u, now, freshId, fault, None, None);
      var w := CreateUser(t, u, now, freshId, fault);
      && r.table == w.table
      && (r.err.None? <==> w.result.Success?)
      && (w.result.Failure? ==> r.err == Some(w.result.error))
  {
  }

  /** A failing callback leaves no trace in the table, whatever the insert did. */
  lemma CallbackFailureRollsBack(t: Table, u: User, now: Instant, freshId: string, fault: Option<Error>,
                                 callback: User -> Option<Error>, commitFault: Option<Error>)
    requires forall v :: callback(v).Some?
    ensures CreateUserTx(t, u, now, freshId, fault, Some(callback), commitFault).table == t
    ensures CreateUserTx(t, u, now, freshId, fault, Some(callback), commitFault).err.Some?
  {
  }

  /** `AllUsers`: every row as a user, in table order, or the driver's error. */
  function AllUsers(t: Table, fault: Option<Error>): (r: Result<seq<User>, Error>)
    ensures fault.Some? ==> r == Failure(fault.value)
    ensures fault.None? ==> r.Success? && |r.value| == |t|
    ensures r.Success? ==> forall i :: 0 <= i < |t| ==> r.value[i] == ToDomainUser(t[i])
  {
    if fault.Some? then Failure(fault.value)
    else Success(seq(|t|, i requires 0 <= i < |t| => ToDomainUser(t[i])))
  }

  /** `AllUsers` after a creation lists the earlier users and then the new one. */
  lemma AllUsersAfterCreate(t: Table, u: User, now: Instant, freshId: string)
    requires CreateUser(t, u, now, freshId, None).result.Success?
    ensures var all := AllUsers(CreateUser(t, u, now, freshId, None).table, None).value;
      && all[..|t|] == AllUsers(t, None).value
      && all[|t|] == ToDomainUser(WithDefaults(ToModelUser(u), now, freshId))
  {
  }

  /** `UPDATE users SET … WHERE id = ?`: the changed table and the number of rows affected. */
  function UpdateWhereId(t: Table, id: string, change: UserModel -> UserModel): (r: (Table, nat))
    ensures |r.0| == |t|
    ensures forall i :: 0 <= i < |t| ==> r.0[i] == (if t[i].id == id then change(t[i]) else t[i])
    ensures r.1 == 0 <==> !HasId(t, id)
    decreases |t|
  {
    if |t| == 0 then ([], 0)
    else
      var (rest, n) := UpdateWhereId(t[1..], id, change);
      assert !HasId(t[1..], id) <==> forall i :: 1 <= i < |t| ==> t[i].id != id by {
        assert forall i :: 1 <= i < |t| ==> t[i] == t[1..][i - 1];
      }
      if t[0].id == id then ([change(t[0])] + rest, n + 1)
      else ([t[0]] + rest, n)
  }

  /** An update that leaves ids and emails alone keeps the table consistent. */
  lemma UpdateKeepsConsistent(t: Table, id: string, change: UserModel -> UserModel)
    requires forall m :: change(m).id == m.id && change(m).email == m.email
    ensures Consistent(t) ==> Consistent(UpdateWhereId(t, id, change).0)
  {
  }

  /** `UpdateProfile`: set name, phone and `updated_at`, then read the user back. */
  function UpdateProfile(t: Table, id: string, name: string, phone: string, now: Instant,
                         fault: Option<Error>, readFault: Option<Error>): (w: Written<User>)
    ensures fault.Some? ==> w == Written(t, Failure(fault.value))
    ensures fault.None? && !HasId(t, id) ==> w == Written(t, Failure(ErrUserNotFound))
    ensures fault.None? && HasId(t, id) ==> |w.table| == |t| && HasId(w.table, id)
    ensures forall i :: 0 <= i < |t| && t[i].id != id ==> i < |w.table| && w.table[i] == t[i]
    ensures fault.None? ==>
      && |w.table| == |t|
      && forall i :: 0 <= i < |t| ==>
           w.table[i] == (if t[i].id == id then t[i].(name := name, phone := phone, updatedAt := now) else t[i])
    ensures w.result.Success? ==>
      && w.result.value.id == id && w.result.value.name == name && w.result.value.phone == phone
      && w.result.value.updatedAt == now
    ensures fault.None? && HasId(t, id) ==> w.result == GetById(w.table, id, readFault)
    ensures Consistent(t) && w.result.Success? ==>
      exists i :: 0 <= i < |t| && t[i].id == id
        && w.result.value == ToDomainUser(t[i].(name := name, phone := phone, updatedAt := now))
    ensures Consistent(t) ==> Consistent(w.table)
  {
    if fault.Some? then Written(t, Failure(fault.value))
    else
      var (t', affected) := UpdateWhereId(t, id, (m: UserModel) => m.(name := name, phone := phone, updatedAt := now));
      if affected == 0 then Written(t, Failure(ErrUserNotFound))
      else
        UpdateKeepsConsistent(t, id, (m: UserModel) => m.(name := name, phone := phone, updatedAt := now));
        UpdatedRowReadsBack(t, id, (m: UserModel) => m.(name := name, phone := phone, updatedAt := now));
        var i :| 0 <= i < |t| && t[i].id == id;
        assert t'[i].id == id;
        Written(t', GetById(t', id, readFault))
  }

  /** `UpdatePasswordHash`: set `password_hash` and `updated_at` on the row with that id. */
  function UpdatePasswordHash(t: Table, id: string, passwordHash: string, now: Instant, fault: Option<Error>): (w: Written<()>)
    ensures fault.Some? ==> w == Written(t, Failure(fault.value))
    ensures fault.None? ==> (w.result.Success? <==> HasId(t, id))
    ensures w.result.Failure? && fault.None? ==> w.result.error == ErrUserNotFound
    ensures w.result.Failure? ==> w.table == t
    ensures w.result.Success? ==> GetById(w.table, id, None).Success?
    ensures Consistent(t) && w.result.Success? ==>
      GetById(w.table, id, None).value.passwordHash == passwordHash
    ensures fault.None? ==>
      && |w.table| == |t|
      && forall i :: 0 <= i < |t| ==>
           w.table[i] == (if t[i].id == id then t[i].(passwordHash := passwordHash, updatedAt := now) else t[i])
    ensures Consistent(t) ==> Consistent(w.table)
  {
    if fault.Some? then Written(t, Failure(fault.value))
    else
      var change := (m: UserModel) => m.(passwordHash := passwordHash, updatedAt := now);
      var (t', affected) := UpdateWhereId(t, id, change);
      if affected == 0 then Written(t, Failure(ErrUserNotFound))
      else
        UpdateKeepsConsistent(t, id, change);
        UpdatedRowReadsBack(t, id, change);
        Written(t', Success(()))
  }

  /** `UpdateStatus`: set `status` and `updated_at` on the row with that id. */
  function UpdateStatus(t: Table, id: string, status: string, now: Instant, fault: Option<Error>): (w: Written<()>)
    ensures fault.Some? ==> w == Written(t, Failure(fault.value))
    ensures fault.None? ==> (w.result.Success? <==> HasId(t, id))
    ensures w.result.Failure? && fault.None? ==> w.result.error == ErrUserNotFound
    ensures w.result.Failure? ==> w.table == t
    ensures w.result.Success? ==> GetById(w.table, id, None).Success?
    ensures Consistent(t) && w.result.Success? ==> GetById(w.table, id, None).value.status == status
    ensures fault.None? ==>
      && |w.table| == |t|
      && forall i :: 0 <= i < |t| ==>
           w.table[i] == (if t[i].id == id then t[i].(status := status, updatedAt := now) else t[i])
    ensures Consistent(t) ==> Consistent(w.table)
  {
    if fault.Some? then Written(t, Failure(fault.value))
    else
      var change := (m: UserModel) => m.(status := status, updatedAt := now);
      var (t', affected) := UpdateWhereId(t, id, change);
      if affected == 0 then Written(t, Failure(ErrUserNotFound))
      else
        UpdateKeepsConsistent(t, id, change);
        UpdatedRowReadsBack(t, id, change);
        Written(t', Success(()))
  }

  /** After an update by id in a consistent table, reading that id gives the changed row. */
  lemma UpdatedRowReadsBack(t: Table, id: string, change: UserModel -> UserModel)
    requires HasId(t, id)
    requires forall m :: change(m).id == m.id && change(m).email == m.email
    ensures var t' := UpdateWhereId(t, id, change).0;
      && GetById(t', id, None).Success?
      && (Consistent(t) ==> exists i :: 0 <= i < |t| && t[i].id == id && GetById(t', id, None).value == ToDomainUser(change(t[i])))
  {
    var t' := UpdateWhereId(t, id, change).0;
    var i :| 0 <= i < |t| && t[i].id == id;
    assert t'[i].id == id;
    if Consistent(t) {
      UpdateKeepsConsistent(t, id, change);
      var k := Lookup(t', (m: UserModel) => m.id == id);
      assert k.Some?;
    }
  }
}

=== FILE: random.dfy ===
/**
 * Random identifiers: `crypto/rand` bytes rendered with unpadded URL-safe
 * base64 (`base64.RawURLEncoding`, section 5 of RFC 4648).
 *
 * The operating system's randomness source is a parameter (`Draw`): it
 * either fails or yields a stream of bytes. The encoder is written out in
 * full, together with a decoder used as its reference: decoding what was
 * encoded gives back the bytes, so distinct draws give distinct tokens.
 */
module Random {
  import opened Base
  import opened Errs

  newtype byte = x: int | 0 <= x < 256

  /** One call of `rand.Read(buf)`: either an error or a byte stream filling the buffer. */
  datatype Draw = ReadFailed(err: Error) | Read(byteAt: nat -> byte)

  /** The first `n` bytes a successful draw yields. */
  function Bytes(byteAt: nat -> byte, n: nat): (b: seq<byte>)
    ensures |b| == n
  {
    seq(n, i requires 0 <= i => byteAt(i))
  }

  /** The URL-safe alphabet: `A`-`Z`, `a`-`z`, `0`-`9`, `-`, `_`. */
  function Letter(v: int): (c: char)
    requires 0 <= v < 64
  {
    if v < 26 then ('A' as int + v) as char
    else if v < 52 then ('a' as int + v - 26) as char
    else if v < 62 then ('0' as int + v - 52) as char
    else if v == 62 then '-'
    else '_'
  }

  /** The position of `c` in the alphabet, if it is one of its letters. */
  function Sextet(c: char): (v: Option<int>)
    ensures v.Some? ==> 0 <= v.value < 64 && Letter(v.value) == c
  {
    if 'A' <= c <= 'Z' then Some(c as int - 'A' as int)
    else if 'a' <= c <= 'z' then Some(c as int - 'a' as int + 26)
    else if '0' <= c <= '9' then Some(c as int - '0' as int + 52)
    else if c == '-' then Some(62)
    else if c == '_' then Some(63)
    else None
  }

  lemma SextetOfLetter(v: int)
    requires 0 <= v < 64
    ensures Sextet(Letter(v)) == Some(v)
  {
  }

  predicate IsLetter(c: char) {
    Sextet(c).Some?
  }

  /** Length of the unpadded encoding of `n` bytes: ceil(8n / 6). */
  function EncodedLength(n: nat): nat {
    (8 * n + 5) / 6
  }

  /*
   * Three bytes b0 b1 b2 carry 24 bits, read as four 6-bit letters:
   * the top six bits of b0; the low two bits of b0 and the top four of
   * b1; the low four bits of b1 and the top two of b2; the low six of b2.
   * A missing byte counts as zero.
   */
  function Sextet0(b0: byte): (v: int)
    ensures 0 <= v < 64
  {
    b0 as int / 4
  }

  function Sextet1(b0: byte, b1: byte): (v: int)
    ensures 0 <= v < 64
  {
    b0 as int % 4 * 16 + b1 as int / 16
  }

  function Sextet2(b1: byte, b2: byte): (v: int)
    ensures 0 <= v < 64
  {
    b1 as int % 16 * 4 + b2 as int / 64
  }

  function Sextet3(b2: byte): (v: int)
    ensures 0 <= v < 64
  {
    b2 as int % 64
  }

  /** The bytes back from letters' values, the inverse arrangement. */
  function Byte0(c0: int, c1: int): byte
    requires 0 <= c0 < 64 && 0 <= c1 < 64
  {
    (c0 * 4 + c1 / 16) as byte
  }

  function Byte1(c1: int, c2: int): byte
    requires 0 <= c1 < 64 && 0 <= c2 < 64
  {
    (c1 % 16 * 16 + c2 / 4) as byte
  }

  function Byte2(c2: int, c3: int): byte
    requires 0 <= c2 < 64 && 0 <= c3 < 64
  {
    (c2 % 4 * 64 + c3) as byte
  }

  lemma RegroupBytes(b0: byte, b1: byte, b2: byte)
    ensures Byte0(Sextet0(b0), Sextet1(b0, b1)) == b0
    ensures Byte1(Sextet1(b0, b1), Sextet2(b1, b2)) == b1
    ensures Byte2(Sextet2(b1, b2), Sextet3(b2)) == b2
  {
  }

  /** Unpadded URL-safe base64 of `b`. */
  function Encode(b: seq<byte>): (s: string)
    ensures |s| == EncodedLength(|b|)
    ensures s == [] <==> b == []
    decreases |b|
  {
    if |b| == 0 then ""
    else if |b| == 1 then Letters([Sextet0(b[0]), Sextet1(b[0], 0)])
    else if |b| == 2 then Letters([Sextet0(b[0]), Sextet1(b[0], b[1]), Sextet2(b[1], 0)])
    else Letters([Sextet0(b[0]), Sextet1(b[0], b[1]), Sextet2(b[1], b[2]), Sextet3(b[2])]) + Encode(b[3..])
  }

  /** Every character of an encoding is one of the 64 URL-safe letters. */
  lemma {:induction false} EncodeUsesAlphabet(b: seq<byte>)
    ensures forall i :: 0 <= i < |Encode(b)| ==> IsLetter(Encode(b)[i])
    decreases |b|
  {
    if |b| == 1 {
      LettersAreLetters([Sextet0(b[0]), Sextet1(b[0], 0)]);
    } else if |b| == 2 {
      LettersAreLetters([Sextet0(b[0]), Sextet1(b[0], b[1]), Sextet2(b[1], 0)]);
    } else if |b| >= 3 {
      var vs := [Sextet0(b[0]), Sextet1(b[0], b[1]), Sextet2(b[1], b[2]), Sextet3(b[2])];
      LettersAreLetters(vs);
      EncodeUsesAlphabet(b[3..]);
      var s := Encode(b);
      assert forall i :: 4 <= i < |s| ==> s[i] == Encode(b[3..])[i - 4];
    }
  }

  /** The letters for a run of 6-bit values. */
  function Letters(vs: seq<int>): (s: string)
    requires forall i :: 0 <= i < |vs| ==> 0 <= vs[i] < 64
    ensures |s| == |vs|
  {
    seq(|vs|, i requires 0 <= i < |vs| => Letter(vs[i]))
  }

  lemma LettersAreLetters(vs: seq<int>)
    requires forall i :: 0 <= i < |vs| ==> 0 <= vs[i] < 64
    ensures forall i :: 0 <= i < |vs| ==> Sextet(Letters(vs)[i]) == Some(vs[i])
    ensures forall i :: 0 <= i < |vs| ==> IsLetter(Letters(vs)[i])
  {
    forall i | 0 <= i < |vs|
      ensures Sextet(Letters(vs)[i]) == Some(vs[i])
    {
      SextetOfLetter(vs[i]);
    }
  }

  /** Reference decoder: the inverse of `Encode`, failing on letters outside the alphabet or a dangling letter. */
  function Decode(s: string): (r: Option<seq<byte>>)
    decreases |s|
  {
    if |s| == 0 then Some([])
    else if |s| == 1 then None
    else if Sextet(s[0]).None? || Sextet(s[1]).None? then None
    else
      var c0 := Sextet(s[0]).value;
      var c1 := Sextet(s[1]).value;
      if |s| == 2 then Some([Byte0(c0, c1)])
      else if Sextet(s[2]).None? then None
      else
        var c2 := Sextet(s[2]).value;
        if |s| == 3 then Some([Byte0(c0, c1), Byte1(c1, c2)])
        else if Sextet(s[3]).None? then None
        else
          var c3 := Sextet(s[3]).value;
          match Decode(s[4..])
          case None => None
          case Some(rest) => Some([Byte0(c0, c1), Byte1(c1, c2), Byte2(c2, c3)] + rest)
  }

  /** Decoding an encoding gives back the bytes: the encoding loses nothing. */
  lemma {:induction false} DecodeEncode(b: seq<byte>)
    ensures Decode(Encode(b)) == Some(b)
    decreases |b|
  {
    if |b| < 3 {
      DecodeEncodeTail(b);
    } else {
      DecodeEncode(b[3..]);
      DecodeEncodeStep(b);
    }
  }

  /** One full group in front of a tail that round-trips. */
  lemma DecodeEncodeStep(b: seq<byte>)
    requires |b| >= 3 && Decode(Encode(b[3..])) == Some(b[3..])
    ensures Decode(Encode(b)) == Some(b)
  {
    EncodeGroup(b);
    DecodeGroup(b[0], b[1], b[2], Encode(b[3..]));
    RegroupSeq(b);
  }

  lemma RegroupSeq(b: seq<byte>)
    requires |b| >= 3
    ensures b == [b[0], b[1], b[2]] + b[3..]
  {
  }

  lemma EncodeGroup(b: seq<byte>)
    requires |b| >= 3
    ensures Encode(b) == Letters([Sextet0(b[0]), Sextet1(b[0], b[1]), Sextet2(b[1], b[2]), Sextet3(b[2])]) + Encode(b[3..])
  {
  }

  /** The round trip for the last, incomplete group. */
  lemma DecodeEncodeTail(b: seq<byte>)
    requires |b| < 3
    ensures Decode(Encode(b)) == Some(b)
  {
    if |b| == 1 {
      DecodeEncodeSingle(b);
    } else if |b| == 2 {
      DecodeEncodePair(b);
    }
  }

  lemma DecodeEncodeSingle(b: seq<byte>)
    requires |b| == 1
    ensures Decode(Encode(b)) == Some(b)
  {
    assert Encode(b) == Letters([Sextet0(b[0]), Sextet1(b[0], 0)]);
    assert b == [b[0]];
    DecodeOneByte(b[0]);
  }

  lemma DecodeEncodePair(b: seq<byte>)
    requires |b| == 2
    ensures Decode(Encode(b)) == Some(b)
  {
    assert Encode(b) == Letters([Sextet0(b[0]), Sextet1(b[0], b[1]), Sextet2(b[1], 0)]);
    assert b == [b[0], b[1]];
    DecodeTwoBytes(b[0], b[1]);
  }

  lemma DecodeOneByte(b0: byte)
    ensures Decode(Letters([Sextet0(b0), Sextet1(b0, 0)])) == Some([b0])
  {
    var vs := [Sextet0(b0), Sextet1(b0, 0)];
    assert Byte0(vs[0], vs[1]) == b0;
    LettersAreLetters(vs);
  }

  lemma DecodeTwoBytes(b0: byte, b1: byte)
    ensures Decode(Letters([Sextet0(b0), Sextet1(b0, b1), Sextet2(b1, 0)])) == Some([b0, b1])
  {
    RegroupBytes(b0, b1, 0);
    LettersAreLetters([Sextet0(b0), Sextet1(b0, b1), Sextet2(b1, 0)]);
  }

  lemma DecodeGroup(b0: byte, b1: byte, b2: byte, rest: string)
    ensures var s := Letters([Sextet0(b0), Sextet1(b0, b1), Sextet2(b1, b2), Sextet3(b2)]) + rest;
      Decode(s) == if Decode(rest).None? then None else Some([b0, b1, b2] + Decode(rest).value)
  {
    var vs := [Sextet0(b0), Sextet1(b0, b1), Sextet2(b1, b2), Sextet3(b2)];
    var s := Letters(vs) + rest;
    RegroupBytes(b0, b1, b2);
    LettersAreLetters(vs);
    assert s[4..] == rest;
  }

  /** Different byte strings never encode to the same token. */
  lemma EncodeInjective(a: seq<byte>, b: seq<byte>)
    requires Encode(a) == Encode(b)
    ensures a == b
  {
    DecodeEncode(a);
    DecodeEncode(b);
  }

  /**
   * The shape shared by `generateJTI`, `generateRandomPassword`,
   * `generateRandomName` and `generateOAuthState`: a non-positive length
   * is refused with `guard`, a failed read is passed on, and otherwise
   * `prefix` is followed by the encoding of `length` fresh bytes.
   */
  function RandomToken(prefix: string, length: int, draw: Draw, guard: string): (r: Result<string, Error>)
    ensures length <= 0 ==> r == Failure(Plain(guard))
    ensures length > 0 && draw.ReadFailed? ==> r == Failure(draw.err)
    ensures length > 0 && draw.Read? ==> r.Success?
    ensures r.Success? ==>
      && length > 0 && draw.Read?
      && |r.value| == |prefix| + EncodedLength(length)
      && r.value[..|prefix|] == prefix
      && Decode(r.value[|prefix|..]) == Some(Bytes(draw.byteAt, length))
  {
    if length <= 0 then Failure(Plain(guard))
    else
      match draw
      case ReadFailed(err) => Failure(err)
      case Read(byteAt) =>
        var s := Encode(Bytes(byteAt, length));
        DecodeEncode(Bytes(byteAt, length));
        assert (prefix + s)[|prefix|..] == s;
        Success(prefix + s)
  }
}

=== FILE: text.dfy ===
/**
 * The string functions of Go's standard library that the modelled code
 * relies on: `strings.TrimSpace`, `strings.Contains`, `strings.ToLower`
 * (on ASCII letters), `strings.Join`, `len` in bytes, and the decimal
 * conversions `strconv.Itoa` / `strconv.Atoi`.
 *
 * Strings are sequences of Unicode scalar values; a Go string holding
 * invalid UTF-8 is not representable.
 */
module Text {
  import opened Base

  /** `unicode.IsSpace`: the Unicode White_Space property. */
  predicate IsSpace(c: char) {
    || c == '\t' || c == '\n' || c == '\U{000B}' || c == '\U{000C}' || c == '\r' || c == ' '
    || c == '\U{0085}' || c == '\U{00A0}' || c == '\U{1680}'
    || ('\U{2000}' <= c <= '\U{200A}')
    || c == '\U{2028}' || c == '\U{2029}' || c == '\U{202F}' || c == '\U{205F}' || c == '\U{3000}'
  }

  /** Whitespace as JSON's grammar defines it (section 2 of RFC 8259). */
  predicate IsJsonSpace(c: char) {
    c == ' ' || c == '\t' || c == '\n' || c == '\r'
  }

  predicate IsAsciiDigit(c: char) {
    '0' <= c <= '9'
  }

  predicate IsAsciiUpper(c: char) {
    'A' <= c <= 'Z'
  }

  predicate IsAsciiLower(c: char) {
    'a' <= c <= 'z'
  }

  predicate AllAsciiDigits(s: string) {
    forall i :: 0 <= i < |s| ==> IsAsciiDigit(s[i])
  }

  /** Every character of `s` satisfies `p`. */
  predicate All(s: string, p: char -> bool) {
    forall i :: 0 <= i < |s| ==> p(s[i])
  }

  /** `sub` occurs in `s` starting at offset `i`. */
  predicate OccursAt(s: string, sub: string, i: int) {
    0 <= i <= |s| - |sub| && s[i..i + |sub|] == sub
  }

  /** Drops leading characters satisfying `drop`. */
  function TrimLeftBy(s: string, drop: char -> bool): (r: string)
    ensures |r| <= |s|
    ensures r == [] || (!drop(r[0]) && r[|r| - 1] == s[|s| - 1])
    ensures r == [] <==> All(s, drop)
    decreases |s|
  {
    if |s| > 0 && drop(s[0]) then
      assert All(s, drop) <==> All(s[1..], drop) by {
        if All(s[1..], drop) {
          forall i | 0 <= i < |s| ensures drop(s[i]) {
            if i > 0 { assert s[i] == s[1..][i - 1]; }
          }
        }
      }
      TrimLeftBy(s[1..], drop)
    else
      s
  }

  /** Drops trailing characters satisfying `drop`. */
  function TrimRightBy(s: string, drop: char -> bool): (r: string)
    ensures |r| <= |s|
    ensures r == [] || (!drop(r[|r| - 1]) && r[0] == s[0])
    ensures r == [] <==> All(s, drop)
    decreases |s|
  {
    if |s| > 0 && drop(s[|s| - 1]) then
      var init := s[..|s| - 1];
      assert All(s, drop) <==> All(init, drop) by {
        if All(init, drop) {
          forall i | 0 <= i < |s| ensures drop(s[i]) {
            if i < |s| - 1 { assert s[i] == init[i]; }
          }
        }
      }
      TrimRightBy(init, drop)
    else
      s
  }

  /** What `TrimLeftBy` keeps is a suffix of its argument. */
  lemma {:induction false} TrimLeftByIsSuffix(s: string, drop: char -> bool)
    ensures TrimLeftBy(s, drop) == s[|s| - |TrimLeftBy(s, drop)|..]
    decreases |s|
  {
    if |s| > 0 && drop(s[0]) {
      TrimLeftByIsSuffix(s[1..], drop);
    }
  }

  /** What `TrimRightBy` keeps is a prefix of its argument. */
  lemma {:induction false} TrimRightByIsPrefix(s: string, drop: char -> bool)
    ensures TrimRightBy(s, drop) == s[..|TrimRightBy(s, drop)|]
    decreases |s|
  {
    if |s| > 0 && drop(s[|s| - 1]) {
      TrimRightByIsPrefix(s[..|s| - 1], drop);
    }
  }

  /**
   * `strings.TrimSpace`: the slice of `s` left after removing leading and
   * trailing white space. The result neither starts nor ends with white
   * space, and it is empty exactly when `s` is all white space.
   */
  function TrimSpace(s: string): (r: string)
    ensures r == [] || (!IsSpace(r[0]) && !IsSpace(r[|r| - 1]))
    ensures r == [] <==> All(s, IsSpace)
  {
    var left := TrimLeftBy(s, IsSpace);
    var r := TrimRightBy(left, IsSpace);
    assert r == [] ==> left == [] by {
      if left != [] {
        assert !IsSpace(left[0]);
      }
    }
    r
  }

  /** What `TrimSpace` keeps is a contiguous piece of its argument. */
  lemma TrimSpaceIsSlice(s: string)
    ensures OccursAt(s, TrimSpace(s), |s| - |TrimLeftBy(s, IsSpace)|)
  {
    var left := TrimLeftBy(s, IsSpace);
    var r := TrimRightBy(left, IsSpace);
    TrimLeftByIsSuffix(s, IsSpace);
    TrimRightByIsPrefix(left, IsSpace);
    assert s[|s| - |left|..][..|r|] == s[|s| - |left|..|s| - |left| + |r|];
  }

  /** Trimming JSON white space, as `encoding/json` skips it around a value. */
  function TrimJsonSpace(s: string): (r: string)
    ensures r == [] || (!IsJsonSpace(r[0]) && !IsJsonSpace(r[|r| - 1]))
  {
    TrimRightBy(TrimLeftBy(s, IsJsonSpace), IsJsonSpace)
  }

  lemma TrimSpaceNoop(s: string)
    requires s == [] || (!IsSpace(s[0]) && !IsSpace(s[|s| - 1]))
    ensures TrimSpace(s) == s
  {
  }

  lemma TrimJsonSpaceNoop(s: string)
    requires s == [] || (!IsJsonSpace(s[0]) && !IsJsonSpace(s[|s| - 1]))
    ensures TrimJsonSpace(s) == s
  {
  }

  /**
   * JSON white space is white space, so where what remains after trimming
   * JSON white space neither starts nor ends with other white space, both
   * trims agree.
   */
  lemma {:induction false} TrimSpaceOfJsonPadded(s: string)
    requires var t := TrimJsonSpace(s); t == [] || (!IsSpace(t[0]) && !IsSpace(t[|t| - 1]))
    ensures TrimSpace(s) == TrimJsonSpace(s)
  {
    var left := TrimLeftBy(s, IsJsonSpace);
    var t := TrimRightBy(left, IsJsonSpace);
    assert t == TrimJsonSpace(s);
    JsonTrimmedStart(left);
    assert left == [] || !IsSpace(left[0]);
    TrimLeftSameWhenJsonPadded(s);
    TrimRightSameWhenJsonPadded(left);
    assert TrimSpace(s) == TrimRightBy(TrimLeftBy(s, IsSpace), IsSpace);
  }

  /** Trimming JSON white space on the right keeps the first character, if anything is kept. */
  lemma JsonTrimmedStart(left: string)
    requires left == [] || !IsJsonSpace(left[0])
    ensures var t := TrimRightBy(left, IsJsonSpace); left == [] || (t != [] && t[0] == left[0])
  {
  }

  lemma {:induction false} TrimLeftSameWhenJsonPadded(s: string)
    requires var l := TrimLeftBy(s, IsJsonSpace); l == [] || !IsSpace(l[0])
    ensures TrimLeftBy(s, IsSpace) == TrimLeftBy(s, IsJsonSpace)
    decreases |s|
  {
    if |s| > 0 && IsJsonSpace(s[0]) {
      TrimLeftSameWhenJsonPadded(s[1..]);
    }
  }

  lemma {:induction false} TrimRightSameWhenJsonPadded(s: string)
    requires var r := TrimRightBy(s, IsJsonSpace); r == [] || !IsSpace(r[|r| - 1])
    ensures TrimRightBy(s, IsSpace) == TrimRightBy(s, IsJsonSpace)
    decreases |s|
  {
    if |s| > 0 && IsJsonSpace(s[|s| - 1]) {
      TrimRightSameWhenJsonPadded(s[..|s| - 1]);
    }
  }

  /** Leading white space makes no difference to `TrimSpace`. */
  lemma TrimSpaceLeadingSpace(c: char, s: string)
    requires IsSpace(c)
    ensures TrimSpace([c] + s) == TrimSpace(s)
  {
    assert ([c] + s)[1..] == s;
  }

  lemma TrimSpaceIdempotent(s: string)
    ensures TrimSpace(TrimSpace(s)) == TrimSpace(s)
  {
    TrimSpaceNoop(TrimSpace(s));
  }

  /** Number of bytes in the UTF-8 encoding of one scalar value. */
  function Utf8Width(c: char): (w: nat)
    ensures 1 <= w <= 4
    ensures w == 1 <==> c as int < 0x80
  {
    if c as int < 0x80 then 1
    else if c as int < 0x800 then 2
    else if c as int < 0x1_0000 then 3
    else 4
  }

  /** Go's `len(s)`: the length of `s` in UTF-8 bytes. */
  function Utf8Len(s: string): (n: nat)
    ensures |s| <= n <= 4 * |s|
    ensures n == 0 <==> s == []
  {
    if s == [] then 0 else Utf8Width(s[0]) + Utf8Len(s[1..])
  }

  predicate IsAscii(s: string) {
    forall i :: 0 <= i < |s| ==> s[i] as int < 0x80
  }

  lemma {:induction false} Utf8LenAscii(s: string)
    requires IsAscii(s)
    ensures Utf8Len(s) == |s|
  {
    if s != [] {
      Utf8LenAscii(s[1..]);
    }
  }

  /** ASCII-only `strings.ToLower`; other letters are left as they are. */
  function AsciiLower(s: string): (r: string)
    ensures |r| == |s|
    ensures forall i :: 0 <= i < |s| ==>
      r[i] == (if IsAsciiUpper(s[i]) then (s[i] as int + 32) as char else s[i])
  {
    seq(|s|, i requires 0 <= i < |s| =>
      if IsAsciiUpper(s[i]) then (s[i] as int + 32) as char else s[i])
  }

  /** `strings.HasPrefix`. */
  predicate HasPrefix(s: string, p: string) {
    |p| <= |s| && s[..|p|] == p
  }

  /** `strings.Contains`: `sub` occurs in `s` at some offset. */
  function Contains(s: string, sub: string): (b: bool)
    ensures b <==> exists i :: OccursAt(s, sub, i)
    decreases |s|
  {
    if HasPrefix(s, sub) then
      assert OccursAt(s, sub, 0);
      true
    else if |s| <= |sub| then
      assert forall i :: OccursAt(s, sub, i) ==> i == 0;
      false
    else
      ContainsStep(s, sub);
      Contains(s[1..], sub)
  }

  lemma ContainsStep(s: string, sub: string)
    requires |s| > |sub| && !HasPrefix(s, sub)
    ensures (exists i :: OccursAt(s, sub, i)) <==> (exists i :: OccursAt(s[1..], sub, i))
  {
    if i :| OccursAt(s, sub, i) {
      assert i != 0;
      assert s[1..][i - 1..i - 1 + |sub|] == s[i..i + |sub|];
      assert OccursAt(s[1..], sub, i - 1);
    }
    if j :| OccursAt(s[1..], sub, j) {
      assert s[j + 1..j + 1 + |sub|] == s[1..][j..j + |sub|];
      assert OccursAt(s, sub, j + 1);
    }
  }

  /** `strings.Join`. */
  function Join(parts: seq<string>, sep: string): (r: string)
    ensures parts == [] ==> r == []
    ensures |parts| == 1 ==> r == parts[0]
  {
    if |parts| == 0 then []
    else if |parts| == 1 then parts[0]
    else parts[0] + sep + Join(parts[1..], sep)
  }

  /** Every part appears in the joined string, after the parts and separators before it. */
  lemma {:induction false} JoinHasEveryPart(parts: seq<string>, sep: string, i: nat)
    requires i < |parts|
    ensures exists k :: OccursAt(Join(parts, sep), parts[i], k)
    decreases |parts|
  {
    var j := Join(parts, sep);
    if i == 0 {
      assert j[0..|parts[0]|] == parts[0];
      assert OccursAt(j, parts[0], 0);
    } else {
      JoinHasEveryPart(parts[1..], sep, i - 1);
      var rest := Join(parts[1..], sep);
      var k :| OccursAt(rest, parts[1..][i - 1], k);
      var off := |parts[0]| + |sep|;
      assert j == parts[0] + sep + rest;
      assert j[off + k..off + k + |parts[i]|] == rest[k..k + |parts[i]|];
      assert OccursAt(j, parts[i], off + k);
    }
  }

  // ---------------------------------------------------------------------
  // Decimal numbers
  // ---------------------------------------------------------------------

  function DigitChar(d: nat): (c: char)
    requires d < 10
    ensures IsAsciiDigit(c) && c as int == '0' as int + d
  {
    ('0' as int + d) as char
  }

  function DigitValue(c: char): (d: nat)
    requires IsAsciiDigit(c)
    ensures d < 10 && c as int == '0' as int + d
  {
    c as int - '0' as int
  }

  /** The shortest decimal spelling of `n`. */
  function NatToDecimal(n: nat): (s: string)
    ensures |s| > 0 && AllAsciiDigits(s)
    ensures n > 0 ==> s[0] != '0'
    decreases n
  {
    if n < 10 then [DigitChar(n)] else NatToDecimal(n / 10) + [DigitChar(n % 10)]
  }

  /** The number a non-empty run of decimal digits spells. */
  function DecimalValue(s: string): nat
    requires AllAsciiDigits(s)
  {
    if s == [] then 0 else 10 * DecimalValue(s[..|s| - 1]) + DigitValue(s[|s| - 1])
  }

  lemma {:induction false} DecimalRoundTrip(n: nat)
    ensures DecimalValue(NatToDecimal(n)) == n
    decreases n
  {
    var s := NatToDecimal(n);
    if n >= 10 {
      DecimalRoundTrip(n / 10);
      assert s[..|s| - 1] == NatToDecimal(n / 10);
    }
  }

  /** `strconv.Itoa`. */
  function Itoa(n: int): (s: string)
    ensures |s| > 0
  {
    if n < 0 then "-" + NatToDecimal(-n) else NatToDecimal(n)
  }

  /**
   * `strconv.Atoi` on a 64-bit platform: an optional `+` or `-` followed
   * by at least one ASCII digit, with the value inside the `int` range;
   * anything else is a syntax or range error.
   */
  function Atoi(s: string): (r: Option<int>)
    ensures r.Some? ==> IsInt64(r.value)
    ensures r.Some? ==> |s| > 0 && (IsAsciiDigit(s[0]) || s[0] == '+' || s[0] == '-')
    ensures (|s| > 0 && AllAsciiDigits(s) && IsInt64(DecimalValue(s))) ==> r == Some(DecimalValue(s))
  {
    if |s| == 0 then None
    else
      var negative := s[0] == '-';
      var digits := if s[0] == '+' || s[0] == '-' then s[1..] else s;
      if |digits| == 0 || !AllAsciiDigits(digits) then None
      else
        var v: int := if negative then -(DecimalValue(digits) as int) else DecimalValue(digits);
        if IsInt64(v) then Some(v) else None
  }

  lemma AtoiItoa(n: int)
    requires IsInt64(n)
    ensures Atoi(Itoa(n)) == Some(n)
  {
    if n < 0 {
      DecimalRoundTrip(-n);
      assert Itoa(n)[1..] == NatToDecimal(-n);
    } else {
      DecimalRoundTrip(n);
    }
  }

  /** Go's `fmt.Sprintf("%03d", n)`: zero-padded to three characters, sign included. */
  function ZeroPad3(n: int): (s: string)
    ensures 0 <= n < 1000 ==> |s| == 3 && AllAsciiDigits(s) && DecimalValue(s) == n
    ensures n >= 100 ==> s == NatToDecimal(n)
  {
    if n < 0 then
      "-" + (if n > -10 then "0" + NatToDecimal(-n) else NatToDecimal(-n))
    else if n < 100 then
      var s := [DigitChar(0), DigitChar(n / 10), DigitChar(n % 10)];
      assert s[..2][..1] == [DigitChar(0)];
      assert s[..2][..1][..0] == [];
      assert s[..2] == [DigitChar(0), DigitChar(n / 10)];
      assert DecimalValue(s[..2][..1]) == 0;
      assert DecimalValue(s[..2]) == n / 10;
      s
    else if n < 1000 then
      var s := [DigitChar(n / 100), DigitChar(n / 10 % 10), DigitChar(n % 10)];
      assert s[..2][..1] == [DigitChar(n / 100)];
      assert s[..2][..1][..0] == [];
      assert s[..2] == [DigitChar(n / 100), DigitChar(n / 10 % 10)];
      assert DecimalValue(s[..2][..1]) == n / 100;
      assert DecimalValue(s[..2]) == n / 10;
      assert s == NatToDecimal(n) by {
        assert NatToDecimal(n / 10) == [DigitChar(n / 100), DigitChar(n / 10 % 10)];
      }
      s
    else
      NatToDecimal(n)
  }
}

=== FILE: users.dfy ===
/**
 * The user entity and its validation rules (user/user.go).
 *
 * `Validate` checks, in this order: name, email, phone, password,
 * role and status, counters, lock and failed-login state, and reports
 * the first rule that fails. Names, emails, phones and passwords are
 * trimmed before they are checked; lengths are counted in UTF-8 bytes.
 *
 * Two library facilities are parameters: the Unicode letter/number/
 * punctuation/symbol categories (`RuneClasses`) and `net/mail`'s address
 * parser (`Library.isAddress`). The clock reading `Validate` takes is the
 * parameter `now`.
 */
module Users {
  import opened Base
  import opened Text
  import opened Errs

  const RoleUser: string := "user"
  const RoleAdmin: string := "admin"
  const StatusActive: string := "active"
  const StatusInactive: string := "inactive"
  const StatusLocked: string := "locked"

  const MaxNameLength: nat := 100
  const MinPasswordLength: nat := 9
  const MaxPasswordLength: nat := 72
  const PhoneDigits: nat := 10

  const ErrNameRequired: Error := Errorf(EInvalid, "user: name is required")
  const ErrNameTooLong: Error := Errorf(EInvalid, "user: name is too long")
  const ErrEmailRequired: Error := Errorf(EInvalid, "user: email is required")
  const ErrEmailInvalidFormat: Error := Errorf(EInvalid, "user: email format is invalid")
  const ErrEmailAlreadyExists: Error := Errorf(EConflict, "user: email already exists")
  const ErrPhoneInvalidFormat: Error := Errorf(EInvalid, "user: phone format is invalid")
  const ErrPasswordRequired: Error := Errorf(EInvalid, "user: password is required")
  const ErrPasswordTooShort: Error := Errorf(EInvalid, "user: password must be at least 9 characters")
  const ErrPasswordTooLong: Error := Errorf(EInvalid, "user: password must be at most 72 characters")
  const ErrPasswordMustContainUppercase: Error := Errorf(EInvalid, "user: password must contain at least one uppercase letter")
  const ErrPasswordMustContainLowercase: Error := Errorf(EInvalid, "user: password must contain at least one lowercase letter")
  const ErrPasswordMustContainNumber: Error := Errorf(EInvalid, "user: password must contain at least one number")
  const ErrPasswordMustContainSpecialChar: Error := Errorf(EInvalid, "user: password must contain at least one special character")
  const ErrUserNotFound: Error := Errorf(ENotFound, "user: not found")
  const ErrInvalidRole: Error := Errorf(EInvalid, "user: invalid role")
  const ErrInvalidStatus: Error := Errorf(EInvalid, "user: invalid status")
  const ErrInvalidCounter: Error := Errorf(EInvalid, "user: invalid counter")
  const ErrInvalidLockState: Error := Errorf(EInvalid, "user: invalid lock state")
  const ErrInvalidFailedLoginState: Error := Errorf(EInvalid, "user: invalid failed login state")

  /** A user account. A nil `*time.Time` is `None`. */
  datatype User = User(
    id: string,
    name: string,
    email: string,
    phone: string,
    password: string,
    passwordHash: string,
    role: string,
    status: string,
    failedLoginAttempts: int,
    lockUntil: Option<Instant>,
    lockEscalationLevel: int,
    lastFailedLoginAt: Option<Instant>,
    createdAt: Instant,
    updatedAt: Instant)

  /** Go's `user.User{}`. */
  const EmptyUser: User :=
    User("", "", "", "", "", "", "", "", 0, None, 0, None, ZeroTime, ZeroTime)

  /** The Unicode general-category tests the password rule uses. */
  datatype RuneClasses = RuneClasses(
    isUpper: char -> bool,
    isLower: char -> bool,
    isNumber: char -> bool,
    isPunct: char -> bool,
    isSymbol: char -> bool)

  /** Library behaviour `Validate` depends on. */
  datatype Library = Library(classes: RuneClasses, isAddress: string -> bool)

  /** ASCII punctuation (Unicode category P) as `unicode.IsPunct` reports it. */
  predicate IsAsciiPunct(c: char) {
    c in "!\"#%&'()*,-./:;?@[\\]_{}"
  }

  /** ASCII symbols (Unicode category S) as `unicode.IsSymbol` reports it. */
  predicate IsAsciiSymbol(c: char) {
    c in "$+<=>^`|~"
  }

  /** The categories agree with the Unicode tables on the ASCII range. */
  predicate AgreesOnAscii(rc: RuneClasses) {
    forall c: char :: c as int < 0x80 ==>
      && (rc.isUpper(c) <==> IsAsciiUpper(c))
      && (rc.isLower(c) <==> IsAsciiLower(c))
      && (rc.isNumber(c) <==> IsAsciiDigit(c))
      && (rc.isPunct(c) <==> IsAsciiPunct(c))
      && (rc.isSymbol(c) <==> IsAsciiSymbol(c))
  }

  predicate IsValidRole(r: string) {
    r == RoleUser || r == RoleAdmin
  }

  predicate IsValidStatus(s: string) {
    s == StatusActive || s == StatusInactive || s == StatusLocked
  }

  /** Some character of `s` satisfies `p` (the `contains*` loops). */
  function ContainsWhere(s: string, p: char -> bool): (b: bool)
    ensures b <==> exists i :: 0 <= i < |s| && p(s[i])
  {
    if s == [] then false
    else if p(s[0]) then true
    else
      assert forall i :: 1 <= i < |s| ==> s[i] == s[1..][i - 1];
      ContainsWhere(s[1..], p)
  }

  predicate IsSpecial(rc: RuneClasses, c: char) {
    rc.isPunct(c) || rc.isSymbol(c)
  }

  function ValidateName(name: string): (r: Option<Error>)
    ensures r == None <==> name != "" && Utf8Len(name) <= MaxNameLength
    ensures r != None ==> r == Some(if name == "" then ErrNameRequired else ErrNameTooLong)
  {
    if name == "" then Some(ErrNameRequired)
    else if Utf8Len(name) > MaxNameLength then Some(ErrNameTooLong)
    else None
  }

  function ValidateEmail(email: string, isAddress: string -> bool): (r: Option<Error>)
    ensures r == None <==> email != "" && isAddress(email)
    ensures r != None ==> r == Some(if email == "" then ErrEmailRequired else ErrEmailInvalidFormat)
  {
    if email == "" then Some(ErrEmailRequired)
    else if !isAddress(email) then Some(ErrEmailInvalidFormat)
    else None
  }

  /** The pattern `^\d{10}$`: exactly ten ASCII digits. */
  predicate IsTenDigits(s: string) {
    |s| == PhoneDigits && AllAsciiDigits(s)
  }

  function ValidatePhone(phone: string): (r: Option<Error>)
    ensures r == None <==> phone == "" || IsTenDigits(phone)
    ensures r != None ==> r == Some(ErrPhoneInvalidFormat)
  {
    if phone == "" then None
    else if !IsTenDigits(phone) then Some(ErrPhoneInvalidFormat)
    else None
  }

  /** What the domain password policy asks of a trimmed password. */
  predicate StrongPassword(password: string, rc: RuneClasses) {
    && MinPasswordLength <= Utf8Len(password) <= MaxPasswordLength
    && (exists i :: 0 <= i < |password| && rc.isUpper(password[i]))
    && (exists i :: 0 <= i < |password| && rc.isLower(password[i]))
    && (exists i :: 0 <= i < |password| && rc.isNumber(password[i]))
    && (exists i :: 0 <= i < |password| && IsSpecial(rc, password[i]))
  }

  function ValidatePassword(password: string, rc: RuneClasses): (r: Option<Error>)
    ensures r == None <==> StrongPassword(password, rc)
    ensures password == "" ==> r == Some(ErrPasswordRequired)
    ensures password != "" && Utf8Len(password) < MinPasswordLength ==> r == Some(ErrPasswordTooShort)
    ensures Utf8Len(password) > MaxPasswordLength ==> r == Some(ErrPasswordTooLong)
    ensures password != "" && MinPasswordLength <= Utf8Len(password) <= MaxPasswordLength ==>
      && (!(exists i :: 0 <= i < |password| && rc.isUpper(password[i])) ==>
            r == Some(ErrPasswordMustContainUppercase))
      && ((exists i :: 0 <= i < |password| && rc.isUpper(password[i]))
          && !(exists i :: 0 <= i < |password| && rc.isLower(password[i])) ==>
            r == Some(ErrPasswordMustContainLowercase))
      && ((exists i :: 0 <= i < |password| && rc.isUpper(password[i]))
          && (exists i :: 0 <= i < |password| && rc.isLower(password[i]))
          && !(exists i :: 0 <= i < |password| && rc.isNumber(password[i])) ==>
            r == Some(ErrPasswordMustContainNumber))
      && ((exists i :: 0 <= i < |password| && rc.isUpper(password[i]))
          && (exists i :: 0 <= i < |password| && rc.isLower(password[i]))
          && (exists i :: 0 <= i < |password| && rc.isNumber(password[i]))
          && !(exists i :: 0 <= i < |password| && IsSpecial(rc, password[i])) ==>
            r == Some(ErrPasswordMustContainSpecialChar))
  {
    if password == "" then Some(ErrPasswordRequired)
    else if Utf8Len(password) < MinPasswordLength then Some(ErrPasswordTooShort)
    else if Utf8Len(password) > MaxPasswordLength then Some(ErrPasswordTooLong)
    else if !ContainsWhere(password, rc.isUpper) then Some(ErrPasswordMustContainUppercase)
    else if !ContainsWhere(password, rc.isLower) then Some(ErrPasswordMustContainLowercase)
    else if !ContainsWhere(password, rc.isNumber) then Some(ErrPasswordMustContainNumber)
    else if !ContainsWhere(password, c => IsSpecial(rc, c)) then Some(ErrPasswordMustContainSpecialChar)
    else None
  }

  /** Empty role and status are accepted; non-empty ones must be known. */
  function ValidateRoleAndStatus(u: User): (r: Option<Error>)
    ensures r == None <==> (u.role == "" || IsValidRole(u.role)) && (u.status == "" || IsValidStatus(u.status))
    ensures u.role != "" && !IsValidRole(u.role) ==> r == Some(ErrInvalidRole)
    ensures (u.role == "" || IsValidRole(u.role)) && u.status != "" && !IsValidStatus(u.status) ==>
      r == Some(ErrInvalidStatus)
    ensures r != None ==> r == Some(ErrInvalidRole) || r == Some(ErrInvalidStatus)
  {
    if u.role != "" && !IsValidRole(u.role) then Some(ErrInvalidRole)
    else if u.status != "" && !IsValidStatus(u.status) then Some(ErrInvalidStatus)
    else None
  }

  function ValidateCounters(u: User): (r: Option<Error>)
    ensures r == None <==> u.failedLoginAttempts >= 0 && u.lockEscalationLevel >= 0
    ensures r != None ==> r == Some(ErrInvalidCounter)
  {
    if u.failedLoginAttempts < 0 || u.lockEscalationLevel < 0 then Some(ErrInvalidCounter) else None
  }

  /**
   * The lockout invariant as a declarative statement: an account is
   * locked exactly when it has a lock expiry, that expiry is in the
   * future, and failed-login bookkeeping never points past `now` and is
   * present whenever failures were counted.
   */
  predicate LockStateConsistent(u: User, now: Instant) {
    LockFieldsConsistent(u, now) && FailedLoginConsistent(u, now)
  }

  /** The lock half: locked exactly when a lock expiry is set, and that expiry is in the future. */
  predicate LockFieldsConsistent(u: User, now: Instant) {
    && (u.status == StatusLocked <==> u.lockUntil.Some?)
    && (u.lockUntil.Some? ==> After(u.lockUntil.value, now))
  }

  /** The failed-login half: the last failure is not in the future, and it is recorded whenever failures were counted. */
  predicate FailedLoginConsistent(u: User, now: Instant) {
    && (u.lastFailedLoginAt.Some? ==> !After(u.lastFailedLoginAt.value, now))
    && (u.failedLoginAttempts > 0 ==> u.lastFailedLoginAt.Some?)
  }

  /** A broken lock half is reported as a lock-state error; otherwise a broken failed-login half as a failed-login error. */
  function ValidateLockAndFailedLoginState(u: User, now: Instant): (r: Option<Error>)
    ensures r == None <==> LockStateConsistent(u, now)
    ensures !LockFieldsConsistent(u, now) ==> r == Some(ErrInvalidLockState)
    ensures LockFieldsConsistent(u, now) && !FailedLoginConsistent(u, now) ==> r == Some(ErrInvalidFailedLoginState)
    ensures r != None ==> r == Some(ErrInvalidLockState) || r == Some(ErrInvalidFailedLoginState)
  {
    if u.status == StatusLocked && (u.lockUntil.None? || !After(u.lockUntil.value, now)) then
      Some(ErrInvalidLockState)
    else if u.status != StatusLocked && u.lockUntil.Some? then
      Some(ErrInvalidLockState)
    else if u.lastFailedLoginAt.Some? && After(u.lastFailedLoginAt.value, now) then
      Some(ErrInvalidFailedLoginState)
    else if u.failedLoginAttempts > 0 && u.lastFailedLoginAt.None? then
      Some(ErrInvalidFailedLoginState)
    else
      None
  }

  /** The user with name, email, phone and password trimmed, as `Validate` sees them. */
  function Trimmed(u: User): (t: User)
    ensures t.role == u.role && t.status == u.status && t.lockUntil == u.lockUntil
    ensures t.failedLoginAttempts == u.failedLoginAttempts && t.lockEscalationLevel == u.lockEscalationLevel
    ensures t.lastFailedLoginAt == u.lastFailedLoginAt
  {
    u.(name := TrimSpace(u.name), email := TrimSpace(u.email),
       phone := TrimSpace(u.phone), password := TrimSpace(u.password))
  }

  /** Every rule of `Validate` on already trimmed fields, stated independently of the order it checks them in. */
  predicate Rules(t: User, now: Instant, lib: Library) {
    && t.name != "" && Utf8Len(t.name) <= MaxNameLength
    && t.email != "" && lib.isAddress(t.email)
    && (t.phone == "" || IsTenDigits(t.phone))
    && StrongPassword(t.password, lib.classes)
    && (t.role == "" || IsValidRole(t.role))
    && (t.status == "" || IsValidStatus(t.status))
    && t.failedLoginAttempts >= 0 && t.lockEscalationLevel >= 0
    && LockStateConsistent(t, now)
  }

  /** What a valid user is: its trimmed fields satisfy every rule. */
  predicate WellFormed(u: User, now: Instant, lib: Library) {
    Rules(Trimmed(u), now, lib)
  }

  /** The first error among `checks`, or nil when all of them pass. */
  function FirstFailure(checks: seq<Option<Error>>): (r: Option<Error>)
    ensures r == None <==> forall i :: 0 <= i < |checks| ==> checks[i] == None
    ensures r != None ==>
      exists i :: 0 <= i < |checks| && r == checks[i] && forall j :: 0 <= j < i ==> checks[j] == None
  {
    if checks == [] then None
    else if checks[0] != None then checks[0]
    else
      var r := FirstFailure(checks[1..]);
      assert forall i :: 1 <= i < |checks| ==> checks[i] == checks[1..][i - 1];
      r
  }

  /** The checks of `Validate` on trimmed fields, in the order it makes them. */
  function Checks(t: User, now: Instant, lib: Library): seq<Option<Error>> {
    [ ValidateName(t.name),
      ValidateEmail(t.email, lib.isAddress),
      ValidatePhone(t.phone),
      ValidatePassword(t.password, lib.classes),
      ValidateRoleAndStatus(t),
      ValidateCounters(t),
      ValidateLockAndFailedLoginState(t, now) ]
  }

  /** `User.Validate`: nil when every rule holds, otherwise the first failing rule's error. */
  function Validate(u: User, now: Instant, lib: Library): (r: Option<Error>)
    ensures r == None <==> WellFormed(u, now, lib)
  {
    ChecksPassExactlyUnderRules(Trimmed(u), now, lib);
    FirstFailure(Checks(Trimmed(u), now, lib))
  }

  lemma ChecksPassExactlyUnderRules(t: User, now: Instant, lib: Library)
    ensures (forall i :: 0 <= i < |Checks(t, now, lib)| ==> Checks(t, now, lib)[i] == None)
            <==> Rules(t, now, lib)
  {
    var c := Checks(t, now, lib);
    AllNoneOfSeven(c);
  }

  lemma AllNoneOfSeven(c: seq<Option<Error>>)
    requires |c| == 7
    ensures (forall i :: 0 <= i < |c| ==> c[i] == None) <==>
      (c[0] == None && c[1] == None && c[2] == None && c[3] == None && c[4] == None && c[5] == None && c[6] == None)
  {
  }

  /** The first failing entry is the one reported, whatever the later entries hold. */
  lemma {:induction false} FirstFailureIsFirst(checks: seq<Option<Error>>, k: nat)
    requires k < |checks| && checks[k] != None
    requires forall j :: 0 <= j < k ==> checks[j] == None
    ensures FirstFailure(checks) == checks[k]
    decreases k
  {
    if k > 0 {
      assert checks[0] == None;
      FirstFailureIsFirst(checks[1..], k - 1);
    }
  }

  /**
   * `Validate` reports the error of the first rule, in checking order,
   * that fails: rules after it are never consulted.
   */
  lemma ValidateReportsFirstFailure(u: User, now: Instant, lib: Library, k: nat)
    requires k < |Checks(Trimmed(u), now, lib)| && Checks(Trimmed(u), now, lib)[k] != None
    requires forall j :: 0 <= j < k ==> Checks(Trimmed(u), now, lib)[j] == None
    ensures Validate(u, now, lib) == Checks(Trimmed(u), now, lib)[k]
  {
    FirstFailureIsFirst(Checks(Trimmed(u), now, lib), k);
  }

  /** A malformed phone is reported only when name and email are fine. */
  lemma PhoneErrorMeansNameAndEmailPassed(u: User, now: Instant, lib: Library)
    requires Validate(u, now, lib) == Some(ErrPhoneInvalidFormat)
    ensures ValidateName(TrimSpace(u.name)) == None
    ensures ValidateEmail(TrimSpace(u.email), lib.isAddress) == None
    ensures TrimSpace(u.phone) != "" && !IsTenDigits(TrimSpace(u.phone))
  {
    PhoneErrorOnTrimmed(Trimmed(u), now, lib);
  }

  lemma PhoneErrorOnTrimmed(t: User, now: Instant, lib: Library)
    requires FirstFailure(Checks(t, now, lib)) == Some(ErrPhoneInvalidFormat)
    ensures ValidateName(t.name) == None && ValidateEmail(t.email, lib.isAddress) == None
    ensures t.phone != "" && !IsTenDigits(t.phone)
  {
    OnlyThePhoneCheckGivesThePhoneError(t, now, lib);
    FailureOnlyTheThirdCanGive(Checks(t, now, lib), ErrPhoneInvalidFormat);
  }

  /** When only the third of the checks can give `e` and `e` is the first failure, the two before it passed. */
  lemma FailureOnlyTheThirdCanGive(c: seq<Option<Error>>, e: Error)
    requires |c| == 7 && FirstFailure(c) == Some(e)
    requires c[0] != Some(e) && c[1] != Some(e)
    requires c[3] != Some(e) && c[4] != Some(e) && c[5] != Some(e) && c[6] != Some(e)
    ensures c[0] == None && c[1] == None && c[2] == Some(e)
  {
  }

  lemma OnlyThePhoneCheckGivesThePhoneError(t: User, now: Instant, lib: Library)
    ensures ValidateName(t.name) != Some(ErrPhoneInvalidFormat)
    ensures ValidateEmail(t.email, lib.isAddress) != Some(ErrPhoneInvalidFormat)
    ensures ValidatePassword(t.password, lib.classes) != Some(ErrPhoneInvalidFormat)
    ensures ValidateRoleAndStatus(t) != Some(ErrPhoneInvalidFormat)
    ensures ValidateCounters(t) != Some(ErrPhoneInvalidFormat)
    ensures ValidateLockAndFailedLoginState(t, now) != Some(ErrPhoneInvalidFormat)
  {
    PasswordErrorsAreNotThePhoneError(t.password, lib.classes);
  }

  lemma PasswordErrorsAreNotThePhoneError(password: string, rc: RuneClasses)
    ensures ValidatePassword(password, rc) != Some(ErrPhoneInvalidFormat)
  {
  }

  /** A fresh account with a good password, name and email and no lockout history validates. */
  lemma FreshAccountValidates(u: User, now: Instant, lib: Library)
    requires ValidateName(TrimSpace(u.name)) == None
    requires ValidateEmail(TrimSpace(u.email), lib.isAddress) == None
    requires TrimSpace(u.phone) == ""
    requires StrongPassword(TrimSpace(u.password), lib.classes)
    requires u.role == "" && u.status == ""
    requires u.failedLoginAttempts == 0 && u.lockEscalationLevel == 0
    requires u.lockUntil == None && u.lastFailedLoginAt == None
    ensures Validate(u, now, lib) == None
  {
  }

  /** A locked account is valid only while its lock lies in the future. */
  lemma LockedNeedsFutureExpiry(u: User, now: Instant, lib: Library)
    requires u.status == StatusLocked
    requires Validate(u, now, lib) == None
    ensures u.lockUntil.Some? && u.lockUntil.value > now
  {
  }
}

=== FILE: userusecase.dfy ===
/**
 * The user use case: `AddUser` validates, hashes the password and hands
 * the user to the repository; `ListUsers` returns the repository's list.
 *
 * `AddUserAsWritten` is the code as it stands: it puts the hash in the
 * `Password` field, which no repository stores, and leaves `PasswordHash`
 * as the caller gave it. `AddUser` is the evidently intended version the
 * unit test describes: the hash in `PasswordHash`, no plain password, and
 * the default role and status filled in before the repository sees the
 * user. The lemmas show what each does to the PostgreSQL table and to a
 * later login.
 */
module UserUsecase {
  import opened Base
  import opened Errs
  import opened Users
  import PgUsers
  import Auth

  /** What `AddUser` did: whether it called the hasher, what it passed to `CreateUser` (if anything), and its error. */
  datatype AddOutcome = AddOutcome(hashed: bool, sent: Option<User>, err: Option<Error>)

  /** `AddUser` as written: the hash replaces `Password`; `PasswordHash`, role and status are passed on untouched. */
  function AddUserAsWritten(hasher: Auth.Hasher, create: User -> Option<Error>, u: User, now: Instant, lib: Library): (o: AddOutcome)
    ensures Validate(u, now, lib).Some? ==> o == AddOutcome(false, None, Validate(u, now, lib))
    ensures Validate(u, now, lib).None? && hasher.hash(u.password).Failure? ==>
      o == AddOutcome(true, None, Some(hasher.hash(u.password).error))
    ensures o.sent.Some? ==>
      && Validate(u, now, lib).None? && hasher.hash(u.password).Success?
      && o.sent.value == u.(password := hasher.hash(u.password).value)
      && o.err == create(o.sent.value)
  {
    match Validate(u, now, lib)
    case Some(e) => AddOutcome(false, None, Some(e))
    case None =>
      match hasher.hash(u.password)
      case Failure(e) => AddOutcome(true, None, Some(e))
      case Success(hashed) =>
        var sent := u.(password := hashed);
        AddOutcome(true, Some(sent), create(sent))
  }

  /**
   * The user the repository should receive: the hash in `PasswordHash`,
   * no plain password, an empty role or status replaced by its default,
   * and every other field as given.
   */
  function Prepared(u: User, hashed: string): (p: User)
    ensures p.passwordHash == hashed && p.password == ""
    ensures p.role != "" && (u.role != "" ==> p.role == u.role) && (u.role == "" ==> p.role == RoleUser)
    ensures p.status != "" && (u.status != "" ==> p.status == u.status) && (u.status == "" ==> p.status == StatusActive)
    ensures p.(password := u.password, passwordHash := u.passwordHash, role := u.role, status := u.status) == u
  {
    u.(password := "", passwordHash := hashed,
       role := if u.role == "" then RoleUser else u.role,
       status := if u.status == "" then StatusActive else u.status)
  }

  /** `AddUser` as evidently intended. */
  function AddUser(hasher: Auth.Hasher, create: User -> Option<Error>, u: User, now: Instant, lib: Library): (o: AddOutcome)
    ensures Validate(u, now, lib).Some? ==> o == AddOutcome(false, None, Validate(u, now, lib))
    ensures Validate(u, now, lib).None? && hasher.hash(u.password).Failure? ==>
      o == AddOutcome(true, None, Some(hasher.hash(u.password).error))
    ensures o.sent.Some? ==>
      && Validate(u, now, lib).None? && hasher.hash(u.password).Success?
      && o.sent.value == Prepared(u, hasher.hash(u.password).value)
      && o.err == create(o.sent.value)
    ensures Validate(u, now, lib).None? && hasher.hash(u.password).Success? ==> o.sent.Some?
    ensures o.sent.Some? ==>
      && o.sent.value.passwordHash == hasher.hash(u.password).value && o.sent.value.password == ""
      && o.sent.value.role == (if u.role == "" then RoleUser else u.role)
      && o.sent.value.status == (if u.status == "" then StatusActive else u.status)
      && o.sent.value.name == u.name && o.sent.value.email == u.email
  {
    match Validate(u, now, lib)
    case Some(e) => AddOutcome(false, None, Some(e))
    case None =>
      match hasher.hash(u.password)
      case Failure(e) => AddOutcome(true, None, Some(e))
      case Success(hashed) =>
        var sent := Prepared(u, hashed);
        AddOutcome(true, Some(sent), create(sent))
  }

  /** The PostgreSQL repository's `CreateUser` as a callable error-returning function. */
  function PgCreate(t: PgUsers.Table, now: Instant, freshId: string, fault: Option<Error>): User -> Option<Error> {
    (u: User) =>
      var w := PgUsers.CreateUser(t, u, now, freshId, fault);
      if w.result.Failure? then Some(w.result.error) else None
  }

  /** What the table holds for a user `CreateUser` has just inserted. */
  lemma CreatedUserReadsBack(t: PgUsers.Table, sent: User, now: Instant, freshId: string)
    requires PgUsers.Consistent(t)
    requires PgUsers.CreateUser(t, sent, now, freshId, None).result.Success?
    ensures PgCreate(t, now, freshId, None)(sent).None?
    ensures var stored := PgUsers.GetByEmail(PgUsers.CreateUser(t, sent, now, freshId, None).table, sent.email, None);
      && stored.Success?
      && stored.value.passwordHash == sent.passwordHash
      && stored.value.role == (if sent.role == "" then RoleUser else sent.role)
      && stored.value.status == (if sent.status == "" then StatusActive else sent.status)
  {
    PgUsers.CreateThenGetByEmail(t, sent, now, freshId);
  }

  /**
   * As written, the hash never reaches the table: for a new user whose
   * `PasswordHash` the caller left empty, the stored hash is empty,
   * whatever the hasher produced.
   */
  lemma AsWrittenStoresNoHash(hasher: Auth.Hasher, t: PgUsers.Table, u: User, now: Instant, lib: Library,
                              freshId: string)
    requires PgUsers.Consistent(t)
    requires u.passwordHash == ""
    requires Validate(u, now, lib).None? && hasher.hash(u.password).Success?
    requires PgUsers.CreateUser(t, u.(password := hasher.hash(u.password).value), now, freshId, None).result.Success?
    ensures var o := AddUserAsWritten(hasher, PgCreate(t, now, freshId, None), u, now, lib);
      && o.sent.Some? && o.err.None?
      && var t' := PgUsers.CreateUser(t, o.sent.value, now, freshId, None).table;
         PgUsers.GetByEmail(t', u.email, None).Success?
         && PgUsers.GetByEmail(t', u.email, None).value.passwordHash == ""
  {
    var sent := u.(password := hasher.hash(u.password).value);
    var o := AddUserAsWritten(hasher, PgCreate(t, now, freshId, None), u, now, lib);
    assert o.sent == Some(sent);
    CreatedUserReadsBack(t, sent, now, freshId);
  }

  /**
   * The consequence: a user added as written cannot log in with the
   * password it was added with, because a hasher refuses every password
   * against an empty hash (bcrypt reports a hash too short).
   */
  lemma AsWrittenUserCannotLogIn(uc: Auth.Usecase, t: PgUsers.Table, u: User, now: Instant, lib: Library,
                                 freshId: string)
    requires PgUsers.Consistent(t)
    requires u.passwordHash == ""
    requires Validate(u, now, lib).None? && uc.hasher.hash(u.password).Success?
    requires PgUsers.CreateUser(t, u.(password := uc.hasher.hash(u.password).value), now, freshId, None).result.Success?
    requires uc.hasher.compare("", u.password).Some?
    ensures var o := AddUserAsWritten(uc.hasher, PgCreate(t, now, freshId, None), u, now, lib);
      && o.sent.Some?
      && var t' := PgUsers.CreateUser(t, o.sent.value, now, freshId, None).table;
         !Auth.Accepts(uc, Auth.UserDb(t', None, None, None, freshId), u.email, u.password)
  {
    AsWrittenStoresNoHash(uc.hasher, t, u, now, lib, freshId);
  }

  /** With the intended `AddUser` the table holds the hash and the default role and status. */
  lemma AddUserStoresHash(hasher: Auth.Hasher, t: PgUsers.Table, u: User, now: Instant, lib: Library, freshId: string)
    requires PgUsers.Consistent(t)
    requires Validate(u, now, lib).None? && hasher.hash(u.password).Success?
    requires PgUsers.CreateUser(t, Prepared(u, hasher.hash(u.password).value), now, freshId, None).result.Success?
    ensures var o := AddUser(hasher, PgCreate(t, now, freshId, None), u, now, lib);
      && o.sent.Some? && o.err.None?
      && var stored := PgUsers.GetByEmail(PgUsers.CreateUser(t, o.sent.value, now, freshId, None).table, u.email, None);
         && stored.Success?
         && stored.value.passwordHash == hasher.hash(u.password).value
         && stored.value.role == (if u.role == "" then RoleUser else u.role)
         && stored.value.status == (if u.status == "" then StatusActive else u.status)
  {
    var sent := Prepared(u, hasher.hash(u.password).value);
    var o := AddUser(hasher, PgCreate(t, now, freshId, None), u, now, lib);
    assert o.sent == Some(sent);
    CreatedUserReadsBack(t, sent, now, freshId);
  }

  /** A user added with the intended `AddUser` can log in with its password, given a hasher that accepts its own hashes. */
  lemma AddedUserCanLogIn(uc: Auth.Usecase, t: PgUsers.Table, u: User, now: Instant, lib: Library, freshId: string)
    requires PgUsers.Consistent(t)
    requires Validate(u, now, lib).None? && uc.hasher.hash(u.password).Success?
    requires uc.hasher.compare(uc.hasher.hash(u.password).value, u.password).None?
    requires PgUsers.CreateUser(t, Prepared(u, uc.hasher.hash(u.password).value), now, freshId, None).result.Success?
    ensures var o := AddUser(uc.hasher, PgCreate(t, now, freshId, None), u, now, lib);
      && o.sent.Some?
      && var t' := PgUsers.CreateUser(t, o.sent.value, now, freshId, None).table;
         Auth.Accepts(uc, Auth.UserDb(t', None, None, None, freshId), u.email, u.password)
  {
    AddUserStoresHash(uc.hasher, t, u, now, lib, freshId);
  }

  /** `ListUsers`: the repository's list, unchanged. */
  function ListUsers(t: PgUsers.Table, fault: Option<Error>): (r: Result<seq<User>, Error>)
    ensures r == PgUsers.AllUsers(t, fault)
  {
    PgUsers.AllUsers(t, fault)
  }

  /** After a successful `AddUser`, `ListUsers` lists the earlier users and then the new one with its hash. */
  lemma AddThenList(hasher: Auth.Hasher, t: PgUsers.Table, u: User, now: Instant, lib: Library, freshId: string)
    requires Validate(u, now, lib).None? && hasher.hash(u.password).Success?
    requires PgUsers.CreateUser(t, Prepared(u, hasher.hash(u.password).value), now, freshId, None).result.Success?
    ensures var o := AddUser(hasher, PgCreate(t, now, freshId, None), u, now, lib);
      var all := ListUsers(PgUsers.CreateUser(t, o.sent.value, now, freshId, None).table, None).value;
      && |all| == |t| + 1
      && all[..|t|] == ListUsers(t, None).value
      && all[|t|].email == u.email && all[|t|].passwordHash == hasher.hash(u.password).value
  {
    PgUsers.AllUsersAfterCreate(t, Prepared(u, hasher.hash(u.password).value), now, freshId);
  }
}
